=== FILE: README.md ===
# Inventory dashboard core, in Dafny

This project models the logic of an inventory-management admin dashboard (a
Next.js/React application). It leaves out the rendering, and the network and
storage glue that surrounds that logic. It covers:

- the data table's view state. That is the storage key derived from the
  columns, loading a saved view into the current one, persisting and
  resetting it, seeding and moving the column order, and grouping rows
  under a column's value;
- the navigation sidebar's collapse flags: per group, all groups at once, and
  the sidebar as a whole;
- breadcrumbs derived from a path;
- the barcode scan history;
- the API-key and webhook lists of the integrations page;
- the "first expired, first out" batch suggestion on the sales page;
- the replenishment table;
- the dashboard's figures: the item filter, stock per item, low-stock and
  stock-out counts, batches expiring soon, today's sales, slow movers, the
  detail table and the stat-card colour pair;
- the dashboard charts: records per day, top items, items per type,
  low-stock items per brand, returns per status, the seven-day sales series
  and stock age buckets;
- the text the CSV export builds.

Modelling conventions:

- Timestamps are integers (milliseconds). The UTC calendar day that an ISO
  date prefix names is `t / 86400000`, rounded down.
- An optional field is an `Option`. What `None` stands for is said per
  field. A date field is `None` when it is absent, `null` or empty, which
  the source treats alike by testing its truthiness; the per-day chart is
  the exception, where `Charts.Stamp` tells `null` (the epoch) from an
  absent or empty date (an invalid one). Name and number fields keep the
  empty string and 0 as `Some("")` and `Some(0)`, with JavaScript
  truthiness written out (`Common.TruthyInt`, `Common.TruthyStr`). In a
  saved table view, `None` is a field that is not a string, so a saved
  `""` still overwrites.
- JavaScript objects used as dictionaries are association lists kept in
  first-insertion order (`Grouping.Counts`, `Grouping.Partition`). Where a
  dictionary is listed, the listing puts array-index keys first, in
  ascending order, as `Object.entries` and `Object.values` do
  (`DataTable.Entries`, `Dashboard.ItemGroups`). The charts' dictionaries
  keep insertion order; see "Left out".
- Browser storage is a map from key to entry. A stored entry is either
  unreadable or a parsed record of optional fields.

Each module follows one source file: `DataTable`, `Sidebar`, `Breadcrumbs`,
`Scanning`, `Integrations`, `Sales`, `Replenishment`, `Dashboard`, `Charts` and
`Csv`. Shared pieces live in `Common` (option, truthiness, filter and count),
`Strings` (join/split, trim, integer text), `Records` (record shapes and
look-ups), `Grouping` (first-encounter partition and tallies) and `Ordering`
(the stable sort with a missing key last).

## Model

| member | source | states |
|---|---|---|
| DataTable.StorageKey | components/data/DataTable.tsx:16 | The key starts with `datatable:view:`. When no column name contains the bar separator, splitting the rest on it gives back each column's name in order. |
| DataTable.StorageKeyIdentifiesSignature | components/data/DataTable.tsx:16 | Two non-empty column lists without the bar in their names get the same key exactly when their column names agree. |
| DataTable.Signature | components/data/DataTable.tsx:16 | One name per column, in column order, each being `id`, else `accessorKey`, else empty. |
| DataTable.Load | components/data/DataTable.tsx:25-37 | A missing or unreadable entry leaves the view unchanged. Otherwise each of the six fields is replaced when the saved one is present and kept when it is not. |
| DataTable.Persist | components/data/DataTable.tsx:42-49 | Writes a parsed entry under the key and leaves every other key as it was. |
| DataTable.LoadAfterPersist | components/data/DataTable.tsx:25-49 | Save/load round trip: loading what was persisted restores all six fields, whatever the current view is. |
| DataTable.PersistIsolated | components/data/DataTable.tsx:42-49 | Persisting under one key does not change what another key loads. |
| DataTable.LoadIdempotent | components/data/DataTable.tsx:25-37 | Loading the same entry twice is the same as loading it once. |
| DataTable.Reset | components/data/DataTable.tsx:51-59 | Yields the default view (empty sorting, filter, visibility, pinning lists, order and group-by). Removes only the entry for this key. |
| DataTable.ReloadAfterReset | components/data/DataTable.tsx:51-59 | After a reset, a reload changes nothing, and persisting the reset view loads back as the defaults. |
| DataTable.SeedOrder | components/data/DataTable.tsx:77-83 | An empty column order becomes the list of leaf column ids. A non-empty one is kept. |
| DataTable.SeedIdempotent | components/data/DataTable.tsx:77-83 | Seeding twice is seeding once. |
| DataTable.MoveColumn | components/data/DataTable.tsx:85-93 | Keeps the same length and is a permutation. It is a no-op for an absent id or a neighbour out of range. Otherwise it swaps exactly the column and its neighbour and leaves every other position alone. |
| DataTable.UpThenDown | components/data/DataTable.tsx:85-93 | Moving a column up and then down restores the order whenever the up move did something. |
| DataTable.DownThenUp | components/data/DataTable.tsx:85-93 | Moving a column down and then up restores the order, provided the down move did something and the neighbour is a different id. |
| DataTable.MoveKeepsPermutation | components/data/DataTable.tsx:85-93 | An order that is a permutation of the leaf ids stays one after any move. |
| DataTable.ArrangeInertAfterReset | components/data/DataTable.tsx:51-59 | Right after a reset the order is empty, so every move is a no-op. |
| DataTable.MountAsWritten | components/data/DataTable.tsx:25-39 | The order after mounting as written: always the leaf ids, whatever was saved. |
| DataTable.SavedOrderLostOnMount | components/data/DataTable.tsx:77-83 | Concrete case: a saved order `b, a` loads, yet the mounted order is `a, b`. |
| DataTable.Mount | components/data/DataTable.tsx:77-83 | Mounting with seeding applied to the loaded order gives a non-empty order whenever there are leaf columns. |
| DataTable.MountRestoresPersisted | components/data/DataTable.tsx:25-83 | With that corrected seeding, a persisted view with a non-empty order comes back whole on the next mount. |
| DataTable.LabelsAreStrings | components/data/DataTable.tsx:201 | Group keys are `String(v ?? '—')`: the number 0 and the text "0" share a group, and null and undefined both fall under `—`. |
| DataTable.GroupsPartitionRows | components/data/DataTable.tsx:197-206 | The groups have distinct keys, and every row's key is among them. Each group holds exactly the rows with its key, in input order. The group sizes add up to the number of rows. |
| DataTable.GroupedRowsCovered | components/data/DataTable.tsx:197-206 | The grouped rows are a rearrangement of the input rows. |
| DataTable.BodyShowsEveryRow | components/data/DataTable.tsx:197-235 | The table body shows every row exactly once, grouped (in `Object.entries` order) or not. Without a group-by column it shows them in input order. |
| DataTable.NoResultsIffEmpty | components/data/DataTable.tsx:236-240 | "No results" appears exactly when there are no rows. |
| DataTable.GroupingExample | components/data/DataTable.tsx:199-206 | For any rows labelled a, b, a with a different from b, the dictionary collects the groups a (the first and third rows, in order) then b. When neither label is an array index, `Object.entries` lists them in that order. |
| DataTable.NumberGroupsExample | components/data/DataTable.tsx:199-205 | Number cells 1, 0, 1 are collected as "1" then "0", and listed with "0" first: array-index labels come out in ascending order. |
| DataTable.NumberLabelIsIndexKey | components/data/DataTable.tsx:201-205 | The label of a number cell is an array-index key exactly when the number lies in 0 .. 2^32 - 2. |
| DataTable.EntriesOrder | components/data/DataTable.tsx:205 | `Object.entries` lists the same groups. Array-index keys come first, in ascending order, and the other keys keep their insertion order. |
| DataTable.EntriesKeepOrder | components/data/DataTable.tsx:205 | Without array-index keys, the groups are listed in insertion order. |
| DataTable.GroupRowsAsWrittenThrows | components/data/DataTable.tsx:199-203 | The grouping loop as written throws exactly when some row's label names a member every object inherits (`constructor`, `toString`, `__proto__`, …). Otherwise it builds the same groups as `DataTable.GroupRows`. |
| DataTable.PushAllThrows | components/data/DataTable.tsx:199-203 | On a dictionary whose inherited names hold non-arrays, the push loop fails exactly when some label is one of those names. |
| DataTable.PushAllAgrees | components/data/DataTable.tsx:199-203 | When the push loop does not fail, its groups are the first-appearance partition of the rows by label. |
| DataTable.InheritedLabelThrows | components/data/DataTable.tsx:201-203 | Concrete case: one row whose group-by cell is the text "constructor". As written it throws, and the intended grouping gives it a group of its own. |
| Sidebar.Hydrate | components/layout/Sidebar.tsx:16-22 | A non-empty saved sidebar flag sets collapsed to whether it is exactly `"true"`. A parsed group record replaces the group flags. Anything else keeps the current state. |
| Sidebar.ToggleSidebar | components/layout/Sidebar.tsx:23-29 | The handler flips `collapsed`, leaves the groups alone and stores only the sidebar flag. |
| Sidebar.ToggleSidebarSurvivesReload | components/layout/Sidebar.tsx:16-29 | What the handler stores reads back on the next mount as the flag it just set. |
| Sidebar.ToggleGroup | components/layout/Sidebar.tsx:34-40 | Flips only the given group, with a missing flag counting as unfolded. Every other key keeps its presence and value. The new record is stored. |
| Sidebar.ToggleGroupTwice | components/layout/Sidebar.tsx:34-40 | Toggling a group twice restores every group's fold state. |
| Sidebar.AllGroupsCollapsed | components/layout/Sidebar.tsx:96-98 | True exactly when every collapsible group's flag is set. |
| Sidebar.Uniform | components/layout/Sidebar.tsx:100-105 | The record holding exactly the collapsible group keys, all with one value. |
| Sidebar.ToggleAllGroups | components/layout/Sidebar.tsx:84-108 | Produces the uniform record set to the negation of "all collapsed". The core group is never in it. The record is stored. |
| Sidebar.ToggleAllFlips | components/layout/Sidebar.tsx:98-108 | After collapse-all/expand-all, "all collapsed" has flipped. |
| Sidebar.ToggleAllTwice | components/layout/Sidebar.tsx:98-108 | Applied twice to a uniform record it is the identity. Applied three times it equals applying it once. |
| Sidebar.CollapsedSidebarFoldsNothing | components/layout/Sidebar.tsx:244 | A collapsed sidebar folds no group whatever the flags say. An expanded one folds exactly the flagged groups. |
| Sidebar.GroupsSurviveReload | components/layout/Sidebar.tsx:20-21 | The group record a reload reads is the one the last group toggle stored. |
| Breadcrumbs.Segments | components/layout/Breadcrumbs.tsx:9 | Every segment is non-empty and contains no `/`. |
| Breadcrumbs.SegmentsOfPath | components/layout/Breadcrumbs.tsx:9 | Any list of such segments is recovered from the path `'/' + join('/')`. |
| Breadcrumbs.NoSegmentsIffOnlySlashes | components/layout/Breadcrumbs.tsx:9 | There are no crumbs exactly when the path is missing, empty or made only of slashes (`/`, `//`, …). |
| Breadcrumbs.Crumbs | components/layout/Breadcrumbs.tsx:10-13 | One crumb per segment. Each href is `'/' + segments[0..i]` joined with `/`. Each label is the decoded segment with `-` turned into spaces. Exactly the last crumb is marked last. |
| Breadcrumbs.HrefExtends | components/layout/Breadcrumbs.tsx:11 | Each href is a strict prefix of the next one, which adds `/` and the next segment. |
| Breadcrumbs.HrefLeadsToPrefix | components/layout/Breadcrumbs.tsx:9-11 | Following crumb i's href gives the first i+1 segments. |
| Breadcrumbs.LabelsHaveNoDashes | components/layout/Breadcrumbs.tsx:12 | Before decoding, a label has no `-` and the same length as its segment. |
| Breadcrumbs.TrailShape | components/layout/Breadcrumbs.tsx:17-39 | The trail is Home, then a separator and a node per segment. Every crumb but the last is a link to its href, and the last is a page. |
| Breadcrumbs.CrumbNodesShape | components/layout/Breadcrumbs.tsx:17-27 | Crumb nodes alternate with separators, and there is no separator after the last. |
| Breadcrumbs.OnePage | components/layout/Breadcrumbs.tsx:13-39 | A node is a page exactly when there are segments and it is the final node. |
| Scanning.OnScan | app/scanning/page.tsx:10-15 | Blank input leaves the state unchanged. Otherwise `last` is the trimmed code, and the history is the trimmed code followed by the old history, cut to 20. |
| Scanning.OnScanKeepsGood | app/scanning/page.tsx:11-14 | The history stays at most 20 entries, each non-empty with no surrounding white space. |
| Scanning.ScanAllHistory | app/scanning/page.tsx:10-15 | After any sequence of scans, the history is the accepted codes, newest first, ahead of the old history, cut to 20. `last` is the newest accepted code. |
| Scanning.BlankScansChangeNothing | app/scanning/page.tsx:11-12 | A sequence of blank scans changes nothing. |
| Strings.Trim | app/scanning/page.tsx:11 | The result is no longer than the input. It is empty exactly when the input is all white space, and otherwise has no white space at either end. |
| Strings.TrimIdempotent | app/scanning/page.tsx:11 | Trimming twice is trimming once. |
| Integrations.CreateKey | app/integrations/page.tsx:16-19 | Prepends one key with id `now`, name `Key <now>` and the demo mask. The existing keys follow unchanged. |
| Integrations.CreatedNamesDistinct | app/integrations/page.tsx:16-19 | Keys created at different times get different names. |
| Integrations.Revoke | app/integrations/page.tsx:20 | No key with the id remains. Every remaining key was there before, and every key with another id is still there. The length drops by the number of keys with that id. |
| Integrations.RevokeKeepsOrder | app/integrations/page.tsx:20 | Revoking from two joined lists is joining the two revoked lists, and a single key is kept exactly when its id differs. So the kept keys stay in their order. |
| Integrations.RevokeUndoesCreate | app/integrations/page.tsx:16-20 | Revoking a freshly created key with a new id gives back the old list. |
| Integrations.RevokeIdempotent | app/integrations/page.tsx:20 | Revoking twice is revoking once. |
| Integrations.AddWebhook | app/integrations/page.tsx:21 | Prepends `{url:'', events:[], enabled:false}`. The existing webhooks follow unchanged. |
| Integrations.SetUrl | app/integrations/page.tsx:49-51 | Only the edited entry changes, and only its url. |
| Integrations.SetUrlUndo | app/integrations/page.tsx:49-51 | Writing the old url back restores the list. |
| Integrations.SelectEvent | app/integrations/page.tsx:55-57 | Only the edited entry changes. Its events are `[v]`, or empty when v is empty, so there is at most one. |
| Integrations.SetEnabled | app/integrations/page.tsx:67 | Only the edited entry changes, and only its enabled flag. |
| Integrations.EditsKeepIds | app/integrations/page.tsx:49-67 | Per-entry edits keep every webhook id in place. |
| Integrations.EditsCommute | app/integrations/page.tsx:49-67 | Edits of two different entries commute. |
| Integrations.RemoveWebhook | app/integrations/page.tsx:71 | No webhook with the id remains. Every remaining webhook was there before, and every webhook with another id is still there. The length drops by the number of webhooks with that id. |
| Integrations.RemoveKeepsOrder | app/integrations/page.tsx:71 | Removing from two joined lists is joining the two shortened lists, and a single webhook is kept exactly when its id differs. So the kept webhooks stay in their order. |
| Integrations.RemoveUndoesAdd | app/integrations/page.tsx:21-71 | Removing a freshly added webhook with a new id gives back the old list. |
| Ordering.SortByKey | app/sales/page.tsx:63-68 | The sorted copy is a permutation, ascending by key with missing keys last. |
| Ordering.SortStable | app/sales/page.tsx:63-68 | Rows with equal keys keep their input order. |
| Sales.FefoSorted | app/sales/page.tsx:63-68 | A permutation of the batches, of the same length. |
| Sales.FefoOrder | app/sales/page.tsx:64-67 | Dated batches are in ascending expiry order, and undated batches come after every dated one. |
| Sales.FefoStable | app/sales/page.tsx:63-68 | Batches with the same expiry keep their order. |
| Sales.SuggestFefo | app/sales/page.tsx:70-76 | An empty list changes nothing. Otherwise both ids come from one batch whose expiry is minimal, and the other form fields are kept. |
| Sales.SuggestUniqueEarliest | app/sales/page.tsx:70-76 | When one batch expires strictly first, that batch is picked. |
| Sales.SuggestIdempotent | app/sales/page.tsx:70-76 | Suggesting twice is suggesting once. |
| Replenishment.DisplayNumber | app/replenishment/page.tsx:6-8 | 0 for a non-finite n or one that rounds below zero. Otherwise the nearest integer, with halves rounded up. |
| Replenishment.DisplayWholeNumber | app/replenishment/page.tsx:6-8 | A whole number displays as itself, or 0 if negative. |
| Replenishment.CurrentIsSum | app/replenishment/page.tsx:16-20 | Current stock is the sum of the item's batch quantities, with a missing quantity counting 0. |
| Records.LastIndexOfId | app/replenishment/page.tsx:23-24 | The lookup by batch id returns the last batch with that id, or none. |
| Replenishment.RecentItem | app/replenishment/page.tsx:28-34 | A sale counts for an item exactly when all three hold: it is not older than 30 days (undated counting as time 0), its batch exists, and the batch has a non-zero item id. It counts for that item. |
| Replenishment.SalesCount | app/replenishment/page.tsx:26-35 | The 30-day sales figure of an item is the number of sales that count for it. |
| Replenishment.IgnoredSale | app/replenishment/page.tsx:28-34 | A sale that counts for no item changes no figure. |
| Replenishment.LeadTime | app/replenishment/page.tsx:41 | The first supplier's lead time when it is present and non-zero, else 7. |
| Replenishment.Suggested | app/replenishment/page.tsx:43 | The smallest non-negative order that brings stock to at least `forecast·lead/30 + 10`. |
| Replenishment.SuggestedZero | app/replenishment/page.tsx:43 | The suggestion is 0 exactly when current stock already covers `forecast·lead/30 + 10`. |
| Replenishment.SuggestedAntitone | app/replenishment/page.tsx:43 | More stock on hand never raises the suggestion. |
| Replenishment.Rows | app/replenishment/page.tsx:37-45 | One row per item, in item order, with the item's id and name. |
| Replenishment.RowContents | app/replenishment/page.tsx:37-45 | Each row's stock, 30-day sales, lead time, safety stock and suggestion are as stated above. |
| Dashboard.AllowedItem | app/page.tsx:130-137 | True exactly when the id names an item and two filters pass. With a type filter set, the item's brand exists and has that type. With a brand filter set, the item has that brand. |
| Dashboard.FiltersNarrow | app/page.tsx:130-137 | Dropping a filter never excludes an item. With no filters, exactly the existing ids are allowed. |
| Dashboard.TotalItems | app/page.tsx:138 | At most the number of items, and exactly that with no filters. |
| Dashboard.InStockIsTotal | app/page.tsx:139-152 | The in-stock figure equals the sum of the per-item quantities. |
| Dashboard.PerItemQtyEntries | app/page.tsx:145-152 | Each per-item entry is for an allowed item and is the sum of all that item's batch quantities. |
| Dashboard.StockoutsWithinLowStock | app/page.tsx:153-155 | Stock-outs never exceed low-stock items. |
| Dashboard.ExpiringSoon | app/page.tsx:156-159 | Counts the batches of allowed items with an expiry at most 30 days away, including those already expired. |
| Dashboard.SalesToday | app/page.tsx:141-142 | Counts the dated sales whose calendar day is today's. |
| Dashboard.SlowMoversAsWritten | app/page.tsx:160-164 | Slow movers as written, keyed by `itemId ?? itemQuantityId`: at most the allowed items. |
| Dashboard.SlowMoversAsWrittenSplit | app/page.tsx:138-164 | As written, the slow movers and the allowed items whose id a recent sale carries under `itemId ?? itemQuantityId` add up to the allowed items. |
| Dashboard.SlowMoverMiscount | app/page.tsx:160-164 | Concrete case: item 1, whose only batch is batch 5, is sold from that batch at time 0 with now = 0. It counts as slow as written, and not under the corrected count. |
| Dashboard.SlowMovers | app/page.tsx:160-164 | Corrected slow movers, with each sale resolved to the item of its batch: at most the allowed items. |
| Dashboard.SlowMoversSplit | app/page.tsx:138-164 | The slow movers and the allowed items sold in the last 30 days add up to the allowed items. |
| Dashboard.SoldItemIsNotSlow | app/page.tsx:160-164 | An item sold from one of its batches in the last 30 days is not a slow mover. |
| Dashboard.MinExpiry | app/page.tsx:175-177 | None exactly when no batch is dated. Otherwise an expiry of some batch, and no later than any dated batch's. |
| Dashboard.ByItem | app/page.tsx:169-181 | One row per distinct item id in the inventory, over all batches and ignoring the filters. Row i is the item of the i-th group in `Object.values` order. |
| Dashboard.ByItemOrder | app/page.tsx:169-181 | Rows are listed as `Object.values` lists an object keyed by `Number(itemId)`. Ids that are array indices (whole numbers in 0..2^32-2) come first, strictly ascending. The other ids (`NaN`, negatives) follow in the order their first batch appears. |
| Dashboard.ByItemExample | app/page.tsx:170-181 | One batch of item 5, then one of item 2: the rows list item 2 first, then item 5. |
| Dashboard.ByItemRow | app/page.tsx:169-180 | Each row carries the item's total quantity over all batches, ignoring the filters, its earliest expiry and its display name. |
| Dashboard.ByItemCovers | app/page.tsx:169-180 | Every batch's item has a row, and no item has two. |
| Dashboard.DetailedRows | app/page.tsx:181-183 | Ascending by earliest expiry, with undated rows last. |
| Dashboard.DetailedRowsTies | app/page.tsx:181-183 | Rows with the same earliest expiry, or with none, keep their `Object.values` order, because the sort is stable. |
| Dashboard.DetailedRowsUndated | app/page.tsx:181-183 | When every row needs attention and none is dated, the table is exactly the `Object.values` listing. |
| Dashboard.DetailedRowsExample | app/page.tsx:169-183 | The two undated one-unit batches of items 5 and 2 give a table that lists item 2, then item 5. |
| Dashboard.DetailedRowsMembership | app/page.tsx:181-182 | A row is listed exactly when it is below 10 units or expires within 30 days. |
| Dashboard.BeamPair | app/page.tsx:57-60 | The two colour indices are always distinct and in range. The second draw is kept unless it repeats the first. |
| Charts.DateOf | app/dashboard-charts.tsx:11-12 | The instant `new Date(it.createdAt)` stands for. An absent date is invalid and `null` is the epoch. Any valid date lies within 8.64e15 ms of the epoch. |
| Charts.GroupByDateCounts | app/dashboard-charts.tsx:8-17 | Each day's figure is the number of records whose date falls on that day. Records with an invalid date are skipped, so the figures add up to the number of validly dated records. |
| Charts.GroupByDateDay | app/dashboard-charts.tsx:10-15 | A day's figure is the number of records whose date falls on it. |
| Charts.GroupByDateTotal | app/dashboard-charts.tsx:8-17 | The figures add up to the number of records with a valid date. |
| Charts.GroupByDateNullIsEpoch | app/dashboard-charts.tsx:11-12 | Every record dated `null` is counted on day 0, 1970-01-01. No record without a date is counted. |
| Charts.TopN | app/dashboard-charts.tsx:41-43 | At most n entries, with non-increasing counts. The entries are drawn from the tally, and it is the whole tally when shorter than n. |
| Charts.TopNDropsOnlySmaller | app/dashboard-charts.tsx:41-43 | An entry left out of the top list has a count no larger than every listed one, and the list is full. |
| Charts.TopItems | app/dashboard-charts.tsx:28-44 | At most 8 entries, with non-increasing counts. The entries are drawn from the per-name sale tally, and are the whole tally when it has fewer than 8. |
| Charts.TopItemsCountsRecentSales | app/dashboard-charts.tsx:33-40 | The tally behind the list counts exactly the sales not older than 30 days, with an undated sale counting as time 0. |
| Charts.TypeById | app/dashboard-charts.tsx:49 | Finds a type with that id exactly when one exists. |
| Charts.TypeMixTotal | app/dashboard-charts.tsx:46-57 | The figures add up to the number of items whose brand has a type. The others are skipped. |
| Charts.LowStockByBrand | app/dashboard-charts.tsx:59-71 | At most 8 brands, with non-increasing counts. The entries are drawn from the per-brand tally of low items, and are the whole tally when it has fewer than 8. |
| Charts.LowBrandMeaning | app/dashboard-charts.tsx:60-68 | An item counts toward its brand exactly when its quantities over all batches sum below 10. |
| Charts.ReturnsMixCounts | app/dashboard-charts.tsx:73-77 | Each status's figure is its number of returns, and the figures add up to the number of returns. |
| Charts.Sales7 | app/dashboard-charts.tsx:79-91 | Exactly the seven days ending today, oldest first. Each has the number of sales dated that day. |
| Charts.DaysBack | app/dashboard-charts.tsx:82-83 | Stepping back i·24h from now lands i calendar days before today. |
| Charts.BucketOf | app/dashboard-charts.tsx:94-105 | The first bucket containing the age, or -1 exactly when none does. |
| Charts.BucketsDisjoint | app/dashboard-charts.tsx:94-99 | No age lies in two buckets. |
| Charts.AgingRadar | app/dashboard-charts.tsx:93-109 | Each bucket's figure is the number of dated batches whose age falls in it. The four figures add up to at most the number of batches. |
| Csv.ExportToCsv | components/data/csv.ts:1-5 | Nothing is produced exactly when there are no rows. |
| Csv.CsvShape | components/data/csv.ts:3-5 | The output is `rows + 1` lines joined by newlines. Each line is `keys - 1` bare commas, where the keys are those of the first row. |
| Csv.LineIsCommas | components/data/csv.ts:4-5 | Every field comes out empty, headers included, whatever its value. |
| Csv.CsvOnlySeparators | components/data/csv.ts:4-5 | The output consists of commas and newlines only. |
| Csv.CsvIgnoresLaterKeys | components/data/csv.ts:3 | Only the first row's keys matter. Row lists of equal length whose first rows have the same keys give the same file. |

## Left out

- React rendering, effect scheduling and the 250 ms debounce of the data table's persist effect. Storage is a map, and a persist is an immediate write.
- The sorting, filtering, pagination, pinning and visibility semantics of the table library. That state is held as opaque values, and grouping is stated over any row sequence.
- The data table's groups are listed in `Object.entries` order (`DataTable.Entries`), and the per-item rows in `Object.values` order (`Dashboard.ItemGroups`). The charts' dictionaries are kept in insertion order, whereas `Object.entries` would put array-index keys first, in ascending order. No proved chart property depends on that order, except the order of equal counts in the top-8 lists.
- Numbers are exact integers. The source's numbers are doubles: `String(n)` switches to exponent form from 1e21 on (`1e+21`), and integers above 2^53 are not exact. This affects number cell labels, the `Item <id>` and `#<id>` labels, the `Key <now>` names and every sum and count.
- Charts.TypeMixTotal: the source counts into a plain object with `counts[name] = (counts[name] ?? 0) + 1`, and type names are free text. A type named `__proto__` loses its count, because the prototype setter ignores the text it is given. One named after another inherited member (`toString`, `constructor`, …) gets a text figure such as `function toString() { [native code] }1`. The model counts every name as 1 per item.
- Charts.TopItemsCountsRecentSales: the same holds for item names in the sale tally. An item named `__proto__` loses its sales, and an inherited name gets a text figure.
- Charts.LowStockByBrand: the same holds for brand names in the low-stock tally.
- Date parsing and formatting (`Date.parse`, `toISOString`, `toDateString`). Timestamps are integers. A text date carries the instant it parses to as a parameter of `Charts.Stamp`; elsewhere an unparseable date is not represented. Today's local calendar day is an abstract function parameter.
- Charts.GroupByDateCounts: keys records by UTC day. For a year outside 0000-9999, `toISOString` writes a signed six-digit year, so its first ten characters name a month and the source merges that month's days. A fractional millisecond count is truncated by `Date` and is not represented.
- Dashboard.ByItem: a batch whose `itemId` is absent is keyed `NaN`, a row of its own, as in the source. A batch whose `itemId` is `null` or `""` becomes item 0 in the source, since `Number` converts both to 0; the model has no such value.
- `Date.now()` and `Math.random()` are parameters (`now`, the two draws of `Dashboard.BeamPair`). The count-up animation is left out.
- Replenishment.Suggested: computes `max(0, ceil(forecast·lead/30 + 10 − current))` exactly, as the integer ceiling of `(forecast·lead + 300 − 30·current) / 30`. The source uses floating point, where `lead/30` can round a result up by one at exact multiples.
- Breadcrumbs.Crumbs: `decodeURIComponent` is a parameter; it can throw on a malformed `%` sequence.
- Sidebar.Hydrate: a stored group record is either a flag record or malformed. JSON values that parse but are not flag records are not modelled.
- DataTable.Mount: its own contract states only that the order is non-empty. The restoring property is `DataTable.MountRestoresPersisted`.
- Dashboard.SlowMovers: its own contract is a bound. The meaning is in `Dashboard.SlowMoversSplit` and `Dashboard.SoldItemIsNotSlow`.
- Charts.TopItems: the contract says nothing about entries whose names collide with a stringified id. Names of inherited members are counted as in `Charts.TopItemsCountsRecentSales`, not as the source does.
- DataTable.GroupLabel: a cell is undefined, null, text, an integer or a boolean. Fractional numbers, objects, arrays and dates, whose `String` forms are `1.5`, `[object Object]`, comma lists and date text, are not modelled.
- The file downloads (Blob, object URL, link click) in the CSV export and the dashboard's detailed export. So are the network layer, the mock-data fallback and the form schemas.

## Findings

| source | as written | input that shows it | evidently intended | confidence | as-written member | corrected member |
|---|---|---|---|---|---|---|
| components/data/DataTable.tsx:77-83 | The seeding effect reads the column order of the first render, which is always empty. So on mount it overwrites the order the load effect has just restored. | columns `a`, `b` with a saved view whose order is `b, a`: the mounted order is `a, b` | seed only when the loaded order is empty, so a saved order survives a reload | not executed | DataTable.SavedOrderLostOnMount | DataTable.MountRestoresPersisted |
| app/page.tsx:160-164 | Recent sales are keyed by `itemId ?? itemQuantityId`. A sale carries no item id, so the key is a stock-batch id, which is then compared with item ids. | item 1 whose only batch is batch 5, and one sale of batch 5 dated now: the item is counted as a slow mover | key a sale by the item of its batch, so a sold item is not slow | not executed | Dashboard.SlowMoverMiscount | Dashboard.SoldItemIsNotSlow |
| components/data/DataTable.tsx:199-203 | Groups are collected in a plain object literal with `groups[key] = groups[key] \|\| []`. A label naming an inherited member finds that member, a function or the prototype, and the following `push` is not a function. | a row whose group-by cell is the text `constructor`: rendering throws a `TypeError` | a dictionary without inherited names (`Object.create(null)` or a `Map`), so every label gets its group | not executed | DataTable.InheritedLabelThrows | DataTable.GroupsPartitionRows |

=== FILE: breadcrumbs.dfy ===
/** The breadcrumb trail of the page header: the current path is cut into
    segments, and each segment becomes a crumb linking to the path up to and
    including it, with the last crumb shown as the current page. URL
    decoding of the label is a parameter. */
module Breadcrumbs {
  import opened Common
  import opened Strings

  predicate NonEmpty(s: string) {
    s != ""
  }

  /** A path segment: non-empty and free of `/`. */
  predicate IsSegment(s: string) {
    s != "" && '/' !in s
  }

  /** `(pathname || '/').split('/').filter(Boolean)`. */
  function Segments(pathname: Option<string>): (segs: seq<string>)
    ensures forall i :: 0 <= i < |segs| ==> IsSegment(segs[i])
  {
    var p := if TruthyStr(pathname) then pathname.value else "/";
    FilterElements(Split(p, '/'), NonEmpty);
    Filter(Split(p, '/'), NonEmpty)
  }

  /** The canonical path of a list of segments. */
  function PathOf(segs: seq<string>): string {
    "/" + Join(segs, "/")
  }

  /** Segmenting the canonical path of a list of segments gives the list
      back; in particular `/` has no segments. */
  lemma SegmentsOfPath(segs: seq<string>)
    requires forall i :: 0 <= i < |segs| ==> IsSegment(segs[i])
    ensures Segments(Some(PathOf(segs))) == segs
  {
    var parts := [""] + segs;
    if |segs| == 0 {
      assert Split("", '/') == [""];
      assert IndexOf("/", '/') == 0;
      assert "/"[1..] == "";
      assert Split("/", '/') == [""] + [""];
      assert Filter([""] + [""], NonEmpty) == [];
    } else {
      assert Join(parts, "/") == PathOf(segs) by {
        assert parts[1..] == segs;
        assert Join(parts, "/") == "" + "/" + Join(segs, "/");
      }
      assert forall i :: 0 <= i < |parts| ==> '/' !in parts[i] by {
        assert forall i :: 1 <= i < |parts| ==> parts[i] == segs[i - 1];
      }
      SplitJoin(parts, '/');
      assert Split(PathOf(segs), '/') == parts;
      assert Filter(parts, NonEmpty) == Filter(segs, NonEmpty) by {
        assert parts[1..] == segs;
      }
      FilterKeepsAll(segs, NonEmpty);
    }
  }

  predicate AllEmpty(pieces: seq<string>) {
    forall k :: 0 <= k < |pieces| ==> pieces[k] == ""
  }

  predicate AllSlashes(s: string) {
    forall j :: 0 <= j < |s| ==> s[j] == '/'
  }

  lemma SplitAtFirst(s: string)
    requires '/' in s
    ensures Split(s, '/') == [s[..IndexOf(s, '/')]] + Split(s[IndexOf(s, '/') + 1..], '/')
  {
  }

  lemma SlashesAtFirst(s: string)
    requires '/' in s
    ensures AllSlashes(s) <==> IndexOf(s, '/') == 0 && AllSlashes(s[1..])
  {
    if IndexOf(s, '/') == 0 {
      assert forall j :: 1 <= j < |s| ==> s[j] == s[1..][j - 1];
    } else {
      assert s[0] == s[..IndexOf(s, '/')][0];
    }
  }

  lemma AllEmptyCons(x: string, t: seq<string>)
    ensures AllEmpty([x] + t) <==> x == "" && AllEmpty(t)
  {
    assert ([x] + t)[0] == x;
    assert forall k :: 1 <= k < |t| + 1 ==> ([x] + t)[k] == t[k - 1];
    assert forall k :: 0 <= k < |t| ==> t[k] == ([x] + t)[k + 1];
  }

  lemma {:induction false} SplitAllEmpty(s: string)
    ensures AllEmpty(Split(s, '/')) <==> AllSlashes(s)
    decreases |s|
  {
    if '/' in s {
      var i := IndexOf(s, '/');
      SplitAllEmpty(s[i + 1..]);
      SplitAtFirst(s);
      AllEmptyCons(s[..i], Split(s[i + 1..], '/'));
      SlashesAtFirst(s);
    } else if |s| > 0 {
      assert Split(s, '/') == [s];
      assert Split(s, '/')[0] != "";
      assert s[0] in s;
      assert !AllSlashes(s);
    }
  }

  /** A path yields no crumbs exactly when it consists only of slashes
      (`/`, `//`, ...), or is missing or empty and so read as `/`. */
  lemma NoSegmentsIffOnlySlashes(pathname: Option<string>)
    ensures Segments(pathname) == [] <==>
      (TruthyStr(pathname) ==> AllSlashes(pathname.value))
  {
    var p := if TruthyStr(pathname) then pathname.value else "/";
    FilterEmpty(Split(p, '/'), NonEmpty);
    SplitAllEmpty(p);
  }

  datatype Crumb = Crumb(href: string, text: string, isLast: bool)

  /** `'/' + segments.slice(0, i + 1).join('/')`. */
  function Href(segs: seq<string>, i: nat): string
    requires i < |segs|
  {
    PathOf(segs[..i + 1])
  }

  /** One crumb per segment; the label is the segment with every `-` made a
      space, then decoded. */
  function Crumbs(segs: seq<string>, decode: string -> string): (cs: seq<Crumb>)
    ensures |cs| == |segs|
    ensures forall i :: 0 <= i < |segs| ==> cs[i].href == Href(segs, i)
    ensures forall i :: 0 <= i < |segs| ==> cs[i].text == decode(ReplaceAll(segs[i], '-', ' '))
    ensures forall i :: 0 <= i < |segs| ==> (cs[i].isLast <==> i == |segs| - 1)
  {
    seq(|segs|, i requires 0 <= i < |segs| =>
      Crumb(Href(segs, i), decode(ReplaceAll(segs[i], '-', ' ')), i == |segs| - 1))
  }

  /** Each crumb's link is the previous one's followed by `/` and the next
      segment, so every link is a strict prefix of the next. */
  lemma HrefExtends(segs: seq<string>, i: nat)
    requires i + 1 < |segs|
    ensures Href(segs, i + 1) == Href(segs, i) + "/" + segs[i + 1]
    ensures |Href(segs, i)| < |Href(segs, i + 1)|
    ensures Href(segs, i + 1)[..|Href(segs, i)|] == Href(segs, i)
  {
    assert segs[..i + 2] == segs[..i + 1] + [segs[i + 1]];
    JoinSnoc(segs[..i + 1], segs[i + 1], "/");
  }

  /** Following crumb `i` leads to a path whose trail is the first `i + 1`
      crumbs of this one. */
  lemma HrefLeadsToPrefix(pathname: Option<string>, i: nat)
    requires i < |Segments(pathname)|
    ensures Segments(Some(Href(Segments(pathname), i))) == Segments(pathname)[..i + 1]
  {
    SegmentsOfPath(Segments(pathname)[..i + 1]);
  }

  /** With the identity decoder a label has no `-`, and it has its segment's
      length. */
  lemma LabelsHaveNoDashes(segs: seq<string>, i: nat)
    requires i < |segs|
    ensures var l := Crumbs(segs, s => s)[i].text;
            '-' !in l && |l| == |segs[i]|
  {
    var l := ReplaceAll(segs[i], '-', ' ');
    assert forall j :: 0 <= j < |l| ==> l[j] != '-';
  }

  /** The rendered trail. */
  datatype Node = HomeLink | Page(text: string) | Link(href: string, text: string) | Separator

  function NodeOf(c: Crumb): Node {
    if c.isLast then Page(c.text) else Link(c.href, c.text)
  }

  /** A crumb, followed by a separator unless it is the last. */
  function CrumbNodes(cs: seq<Crumb>): seq<Node> {
    if |cs| == 0 then []
    else [NodeOf(cs[0])] + (if cs[0].isLast then [] else [Separator]) + CrumbNodes(cs[1..])
  }

  /** Home, a separator when there are segments, then the crumbs. */
  function Trail(segs: seq<string>, decode: string -> string): seq<Node> {
    [HomeLink] + (if |segs| > 0 then [Separator] else []) + CrumbNodes(Crumbs(segs, decode))
  }

  /** The rendered trail of a path. */
  function Render(pathname: Option<string>, decode: string -> string): seq<Node> {
    Trail(Segments(pathname), decode)
  }

  predicate LastOnly(cs: seq<Crumb>) {
    forall i :: 0 <= i < |cs| ==> (cs[i].isLast <==> i == |cs| - 1)
  }

  lemma {:induction false} CrumbNodesShape(cs: seq<Crumb>)
    requires LastOnly(cs)
    ensures |CrumbNodes(cs)| == if |cs| == 0 then 0 else 2 * |cs| - 1
    ensures forall i :: 0 <= i < |cs| ==> CrumbNodes(cs)[2 * i] == NodeOf(cs[i])
    ensures forall i :: 0 <= i < |cs| - 1 ==> CrumbNodes(cs)[2 * i + 1] == Separator
  {
    if |cs| > 0 {
      var t := cs[1..];
      assert LastOnly(t) by {
        assert forall i :: 0 <= i < |t| ==> t[i] == cs[i + 1];
      }
      CrumbNodesShape(t);
      if |cs| == 1 {
        assert CrumbNodes(cs) == [NodeOf(cs[0])];
      } else {
        var n := CrumbNodes(cs);
        assert n == [NodeOf(cs[0]), Separator] + CrumbNodes(t);
        forall i | 0 <= i < |cs|
          ensures n[2 * i] == NodeOf(cs[i])
        {
          if i > 0 {
            assert n[2 * i] == CrumbNodes(t)[2 * (i - 1)];
          }
        }
        forall i | 0 <= i < |cs| - 1
          ensures n[2 * i + 1] == Separator
        {
          if i > 0 {
            assert n[2 * i + 1] == CrumbNodes(t)[2 * (i - 1) + 1];
          }
        }
      }
    }
  }

  /** The trail is Home followed by one separator and one crumb per segment:
      every crumb but the last is a link to its path, the last is the
      current page, and there are as many separators as segments. */
  lemma TrailShape(segs: seq<string>, decode: string -> string)
    ensures var cs := Crumbs(segs, decode);
            var r := Trail(segs, decode);
            && |r| == 1 + 2 * |segs|
            && r[0] == HomeLink
            && (forall i :: 0 <= i < |segs| ==> r[2 * i + 1] == Separator)
            && (forall i :: 0 <= i < |segs| - 1 ==> r[2 * i + 2] == Link(cs[i].href, cs[i].text))
            && (|segs| > 0 ==> r[2 * |segs|] == Page(cs[|segs| - 1].text))
  {
    var cs := Crumbs(segs, decode);
    CrumbNodesShape(cs);
    var r := Trail(segs, decode);
    if |segs| > 0 {
      assert r == [HomeLink, Separator] + CrumbNodes(cs);
      forall i | 0 <= i < |segs|
        ensures r[2 * i + 2] == NodeOf(cs[i])
      {
        assert r[2 * i + 2] == CrumbNodes(cs)[2 * i];
      }
      forall i | 1 <= i < |segs|
        ensures r[2 * i + 1] == Separator
      {
        assert r[2 * i + 1] == CrumbNodes(cs)[2 * (i - 1) + 1];
      }
    }
  }

  /** Exactly one node of a trail with segments is a page, and it is the
      last. */
  lemma TrailOnePage(segs: seq<string>, decode: string -> string, k: nat)
    requires k < |Trail(segs, decode)|
    ensures Trail(segs, decode)[k].Page? <==> |segs| > 0 && k == 2 * |segs|
  {
    TrailShape(segs, decode);
    var r := Trail(segs, decode);
    if 0 < k < 2 * |segs| {
      var i := (k - 1) / 2;
      if k == 2 * i + 1 {
        assert r[2 * i + 1] == Separator;
      } else {
        assert k == 2 * i + 2 && i < |segs| - 1;
        var cs := Crumbs(segs, decode);
        assert r[2 * i + 2] == Link(cs[i].href, cs[i].text);
      }
    }
  }

  /** Exactly one node of a non-empty rendered trail is a page, and it is
      the last. */
  lemma OnePage(pathname: Option<string>, decode: string -> string, k: nat)
    requires k < |Render(pathname, decode)|
    ensures Render(pathname, decode)[k].Page? <==> |Segments(pathname)| > 0 && k == 2 * |Segments(pathname)|
  {
    TrailOnePage(Segments(pathname), decode, k);
  }

}

=== FILE: charts.dfy ===
/** The dashboard charts: records per calendar day, the eight best-selling
    items of the last thirty days, items per type, low-stock items per brand,
    returns per status, sales on each of the last seven days, and stock age
    buckets. Calendar days are UTC days, `floor(t / 86400000)`, which is what
    the ISO date prefix of a timestamp names. */
module Charts {
  import opened Common
  import opened Strings
  import opened Records
  import opened Grouping
  import opened Ordering

  /** The UTC day of a timestamp. */
  function Day(t: int): int {
    t / DayMs
  }

  function One<T>(x: T): int {
    1
  }

  // ---------------------------------------------------------------------
  // Records per day
  // ---------------------------------------------------------------------

  /** What `new Date(...)` receives from a record's `createdAt` field: the
      field is absent, `null`, a number of milliseconds, or text, which
      carries the instant `Date.parse` reads from it (`None` when it reads
      none, as for the empty string). */
  datatype Stamp = Absent | Null | Millis(t: int) | Text(parsed: Option<int>)

  /** The largest distance from the epoch a valid `Date` may have. */
  const MaxTimeMs: int := 8640000000000000

  /** The instant `new Date(stamp)` stands for; `None` for an invalid date.
      `null` converts to 0, the epoch. */
  function DateOf(stamp: Stamp): (r: Option<int>)
    ensures r.Some? ==> -MaxTimeMs <= r.value <= MaxTimeMs
    ensures stamp.Null? ==> r == Some(0)
    ensures stamp.Absent? ==> r.None?
  {
    var t := match stamp
      case Absent => None
      case Null => Some(0)
      case Millis(n) => Some(n)
      case Text(p) => p;
    if t.Some? && -MaxTimeMs <= t.value <= MaxTimeMs then t else None
  }

  /** The day label of a record, `None` for an invalid date. */
  function DayOf(stamp: Stamp): Option<int> {
    match DateOf(stamp)
    case Some(t) => Some(Day(t))
    case None => None
  }

  predicate Dated(stamp: Stamp) {
    DateOf(stamp).Some?
  }

  /** `groupByDate`: the number of records on each day. */
  function GroupByDate(stamps: seq<Stamp>): Counts<int> {
    Tally(stamps, DayOf, One)
  }

  /** Each day's figure is the number of records whose date falls on that
      day; records with an invalid date are skipped, so the figures add up
      to the number of validly dated records. */
  lemma GroupByDateCounts(stamps: seq<Stamp>, d: int)
    ensures Get(GroupByDate(stamps), d) == Count(stamps, (s: Stamp) => DayOf(s) == Some(d))
    ensures Total(GroupByDate(stamps)) == Count(stamps, Dated) <= |stamps|
  {
    GroupByDateDay(stamps, d);
    GroupByDateTotal(stamps);
  }

  lemma GroupByDateDay(stamps: seq<Stamp>, d: int)
    ensures Get(GroupByDate(stamps), d) == Count(stamps, (s: Stamp) => DayOf(s) == Some(d))
  {
    TallyGet(stamps, DayOf, One, d);
    SumOfOnes(Select(stamps, DayOf, d), One);
    SelectCount(stamps, DayOf, d, (s: Stamp) => DayOf(s) == Some(d));
  }

  lemma GroupByDateTotal(stamps: seq<Stamp>)
    ensures Total(GroupByDate(stamps)) == Count(stamps, Dated)
  {
    TallyTotal(stamps, DayOf, One);
    SumOfOnes(Keyed(stamps, DayOf), One);
    KeyedIsDated(stamps);
  }

  lemma KeyedIsDated(stamps: seq<Stamp>)
    ensures Keyed(stamps, DayOf) == Filter(stamps, Dated)
  {
    KeyedIs(stamps, DayOf, Dated);
  }

  /** A `null` date is the epoch: every such record is counted on day 0,
      while an absent one is never counted. */
  lemma GroupByDateNullIsEpoch(stamps: seq<Stamp>)
    ensures Get(GroupByDate(stamps), 0) >= Count(stamps, (s: Stamp) => s.Null?)
    ensures Total(GroupByDate(stamps)) <= |stamps| - Count(stamps, (s: Stamp) => s.Absent?)
  {
    GroupByDateCounts(stamps, 0);
    CountMonotone(stamps, (s: Stamp) => s.Null?, (s: Stamp) => DayOf(s) == Some(0));
    CountDisjointUnion(stamps, Dated, (s: Stamp) => s.Absent?, (s: Stamp) => Dated(s) || s.Absent?);
  }

  // ---------------------------------------------------------------------
  // Top lists
  // ---------------------------------------------------------------------

  /** The descending-count key: `(a, b) => b.count - a.count`. */
  function ByCountDesc(e: (string, int)): Option<int> {
    Some(-e.1)
  }

  /** The `n` largest counts, largest first; equal counts keep their order. */
  function TopN(c: Counts<string>, n: nat): (r: Counts<string>)
    ensures |r| <= n && |r| <= |c|
    ensures forall i, j :: 0 <= i < j < |r| ==> r[i].1 >= r[j].1
    ensures multiset(r) <= multiset(c)
    ensures |r| < n ==> multiset(r) == multiset(c)
  {
    var sorted := SortByKey(c, ByCountDesc);
    TakeOfSorted(sorted, n);
    Take(sorted, n)
  }

  /** A prefix of a list sorted by descending count is itself by descending
      count, and is drawn from the list. */
  lemma TakeOfSorted(sorted: Counts<string>, n: nat)
    requires SortedBy(sorted, ByCountDesc)
    ensures forall i, j :: 0 <= i < j < |Take(sorted, n)| ==> Take(sorted, n)[i].1 >= Take(sorted, n)[j].1
    ensures multiset(Take(sorted, n)) <= multiset(sorted)
    ensures |Take(sorted, n)| < n ==> Take(sorted, n) == sorted
  {
    var r := Take(sorted, n);
    assert forall i, j :: 0 <= i < j < |r| ==> KeyLe(ByCountDesc(r[i]), ByCountDesc(r[j]));
    assert sorted == r + sorted[|r|..];
  }

  /** Nothing left out of a top list outranks what is in it. */
  lemma TopNDropsOnlySmaller(c: Counts<string>, n: nat, e: (string, int))
    requires e in c && e !in TopN(c, n)
    ensures |TopN(c, n)| == n
    ensures forall i :: 0 <= i < n ==> TopN(c, n)[i].1 >= e.1
  {
    var sorted := SortByKey(c, ByCountDesc);
    var r := TopN(c, n);
    assert e in multiset(sorted);
    var k :| 0 <= k < |sorted| && sorted[k] == e;
    assert r == sorted[..|r|];
    assert k >= n;
    forall i | 0 <= i < n
      ensures r[i].1 >= e.1
    {
      assert KeyLe(ByCountDesc(sorted[i]), ByCountDesc(sorted[k]));
    }
  }

  const TopCount: nat := 8

  /** The chart label of a recent sale: the name of the item of its stock
      batch when it has one, else the item id as text, else `Unknown`. */
  function SaleName(inv: seq<Quantity>, items: seq<Item>, now: int, s: Sale): Option<string> {
    if s.createdAt.GetOr(0) < now - ThirtyDaysMs then None
    else
      var itemId := match RowOfSale(inv, s) case None => None case Some(q) => q.itemId;
      var found := if itemId.Some? then ItemById(items, itemId.value) else None;
      if found.Some? && TruthyStr(found.value.itemName) then found.value.itemName
      else if itemId.Some? then Some(IntToString(itemId.value))
      else Some("Unknown")
  }

  /** The per-name counts `topItems` ranks: one per recent sale. */
  function SaleTally(sales: seq<Sale>, inv: seq<Quantity>, items: seq<Item>, now: int): Counts<string> {
    Tally(sales, s => SaleName(inv, items, now, s), One)
  }

  /** `topItems`: the eight largest entries of the sale tally, largest
      first, or all of them when there are fewer. */
  function TopItems(sales: seq<Sale>, inv: seq<Quantity>, items: seq<Item>, now: int): (r: Counts<string>)
    ensures |r| <= TopCount
    ensures forall i, j :: 0 <= i < j < |r| ==> r[i].1 >= r[j].1
    ensures multiset(r) <= multiset(SaleTally(sales, inv, items, now))
    ensures |r| < TopCount ==> multiset(r) == multiset(SaleTally(sales, inv, items, now))
  {
    TopN(SaleTally(sales, inv, items, now), TopCount)
  }

  /** The counts behind the top list cover exactly the sales of the last
      thirty days, an undated sale counting as time 0. */
  lemma TopItemsCountsRecentSales(sales: seq<Sale>, inv: seq<Quantity>, items: seq<Item>, now: int)
    ensures Total(SaleTally(sales, inv, items, now))
         == Count(sales, (s: Sale) => s.createdAt.GetOr(0) >= now - ThirtyDaysMs)
  {
    var key := (s: Sale) => SaleName(inv, items, now, s);
    TallyTotal(sales, key, One);
    SumOfOnes(Keyed(sales, key), One);
    KeyedIsRecent(sales, inv, items, now);
  }

  lemma KeyedIsRecent(sales: seq<Sale>, inv: seq<Quantity>, items: seq<Item>, now: int)
    ensures Keyed(sales, (s: Sale) => SaleName(inv, items, now, s))
         == Filter(sales, (s: Sale) => s.createdAt.GetOr(0) >= now - ThirtyDaysMs)
  {
    KeyedIs(sales, (s: Sale) => SaleName(inv, items, now, s),
      (s: Sale) => s.createdAt.GetOr(0) >= now - ThirtyDaysMs);
  }

  // ---------------------------------------------------------------------
  // Items per type
  // ---------------------------------------------------------------------

  /** `types.find(t => t.id === id)`. */
  function TypeById(types: seq<ItemType>, id: int): (r: Option<ItemType>)
    ensures r.None? <==> forall i :: 0 <= i < |types| ==> types[i].id != id
    ensures r.Some? ==> r.value.id == id && r.value in types
  {
    if |types| == 0 then None
    else if types[0].id == id then Some(types[0])
    else
      assert forall i :: 1 <= i < |types| ==> types[i] == types[1..][i - 1];
      TypeById(types[1..], id)
  }

  /** The type label of an item: none when its brand is unknown or has no
      (or a zero) type; else the type's name, or `Unknown`. */
  function TypeLabel(brands: seq<Brand>, types: seq<ItemType>, it: Item): Option<string> {
    var brand := BrandById(brands, it.itemBrandId);
    var t := if brand.Some? then brand.value.itemTypeId else None;
    if !TruthyInt(t) then None
    else
      var found := TypeById(types, t.value);
      if found.Some? && TruthyStr(found.value.typeName) then found.value.typeName
      else Some("Unknown")
  }

  /** `typeMix`. */
  function TypeMix(items: seq<Item>, brands: seq<Brand>, types: seq<ItemType>): Counts<string> {
    Tally(items, it => TypeLabel(brands, types, it), One)
  }

  /** The type figures add up to the number of items whose brand has a
      type; items without one are skipped. */
  lemma TypeMixTotal(items: seq<Item>, brands: seq<Brand>, types: seq<ItemType>)
    ensures Total(TypeMix(items, brands, types)) == Count(items, (it: Item) => TypeLabel(brands, types, it).Some?)
  {
    var key := (it: Item) => TypeLabel(brands, types, it);
    TallyTotal(items, key, One);
    SumOfOnes(Keyed(items, key), One);
    KeyedIs(items, key, (it: Item) => TypeLabel(brands, types, it).Some?);
  }

  // ---------------------------------------------------------------------
  // Low stock per brand
  // ---------------------------------------------------------------------

  /** The brand label of an item: the brand's non-empty name, else `#<id>`. */
  function BrandLabel(brands: seq<Brand>, id: int): string {
    var b := BrandById(brands, id);
    if b.Some? && TruthyStr(b.value.brandName) then b.value.brandName.value else "#" + IntToString(id)
  }

  /** The brand an item counts toward when its total stock is below ten. */
  function LowBrand(stock: Counts<int>, brands: seq<Brand>, it: Item): Option<string> {
    if Get(stock, it.id) < 10 then Some(BrandLabel(brands, it.itemBrandId)) else None
  }

  /** The per-brand counts `lowStockByBrand` ranks: one per low item. */
  function LowTally(inv: seq<Quantity>, items: seq<Item>, brands: seq<Brand>): Counts<string> {
    var stock := Tally(inv, ItemOf, Weight);
    Tally(items, it => LowBrand(stock, brands, it), One)
  }

  /** `lowStockByBrand`: per brand, the number of items with fewer than ten
      units over all their batches, the eight largest first (all of them
      when there are fewer). */
  function LowStockByBrand(inv: seq<Quantity>, items: seq<Item>, brands: seq<Brand>): (r: Counts<string>)
    ensures |r| <= TopCount
    ensures forall i, j :: 0 <= i < j < |r| ==> r[i].1 >= r[j].1
    ensures multiset(r) <= multiset(LowTally(inv, items, brands))
    ensures |r| < TopCount ==> multiset(r) == multiset(LowTally(inv, items, brands))
  {
    TopN(LowTally(inv, items, brands), TopCount)
  }

  /** An item counts toward a brand exactly when the sum of its batches'
      quantities is below ten; an item with no batches has stock 0. */
  lemma LowBrandMeaning(inv: seq<Quantity>, brands: seq<Brand>, it: Item)
    ensures LowBrand(Tally(inv, ItemOf, Weight), brands, it).Some?
        <==> SumOf(Select(inv, ItemOf, it.id), Weight) < 10
  {
    TallyGet(inv, ItemOf, Weight, it.id);
  }

  // ---------------------------------------------------------------------
  // Returns per status
  // ---------------------------------------------------------------------

  function StatusOf(r: Return): Option<string> {
    Some(r.status)
  }

  /** `returnsMix`. */
  function ReturnsMix(rets: seq<Return>): Counts<string> {
    Tally(rets, StatusOf, One)
  }

  /** Every return is counted once, under its status. */
  lemma ReturnsMixCounts(rets: seq<Return>, status: string)
    ensures Total(ReturnsMix(rets)) == |rets|
    ensures Get(ReturnsMix(rets), status) == |Select(rets, StatusOf, status)|
  {
    TallyTotal(rets, StatusOf, One);
    KeyedAll(rets, StatusOf);
    SumOfOnes(rets, One);
    TallyGet(rets, StatusOf, One, status);
    SumOfOnes(Select(rets, StatusOf, status), One);
  }

  // ---------------------------------------------------------------------
  // Sales of the last seven days
  // ---------------------------------------------------------------------

  predicate SoldOn(s: Sale, d: int) {
    s.createdAt.Some? && Day(s.createdAt.value) == d
  }

  function SoldOnDay(d: int): Sale -> bool {
    s => SoldOn(s, d)
  }

  /** `sales7` (and the dashboard's `salesSeries7`): the seven days ending
      today, oldest first, each with the number of sales dated that day;
      sales on other days, and undated sales, are not counted. */
  method Sales7(sales: seq<Sale>, now: int) returns (r: seq<(int, nat)>)
    ensures |r| == 7
    ensures forall k :: 0 <= k < 7 ==> r[k].0 == Day(now) - 6 + k
    ensures forall k :: 0 <= k < 7 ==> r[k].1 == Count(sales, SoldOnDay(Day(now) - 6 + k))
  {
    var first := Day(now) - 6;
    var counts: seq<nat> := [0, 0, 0, 0, 0, 0, 0];
    var i := 0;
    while i < |sales|
      invariant 0 <= i <= |sales|
      invariant |counts| == 7
      invariant forall k :: 0 <= k < 7 ==> counts[k] == Count(sales[..i], SoldOnDay(first + k))
    {
      var s := sales[i];
      assert sales[..i + 1] == sales[..i] + [s];
      forall d | first <= d < first + 7
        ensures Count(sales[..i + 1], SoldOnDay(d)) == Count(sales[..i], SoldOnDay(d)) + (if SoldOn(s, d) then 1 else 0)
      {
        CountSnoc(sales[..i], s, SoldOnDay(d));
      }
      if s.createdAt.Some? && first <= Day(s.createdAt.value) < first + 7 {
        var k := Day(s.createdAt.value) - first;
        counts := counts[k := counts[k] + 1];
      }
      i := i + 1;
    }
    assert sales[..i] == sales;
    r := seq(7, k requires 0 <= k < 7 => (first + k, counts[k]));
  }

  /** The day of `now - i` days is `i` days before today. */
  lemma DaysBack(now: int, i: nat)
    ensures Day(now - i * DayMs) == Day(now) - i
  {
  }

  // ---------------------------------------------------------------------
  // Stock age
  // ---------------------------------------------------------------------

  /** The age buckets in days, inclusive at both ends. */
  const Buckets: seq<(int, int)> := [(0, 29), (30, 60), (61, 90), (91, 10000)]

  predicate InBucket(days: int, b: nat)
    requires b < |Buckets|
  {
    Buckets[b].0 <= days <= Buckets[b].1
  }

  /** `buckets.findIndex(b => days >= b.min && days <= b.max)`. */
  function BucketOf(days: int): (b: int)
    ensures -1 <= b < |Buckets|
    ensures b == -1 <==> forall k :: 0 <= k < |Buckets| ==> !InBucket(days, k)
    ensures b >= 0 ==> InBucket(days, b)
  {
    if 0 <= days <= 29 then assert InBucket(days, 0); 0
    else if 30 <= days <= 60 then assert InBucket(days, 1); 1
    else if 61 <= days <= 90 then assert InBucket(days, 2); 2
    else if 91 <= days <= 10000 then assert InBucket(days, 3); 3
    else -1
  }

  /** The buckets do not overlap, so a batch has at most one bucket. */
  lemma BucketsDisjoint(days: int, a: nat, b: nat)
    requires a < |Buckets| && b < |Buckets| && InBucket(days, a) && InBucket(days, b)
    ensures a == b
  {
  }

  /** The whole days since `t`, `Math.floor((now - t) / 86400000)`. */
  function AgeDays(now: int, t: int): int {
    (now - t) / DayMs
  }

  /** The bucket a batch counts in, -1 for an undated batch. */
  function BatchBucket(q: Quantity, now: int): int {
    if q.createdAt.None? then -1 else BucketOf(AgeDays(now, q.createdAt.value))
  }

  /** `agingRadar`: the number of dated batches in each age bucket; batches
      younger than 0 or older than 10000 days are dropped. */
  method AgingRadar(inv: seq<Quantity>, now: int) returns (r: seq<nat>)
    ensures |r| == |Buckets|
    ensures forall b :: 0 <= b < |Buckets| ==> r[b] == Count(inv, (q: Quantity) => BatchBucket(q, now) == b)
    ensures r[0] + r[1] + r[2] + r[3] <= |inv|
  {
    r := [0, 0, 0, 0];
    var i := 0;
    while i < |inv|
      invariant 0 <= i <= |inv|
      invariant |r| == 4
      invariant forall b :: 0 <= b < 4 ==> r[b] == Count(inv[..i], (q: Quantity) => BatchBucket(q, now) == b)
      invariant r[0] + r[1] + r[2] + r[3] <= i
    {
      var q := inv[i];
      assert inv[..i + 1] == inv[..i] + [q];
      forall b | 0 <= b < 4 {
        CountSnoc(inv[..i], q, (x: Quantity) => BatchBucket(x, now) == b);
      }
      var idx := BatchBucket(q, now);
      if idx >= 0 {
        r := r[idx := r[idx] + 1];
      }
      i := i + 1;
    }
    assert inv[..i] == inv;
  }
}

=== FILE: common.dfy ===
/** Shared vocabulary: optional values, the JavaScript notion of truthiness for
    the few value kinds the dashboard tests, and order-preserving filters and
    counts over sequences. */
module Common {

  /** An optional value; `None` stands for `undefined`/`null` (and, where a
      module says so, for any value the source treats as absent). */
  datatype Option<+T> = None | Some(value: T) {
    function GetOr(default: T): T {
      match this
      case Some(v) => v
      case None => default
    }
  }

  /** `if (x)` on a number: `undefined`, `null` and `0` are falsy. */
  predicate TruthyInt(x: Option<int>) {
    x.Some? && x.value != 0
  }

  /** `if (s)` on a string: `undefined`, `null` and `""` are falsy. */
  predicate TruthyStr(s: Option<string>) {
    s.Some? && s.value != ""
  }

  /** An object's own property keys are listed (`Object.keys`, `entries`,
      `values`) array indices first, ascending, then the other keys in
      insertion order; an array index is the canonical decimal text of a
      whole number below this limit, 2^32 - 1. */
  const ArrayIndexLimit: int := 4294967295

  /** `Number(x || 0)` for an optional integer field. */
  function OrZero(x: Option<int>): int {
    if TruthyInt(x) then x.value else 0
  }

  /** `Array.prototype.filter`: the elements satisfying `p`, in their order. */
  function Filter<T>(xs: seq<T>, p: T -> bool): (r: seq<T>)
    ensures |r| <= |xs|
  {
    if |xs| == 0 then []
    else (if p(xs[0]) then [xs[0]] else []) + Filter(xs[1..], p)
  }

  /** The number of elements satisfying `p` (`xs.filter(p).length`). */
  function Count<T>(xs: seq<T>, p: T -> bool): (n: nat)
    ensures n <= |xs|
  {
    |Filter(xs, p)|
  }

  lemma {:induction false} FilterAppend<T>(a: seq<T>, b: seq<T>, p: T -> bool)
    ensures Filter(a + b, p) == Filter(a, p) + Filter(b, p)
  {
    if |a| == 0 {
      assert a + b == b;
    } else {
      var h := if p(a[0]) then [a[0]] else [];
      assert (a + b)[0] == a[0];
      assert (a + b)[1..] == a[1..] + b;
      FilterAppend(a[1..], b, p);
      calc {
        Filter(a + b, p);
        h + Filter(a[1..] + b, p);
        h + (Filter(a[1..], p) + Filter(b, p));
        (h + Filter(a[1..], p)) + Filter(b, p);
        Filter(a, p) + Filter(b, p);
      }
    }
  }

  /** What a filter keeps passes the test and comes from the input. */
  lemma {:induction false} FilterElements<T>(xs: seq<T>, p: T -> bool)
    ensures forall i :: 0 <= i < |Filter(xs, p)| ==> p(Filter(xs, p)[i]) && Filter(xs, p)[i] in xs
  {
    if |xs| > 0 {
      FilterElements(xs[1..], p);
      var h := if p(xs[0]) then [xs[0]] else [];
      assert Filter(xs, p) == h + Filter(xs[1..], p);
      forall i | 0 <= i < |Filter(xs, p)|
        ensures p(Filter(xs, p)[i]) && Filter(xs, p)[i] in xs
      {
        if i >= |h| {
          assert Filter(xs, p)[i] == Filter(xs[1..], p)[i - |h|];
          assert Filter(xs[1..], p)[i - |h|] in xs[1..];
        }
      }
    }
  }

  /** A filter keeps every element that passes. */
  lemma {:induction false} FilterContains<T>(xs: seq<T>, p: T -> bool, x: T)
    requires x in xs && p(x)
    ensures x in Filter(xs, p)
  {
    if xs[0] != x {
      assert x in xs[1..];
      FilterContains(xs[1..], p, x);
    }
  }

  /** A filter keeps every element that passes, whichever it is. */
  lemma FilterKeepsPassing<T>(xs: seq<T>, p: T -> bool)
    ensures forall x :: x in xs && p(x) ==> x in Filter(xs, p)
  {
    forall x | x in xs && p(x)
      ensures x in Filter(xs, p)
    {
      FilterContains(xs, p, x);
    }
  }

  /** Counting one more element. */
  lemma CountSnoc<T>(xs: seq<T>, x: T, p: T -> bool)
    ensures Count(xs + [x], p) == Count(xs, p) + (if p(x) then 1 else 0)
  {
    FilterAppend(xs, [x], p);
  }

  /** A filter keeps everything exactly when every element passes. */
  lemma {:induction false} FilterKeepsAll<T>(xs: seq<T>, p: T -> bool)
    requires forall i :: 0 <= i < |xs| ==> p(xs[i])
    ensures Filter(xs, p) == xs
  {
    if |xs| > 0 {
      FilterKeepsAll(xs[1..], p);
      assert xs == [xs[0]] + xs[1..];
    }
  }

  /** A filter is empty exactly when no element passes. */
  lemma {:induction false} FilterEmpty<T>(xs: seq<T>, p: T -> bool)
    ensures Filter(xs, p) == [] <==> forall i :: 0 <= i < |xs| ==> !p(xs[i])
  {
    if |xs| > 0 {
      FilterEmpty(xs[1..], p);
      assert forall i :: 1 <= i < |xs| ==> xs[i] == xs[1..][i - 1];
    }
  }

  /** Two tests that agree on every element keep the same elements. */
  lemma {:induction false} FilterSame<T>(xs: seq<T>, p: T -> bool, q: T -> bool)
    requires forall i :: 0 <= i < |xs| ==> p(xs[i]) == q(xs[i])
    ensures Filter(xs, p) == Filter(xs, q)
  {
    if |xs| > 0 {
      assert forall i :: 1 <= i < |xs| ==> xs[i] == xs[1..][i - 1];
      FilterSame(xs[1..], p, q);
    }
  }

  /** Filtering by `p` and then by `q` is filtering by both at once. */
  lemma {:induction false} FilterFilter<T>(xs: seq<T>, p: T -> bool, q: T -> bool, both: T -> bool)
    requires forall x :: both(x) == (p(x) && q(x))
    ensures Filter(Filter(xs, p), q) == Filter(xs, both)
  {
    if |xs| > 0 {
      FilterFilter(xs[1..], p, q, both);
      FilterAppend(if p(xs[0]) then [xs[0]] else [], Filter(xs[1..], p), q);
    }
  }

  /** Counting by two exclusive tests adds up to counting by either. */
  lemma {:induction false} CountDisjointUnion<T>(xs: seq<T>, p: T -> bool, q: T -> bool, either: T -> bool)
    requires forall x :: either(x) == (p(x) || q(x))
    requires forall x :: !(p(x) && q(x))
    ensures Count(xs, p) + Count(xs, q) == Count(xs, either)
  {
    if |xs| > 0 {
      CountDisjointUnion(xs[1..], p, q, either);
    }
  }

  /** Counting is monotone in the predicate: every element counted by `p` is
      counted by `q`. */
  lemma {:induction false} CountMonotone<T>(xs: seq<T>, p: T -> bool, q: T -> bool)
    requires forall i :: 0 <= i < |xs| && p(xs[i]) ==> q(xs[i])
    ensures Count(xs, p) <= Count(xs, q)
  {
    if |xs| > 0 {
      CountMonotone(xs[1..], p, q);
    }
  }

  /** Sum of an integer-valued measure over a sequence. */
  function SumOf<T>(xs: seq<T>, f: T -> int): int {
    if |xs| == 0 then 0 else f(xs[0]) + SumOf(xs[1..], f)
  }

  lemma {:induction false} SumOfAppend<T>(a: seq<T>, b: seq<T>, f: T -> int)
    ensures SumOf(a + b, f) == SumOf(a, f) + SumOf(b, f)
  {
    if |a| == 0 {
      assert a + b == b;
    } else {
      assert (a + b)[1..] == a[1..] + b;
      SumOfAppend(a[1..], b, f);
    }
  }

  /** `Array.prototype.indexOf`: the first position of `x`, or -1. */
  function IndexOf<T(==)>(s: seq<T>, x: T): (r: int)
    ensures -1 <= r && (r == -1 <==> x !in s)
    ensures 0 <= r ==> r < |s| && s[r] == x && x !in s[..r]
  {
    if |s| == 0 then -1
    else if s[0] == x then 0
    else
      var i := IndexOf(s[1..], x);
      assert s == [s[0]] + s[1..];
      assert 0 <= i ==> s[..i + 1] == [s[0]] + s[1..][..i];
      if i == -1 then -1 else i + 1
  }

  /** A position holding `x` with no `x` before it is `x`'s first position. */
  lemma {:induction false} IndexOfIs<T>(s: seq<T>, x: T, i: nat)
    requires i < |s| && s[i] == x
    requires forall j :: 0 <= j < i ==> s[j] != x
    ensures IndexOf(s, x) == i
  {
    if i > 0 {
      IndexOfIs(s[1..], x, i - 1);
    }
  }

  /** `a.slice(0, n)` for `n >= 0`. */
  function Take<T>(s: seq<T>, n: nat): (r: seq<T>)
    ensures |r| == if |s| < n then |s| else n
    ensures r == s[..|r|]
  {
    if |s| <= n then s else s[..n]
  }
}

=== FILE: csv.dfy ===
/** The string-building part of `exportToCsv`: a header line holding the keys
    of the first row, then one line per row, fields joined by commas and
    lines by newlines. The field escaper returns the empty string for every
    value, so every field of the output, headers included, is empty. */
module Csv {
  import opened Common
  import opened Strings

  /** A row object: its keys in `Object.keys` order, each with its value
      rendered as text. */
  type Record = seq<(string, string)>

  function Keys(r: Record): (ks: seq<string>)
    ensures |ks| == |r|
    ensures forall i :: 0 <= i < |r| ==> ks[i] == r[i].0
  {
    seq(|r|, i requires 0 <= i < |r| => r[i].0)
  }

  /** `r[h]`, the empty text when the row has no such key. */
  function Value(r: Record, h: string): string {
    if |r| == 0 then "" else if r[0].0 == h then r[0].1 else Value(r[1..], h)
  }

  /** The field escaper, `(val) => ""`. */
  function Escape(v: string): string {
    ""
  }

  /** One line: the escaped fields joined by commas. */
  function Line(fields: seq<string>): string {
    Join(seq(|fields|, i requires 0 <= i < |fields| => Escape(fields[i])), ",")
  }

  /** The lines of the file: the headers, then each row's values under them. */
  function Lines(headers: seq<string>, rows: seq<Record>): (ls: seq<string>)
    ensures |ls| == |rows| + 1
  {
    [Line(headers)] + seq(|rows|, i requires 0 <= i < |rows| =>
      Line(seq(|headers|, j requires 0 <= j < |headers| => Value(rows[i], headers[j]))))
  }

  /** `exportToCsv` up to the download: nothing for no rows; otherwise the
      text of the file, whose headers are the keys of the first row. */
  function ExportToCsv(rows: seq<Record>): (r: Option<string>)
    ensures r.None? <==> |rows| == 0
  {
    if |rows| == 0 then None else Some(Join(Lines(Keys(rows[0]), rows), "\n"))
  }

  /** `n` commas. */
  function Commas(n: nat): (s: string)
    ensures |s| == n && forall i :: 0 <= i < n ==> s[i] == ','
  {
    seq(n, i => ',')
  }

  /** The number of commas on each line: one fewer than the headers. */
  function Width(headers: seq<string>): nat {
    if |headers| == 0 then 0 else |headers| - 1
  }

  lemma {:induction false} JoinEmpties(parts: seq<string>)
    requires forall i :: 0 <= i < |parts| ==> parts[i] == ""
    ensures Join(parts, ",") == Commas(Width(parts))
  {
    if |parts| > 1 {
      JoinEmpties(parts[1..]);
      assert Join(parts, ",") == "" + "," + Commas(|parts| - 2);
    }
  }

  /** Every line is bare commas, one fewer than its fields: the values never
      reach the output. */
  lemma LineIsCommas(fields: seq<string>)
    ensures Line(fields) == Commas(Width(fields))
  {
    JoinEmpties(seq(|fields|, i requires 0 <= i < |fields| => Escape(fields[i])));
  }

  /** Every line of the file has as many commas as the first row has keys,
      less one. */
  lemma LinesAreCommas(headers: seq<string>, rows: seq<Record>)
    ensures forall i :: 0 <= i < |Lines(headers, rows)| ==> Lines(headers, rows)[i] == Commas(Width(headers))
  {
    var ls := Lines(headers, rows);
    LineIsCommas(headers);
    forall i | 1 <= i < |ls|
      ensures ls[i] == Commas(Width(headers))
    {
      LineIsCommas(seq(|headers|, j requires 0 <= j < |headers| => Value(rows[i - 1], headers[j])));
    }
  }

  /** The output is `|rows| + 1` lines, each of them `|keys| - 1` commas with
      nothing between them, where the keys are those of the first row. */
  lemma CsvShape(rows: seq<Record>)
    requires |rows| > 0
    ensures Split(ExportToCsv(rows).value, '\n') == seq(|rows| + 1, i => Commas(Width(Keys(rows[0]))))
  {
    var ls := Lines(Keys(rows[0]), rows);
    LinesAreCommas(Keys(rows[0]), rows);
    SplitJoin(ls, '\n');
  }

  /** Every character of a join comes from a piece or the separator. */
  lemma {:induction false} JoinChars(parts: seq<string>, sep: string, ok: set<char>)
    requires forall i, j :: 0 <= i < |parts| && 0 <= j < |parts[i]| ==> parts[i][j] in ok
    requires forall j :: 0 <= j < |sep| ==> sep[j] in ok
    ensures forall j :: 0 <= j < |Join(parts, sep)| ==> Join(parts, sep)[j] in ok
  {
    if |parts| > 1 {
      JoinChars(parts[1..], sep, ok);
      assert forall i :: 1 <= i < |parts| ==> parts[i] == parts[1..][i - 1];
      var s := Join(parts, sep);
      assert s == parts[0] + sep + Join(parts[1..], sep);
      forall j | 0 <= j < |s|
        ensures s[j] in ok
      {
        if j < |parts[0]| {
          assert s[j] == parts[0][j];
        } else if j < |parts[0]| + |sep| {
          assert s[j] == sep[j - |parts[0]|];
        } else {
          assert s[j] == Join(parts[1..], sep)[j - |parts[0]| - |sep|];
        }
      }
    }
  }

  /** The file consists of commas and newlines only. */
  lemma CsvOnlySeparators(rows: seq<Record>)
    requires |rows| > 0
    ensures forall j :: 0 <= j < |ExportToCsv(rows).value| ==> ExportToCsv(rows).value[j] in {',', '\n'}
  {
    var ls := Lines(Keys(rows[0]), rows);
    LinesAreCommas(Keys(rows[0]), rows);
    JoinChars(ls, "\n", {',', '\n'});
  }

  /** Keys that only later rows have are not exported: two row lists of the
      same length whose first rows have the same keys give the same file. */
  lemma CsvIgnoresLaterKeys(rows: seq<Record>, others: seq<Record>)
    requires |rows| == |others| > 0 && Keys(rows[0]) == Keys(others[0])
    ensures ExportToCsv(rows) == ExportToCsv(others)
  {
    var h := Keys(rows[0]);
    LinesAreCommas(h, rows);
    LinesAreCommas(h, others);
    assert Lines(h, rows) == Lines(h, others);
  }
}

=== FILE: dashboard.dfy ===
/** The dashboard's figures: the type/brand filter on items, stock per item
    and the low-stock and stock-out counts, batches expiring soon, today's
    sales, slow movers, the per-item detail table, and the pair of border
    colours of a stat card. */
module Dashboard {
  import opened Common
  import opened Strings
  import opened Records
  import opened Grouping
  import opened Ordering

  /** The type and brand selectors; an unset or zero selector does not
      filter. */
  datatype Filters = Filters(typeId: Option<int>, brandId: Option<int>)

  const NoFilters: Filters := Filters(None, None)

  const LowStockThreshold: int := 10

  /** The "expiring soon" horizon, thirty days. */
  const SoonMs: int := ThirtyDaysMs

  // ---------------------------------------------------------------------
  // Item filter
  // ---------------------------------------------------------------------

  /** `allowedItem(id)`. An id that is `NaN` (here `None`) names no item. */
  function AllowedItem(items: seq<Item>, brands: seq<Brand>, f: Filters, id: Option<int>): (ok: bool)
    ensures ok <==>
      && id.Some?
      && ItemById(items, id.value).Some?
      && (TruthyInt(f.typeId) ==>
            && BrandById(brands, ItemById(items, id.value).value.itemBrandId).Some?
            && BrandById(brands, ItemById(items, id.value).value.itemBrandId).value.itemTypeId == f.typeId)
      && (TruthyInt(f.brandId) ==> ItemById(items, id.value).value.itemBrandId == f.brandId.value)
  {
    if id.None? then false
    else
      match ItemById(items, id.value)
      case None => false
      case Some(it) =>
        var brand := BrandById(brands, it.itemBrandId);
        if TruthyInt(f.typeId) && (brand.None? || brand.value.itemTypeId != f.typeId) then false
        else if TruthyInt(f.brandId) && it.itemBrandId != f.brandId.value then false
        else true
  }

  /** Filters only narrow: an item allowed under some filters is allowed
      with either selector cleared, and without filters exactly the known
      items are allowed. */
  lemma FiltersNarrow(items: seq<Item>, brands: seq<Brand>, f: Filters, id: Option<int>)
    ensures AllowedItem(items, brands, f, id) ==> AllowedItem(items, brands, f.(typeId := None), id)
    ensures AllowedItem(items, brands, f, id) ==> AllowedItem(items, brands, f.(brandId := None), id)
    ensures AllowedItem(items, brands, NoFilters, id) <==>
      id.Some? && exists i :: 0 <= i < |items| && items[i].id == id.value
  {
  }

  function AllowedBatch(items: seq<Item>, brands: seq<Brand>, f: Filters): Quantity -> bool {
    (q: Quantity) => AllowedItem(items, brands, f, q.itemId)
  }

  /** The batches of allowed items. */
  function AllowedBatches(items: seq<Item>, brands: seq<Brand>, f: Filters, inv: seq<Quantity>): seq<Quantity> {
    Filter(inv, AllowedBatch(items, brands, f))
  }

  /** Whether an item passes the filters. */
  function Allowed(items: seq<Item>, brands: seq<Brand>, f: Filters): Item -> bool {
    (i: Item) => AllowedItem(items, brands, f, Some(i.id))
  }

  /** `totalItems`. */
  function TotalItems(items: seq<Item>, brands: seq<Brand>, f: Filters): (n: nat)
    ensures n <= |items|
    ensures f == NoFilters ==> n == |items|
  {
    var allowed := Allowed(items, brands, f);
    assert f == NoFilters ==> Count(items, allowed) == |items| by {
      if f == NoFilters {
        assert forall k :: 0 <= k < |items| ==> allowed(items[k]);
        FilterKeepsAll(items, allowed);
      }
    }
    Count(items, allowed)
  }

  /** `inStock`: the quantity summed over the batches of allowed items. */
  function InStock(items: seq<Item>, brands: seq<Brand>, f: Filters, inv: seq<Quantity>): int {
    SumOf(AllowedBatches(items, brands, f, inv), Weight)
  }

  /** `perItemQty`: stock per allowed item. */
  function PerItemQty(items: seq<Item>, brands: seq<Brand>, f: Filters, inv: seq<Quantity>): Counts<int> {
    Tally(AllowedBatches(items, brands, f, inv), ItemOf, Weight)
  }

  /** Every item in the stock table is allowed, and its figure is the sum
      of the quantities of its batches. */
  lemma PerItemQtyEntries(items: seq<Item>, brands: seq<Brand>, f: Filters, inv: seq<Quantity>, i: nat)
    requires i < |PerItemQty(items, brands, f, inv)|
    ensures var e := PerItemQty(items, brands, f, inv)[i];
      && AllowedItem(items, brands, f, Some(e.0))
      && e.1 == SumOf(Select(inv, ItemOf, e.0), Weight)
  {
    var xs := AllowedBatches(items, brands, f, inv);
    var e := PerItemQty(items, brands, f, inv)[i];
    TallyEntry(xs, ItemOf, Weight, i);
    var sel := Select(xs, ItemOf, e.0);
    SelectIn(xs, ItemOf, e.0);
    FilterElements(inv, AllowedBatch(items, brands, f));
    assert sel[0] in xs;
    assert AllowedBatch(items, brands, f)(sel[0]);
    assert Select(inv, ItemOf, e.0) == sel by {
      AllowedSelect(items, brands, f, inv, e.0);
    }
  }

  /** Selecting an allowed item's batches from the allowed batches loses
      nothing: all batches of an allowed item are allowed. */
  lemma {:induction false} AllowedSelect(items: seq<Item>, brands: seq<Brand>, f: Filters, inv: seq<Quantity>, id: int)
    requires AllowedItem(items, brands, f, Some(id))
    ensures Select(AllowedBatches(items, brands, f, inv), ItemOf, id) == Select(inv, ItemOf, id)
  {
    if |inv| > 0 {
      var pre := inv[..|inv| - 1];
      var q := inv[|inv| - 1];
      AllowedSelect(items, brands, f, pre, id);
      assert inv == pre + [q];
      FilterAppend(pre, [q], AllowedBatch(items, brands, f));
      var xs := AllowedBatches(items, brands, f, inv);
      var tail := Filter([q], AllowedBatch(items, brands, f));
      assert xs == AllowedBatches(items, brands, f, pre) + tail;
      SelectAppend(AllowedBatches(items, brands, f, pre), tail, ItemOf, id);
      if ItemOf(q) == Some(id) {
        assert tail == [q];
      } else if tail == [q] {
        assert Select(tail, ItemOf, id) == Select([], ItemOf, id) + [];
      }
    }
  }

  lemma SelectAppend<T>(a: seq<T>, b: seq<T>, key: T -> Option<int>, k: int)
    ensures Select(a + b, key, k) == Select(a, key, k) + Select(b, key, k)
    decreases |b|
  {
    if |b| > 0 {
      var b' := b[..|b| - 1];
      assert (a + b)[..|a + b| - 1] == a + b';
      SelectAppend(a, b', key, k);
    } else {
      assert a + b == a;
    }
  }

  /** `inStock` is the total of the per-item stock table. */
  lemma InStockIsTotal(items: seq<Item>, brands: seq<Brand>, f: Filters, inv: seq<Quantity>)
    ensures InStock(items, brands, f, inv) == Total(PerItemQty(items, brands, f, inv))
  {
    var xs := AllowedBatches(items, brands, f, inv);
    TallyTotal(xs, ItemOf, Weight);
    FilterElements(inv, AllowedBatch(items, brands, f));
    assert forall i :: 0 <= i < |xs| ==> ItemOf(xs[i]).Some? by {
      assert forall i :: 0 <= i < |xs| ==> AllowedBatch(items, brands, f)(xs[i]);
    }
    KeyedAll(xs, ItemOf);
  }

  predicate IsLow(e: (int, int)) {
    e.1 < LowStockThreshold
  }

  predicate IsOut(e: (int, int)) {
    e.1 == 0
  }

  /** `lowStock`: allowed items with fewer than ten units. */
  function LowStock(items: seq<Item>, brands: seq<Brand>, f: Filters, inv: seq<Quantity>): nat {
    Count(PerItemQty(items, brands, f, inv), IsLow)
  }

  /** `stockouts`: allowed items with no units. */
  function Stockouts(items: seq<Item>, brands: seq<Brand>, f: Filters, inv: seq<Quantity>): nat {
    Count(PerItemQty(items, brands, f, inv), IsOut)
  }

  /** Every stock-out is also low on stock. */
  lemma StockoutsWithinLowStock(items: seq<Item>, brands: seq<Brand>, f: Filters, inv: seq<Quantity>)
    ensures Stockouts(items, brands, f, inv) <= LowStock(items, brands, f, inv)
  {
    CountMonotone(PerItemQty(items, brands, f, inv), IsOut, IsLow);
  }

  /** Whether a batch has an expiry date at most thirty days away (already
      expired included). */
  function ExpiresSoon(now: int): Quantity -> bool {
    (q: Quantity) => q.expiryDate.Some? && q.expiryDate.value - now <= SoonMs
  }

  /** `expiringSoon`: the number of batches of allowed items that expire
      soon. */
  function ExpiringSoon(items: seq<Item>, brands: seq<Brand>, f: Filters, inv: seq<Quantity>, now: int): (n: nat)
    ensures n == Count(AllowedBatches(items, brands, f, inv), ExpiresSoon(now))
    ensures n <= |AllowedBatches(items, brands, f, inv)|
  {
    var both := (q: Quantity) => AllowedBatch(items, brands, f)(q) && ExpiresSoon(now)(q);
    FilterFilter(inv, AllowedBatch(items, brands, f), ExpiresSoon(now), both);
    Count(inv, both)
  }

  /** Whether a sale falls on today's calendar day; `day` is the local-time
      day of a timestamp. */
  predicate SoldToday(s: Sale, now: int, day: int -> int) {
    s.createdAt.Some? && day(s.createdAt.value) == day(now)
  }

  /** `salesToday`, counted in one pass. */
  method SalesToday(sales: seq<Sale>, now: int, day: int -> int) returns (n: nat)
    ensures n == Count(sales, (s: Sale) => SoldToday(s, now, day))
  {
    n := 0;
    var i := 0;
    while i < |sales|
      invariant 0 <= i <= |sales|
      invariant n == Count(sales[..i], (s: Sale) => SoldToday(s, now, day))
    {
      assert sales[..i + 1] == sales[..i] + [sales[i]];
      CountSnoc(sales[..i], sales[i], (s: Sale) => SoldToday(s, now, day));
      if SoldToday(sales[i], now, day) {
        n := n + 1;
      }
      i := i + 1;
    }
    assert sales[..i] == sales;
  }

  // ---------------------------------------------------------------------
  // Slow movers
  // ---------------------------------------------------------------------

  /** A sale in the thirty-day window (a sale without a date is not). */
  predicate RecentSale(s: Sale, now: int) {
    s.createdAt.Some? && s.createdAt.value >= now - ThirtyDaysMs
  }

  /** The id a recent sale is recorded under, as written:
      `Number(s.itemId ?? s.itemQuantityId)`. A sale carries no item id, so
      this is the id of its stock batch. */
  function SaleKeyAsWritten(s: Sale): Option<int> {
    if s.itemId.Some? then s.itemId else s.itemQuantityId
  }

  /** The id a recent sale should be recorded under: its item id, or the
      item of the stock batch it was sold from. */
  function SaleItem(inv: seq<Quantity>, s: Sale): Option<int> {
    if s.itemId.Some? then s.itemId
    else match RowOfSale(inv, s)
      case None => None
      case Some(q) => q.itemId
  }

  /** `itemsWithRecentSales.has(id)` under a given way of keying sales. */
  predicate SoldRecently(sales: seq<Sale>, now: int, key: Sale -> Option<int>, id: int) {
    exists j :: 0 <= j < |sales| && RecentSale(sales[j], now) && key(sales[j]) == Some(id)
  }

  /** An allowed item with no recent sale under the batch-id key. */
  function IsSlowAsWritten(items: seq<Item>, brands: seq<Brand>, f: Filters, sales: seq<Sale>, now: int): Item -> bool {
    (i: Item) => Allowed(items, brands, f)(i) && !SoldRecently(sales, now, SaleKeyAsWritten, i.id)
  }

  /** An allowed item with a recent sale under the batch-id key. */
  function IsMovingAsWritten(items: seq<Item>, brands: seq<Brand>, f: Filters, sales: seq<Sale>, now: int): Item -> bool {
    (i: Item) => Allowed(items, brands, f)(i) && SoldRecently(sales, now, SaleKeyAsWritten, i.id)
  }

  /** `slowMovers` as written: allowed items with no recent sale under the
      batch-id key. */
  function SlowMoversAsWritten(items: seq<Item>, brands: seq<Brand>, f: Filters, sales: seq<Sale>, now: int): (n: nat)
    ensures n <= TotalItems(items, brands, f)
  {
    CountMonotone(items, IsSlowAsWritten(items, brands, f, sales, now), Allowed(items, brands, f));
    Count(items, IsSlowAsWritten(items, brands, f, sales, now))
  }

  /** As written, the allowed items split into the slow movers and those
      whose id some recent sale carries as its item id or, failing that, as
      its batch id. */
  lemma SlowMoversAsWrittenSplit(items: seq<Item>, brands: seq<Brand>, f: Filters, sales: seq<Sale>, now: int)
    ensures SlowMoversAsWritten(items, brands, f, sales, now) + Count(items, IsMovingAsWritten(items, brands, f, sales, now))
         == TotalItems(items, brands, f)
  {
    CountDisjointUnion(items, IsSlowAsWritten(items, brands, f, sales, now), IsMovingAsWritten(items, brands, f, sales, now),
      Allowed(items, brands, f));
  }

  /** The corrected sale key as a function value. */
  function SaleKeyOf(inv: seq<Quantity>): Sale -> Option<int> {
    (s: Sale) => SaleItem(inv, s)
  }

  /** An allowed item with no recent sale under the corrected key. */
  function IsSlow(items: seq<Item>, brands: seq<Brand>, f: Filters, inv: seq<Quantity>, sales: seq<Sale>, now: int): Item -> bool {
    (i: Item) => Allowed(items, brands, f)(i) && !SoldRecently(sales, now, SaleKeyOf(inv), i.id)
  }

  /** An allowed item with a recent sale under the corrected key. */
  function IsMoving(items: seq<Item>, brands: seq<Brand>, f: Filters, inv: seq<Quantity>, sales: seq<Sale>, now: int): Item -> bool {
    (i: Item) => Allowed(items, brands, f)(i) && SoldRecently(sales, now, SaleKeyOf(inv), i.id)
  }

  /** `slowMovers` with each sale resolved to its item. */
  function SlowMovers(items: seq<Item>, brands: seq<Brand>, f: Filters, inv: seq<Quantity>, sales: seq<Sale>, now: int): (n: nat)
    ensures n <= TotalItems(items, brands, f)
  {
    CountMonotone(items, IsSlow(items, brands, f, inv, sales, now), Allowed(items, brands, f));
    Count(items, IsSlow(items, brands, f, inv, sales, now))
  }

  /** The allowed items split into the slow movers and those sold in the
      last thirty days. */
  lemma SlowMoversSplit(items: seq<Item>, brands: seq<Brand>, f: Filters, inv: seq<Quantity>, sales: seq<Sale>, now: int)
    ensures SlowMovers(items, brands, f, inv, sales, now) + Count(items, IsMoving(items, brands, f, inv, sales, now))
         == TotalItems(items, brands, f)
  {
    CountDisjointUnion(items, IsSlow(items, brands, f, inv, sales, now), IsMoving(items, brands, f, inv, sales, now),
      Allowed(items, brands, f));
  }

  /** An item sold from one of its batches in the last thirty days is not a
      slow mover under the corrected count. */
  lemma SoldItemIsNotSlow(items: seq<Item>, brands: seq<Brand>, f: Filters, inv: seq<Quantity>, sales: seq<Sale>, now: int, j: nat, it: Item)
    requires j < |sales| && RecentSale(sales[j], now) && SaleItem(inv, sales[j]) == Some(it.id)
    ensures !IsSlow(items, brands, f, inv, sales, now)(it)
  {
    assert SaleKeyOf(inv)(sales[j]) == Some(it.id);
    assert SoldRecently(sales, now, SaleKeyOf(inv), it.id);
  }

  const ExampleItems: seq<Item> := [Item(1, Some("iPhone 15"), 1)]
  const ExampleBrands: seq<Brand> := [Brand(1, Some("Apple"), Some(1))]
  const ExampleInventory: seq<Quantity> := [Quantity(5, Some(1), 1001, Some(50), None, None)]
  const ExampleSales: seq<Sale> := [Sale(9, Some(5), None, Some(0))]

  lemma ExampleSaleNotUnderItem()
    ensures !SoldRecently(ExampleSales, 0, SaleKeyAsWritten, 1)
  {
    assert SaleKeyAsWritten(ExampleSales[0]) == Some(5);
  }

  lemma ExampleSaleUnderItem()
    ensures SoldRecently(ExampleSales, 0, SaleKeyOf(ExampleInventory), 1)
  {
    assert QuantityById(ExampleInventory, 5) == Some(ExampleInventory[0]);
    assert SaleItem(ExampleInventory, ExampleSales[0]) == Some(1);
  }

  /** The one item, sold today from its only batch (batch 5), is still
      counted as a slow mover as written, and is not once the sale is
      resolved to its item. */
  lemma SlowMoverMiscount()
    ensures SlowMoversAsWritten(ExampleItems, ExampleBrands, NoFilters, ExampleSales, 0) == 1
    ensures SlowMovers(ExampleItems, ExampleBrands, NoFilters, ExampleInventory, ExampleSales, 0) == 0
  {
    ExampleSaleNotUnderItem();
    ExampleSaleUnderItem();
    assert AllowedItem(ExampleItems, ExampleBrands, NoFilters, Some(1));
    assert ExampleItems[1..] == [];
  }

  // ---------------------------------------------------------------------
  // Detail table
  // ---------------------------------------------------------------------

  /** One row of the expiring / low-stock table. `itemId` is `None` for the
      batches without an item, which share the `NaN` row. */
  datatype DetailRow = DetailRow(itemId: Option<int>, name: string, qty: int, earliestExpiry: Option<int>)

  /** `itemName(id)`: the item's name when it has a non-empty one, else
      `Item <id>`. */
  function ItemName(items: seq<Item>, id: Option<int>): string {
    var found := if id.Some? then ItemById(items, id.value) else None;
    if found.Some? && TruthyStr(found.value.itemName) then found.value.itemName.value
    else "Item " + (if id.Some? then IntToString(id.value) else "NaN")
  }

  /** The earliest expiry among some batches, `None` when none is dated. */
  function MinExpiry(qs: seq<Quantity>): (r: Option<int>)
    ensures r.None? <==> forall j :: 0 <= j < |qs| ==> qs[j].expiryDate.None?
    ensures r.Some? ==> exists j :: 0 <= j < |qs| && qs[j].expiryDate == r
    ensures r.Some? ==> forall j :: 0 <= j < |qs| && qs[j].expiryDate.Some? ==> r.value <= qs[j].expiryDate.value
  {
    if |qs| == 0 then None
    else
      var pre := qs[..|qs| - 1];
      var q := qs[|qs| - 1];
      var prev := MinExpiry(pre);
      assert forall j :: 0 <= j < |pre| ==> pre[j] == qs[j];
      if q.expiryDate.None? then prev
      else if prev.None? || q.expiryDate.value < prev.value then q.expiryDate
      else prev
  }

  /** The key of the per-item grouping: the batch's item id, with `NaN`
      (`None`) a key of its own. */
  function BatchKey(q: Quantity): Option<Option<int>> {
    Some(q.itemId)
  }

  /** `byItem` is keyed by `Number(q.itemId)`: a key is an array index when
      the id is a whole number in `[0, 2^32 - 1)`; `NaN` and negative ids
      are ordinary keys. */
  predicate IndexId(id: Option<int>) {
    id.Some? && 0 <= id.value < ArrayIndexLimit
  }

  /** Where `Object.values` lists an item's group: index ids by value, the
      other keys (`None`) after them. */
  function IdRank(g: Group<Option<int>, Quantity>): Option<int> {
    if IndexId(g.key) then Some(g.key.value) else None
  }

  /** The per-item groups in the order `Object.values(byItem)` lists them:
      the groups are built in first-appearance order and then listed index
      ids first, ascending, and the other keys in insertion order. */
  function ItemGroups(inv: seq<Quantity>): seq<Group<Option<int>, Quantity>> {
    SortByKey(Partition(inv, BatchKey), IdRank)
  }

  /** `Object.values(byItem)`: one row per item id met in the inventory,
      over all batches regardless of the filters. */
  function ByItem(items: seq<Item>, inv: seq<Quantity>): (rows: seq<DetailRow>)
    ensures |rows| == |Partition(inv, BatchKey)|
    ensures forall i :: 0 <= i < |rows| ==> rows[i].itemId == ItemGroups(inv)[i].key
  {
    var gs := ItemGroups(inv);
    seq(|gs|, i requires 0 <= i < |gs| =>
      DetailRow(gs[i].key, ItemName(items, gs[i].key), SumOf(gs[i].members, Weight), MinExpiry(gs[i].members)))
  }

  /** Each listed group is one of the partition's groups. */
  lemma ItemGroupIsGroup(inv: seq<Quantity>, i: nat)
    requires i < |ItemGroups(inv)|
    ensures ItemGroups(inv)[i] in Partition(inv, BatchKey)
    ensures ItemGroups(inv)[i].members == Select(inv, BatchKey, ItemGroups(inv)[i].key)
  {
    var gs := Partition(inv, BatchKey);
    assert ItemGroups(inv)[i] in multiset(ItemGroups(inv));
    PartitionSelects(inv, BatchKey);
  }

  /** Each row carries its item's total quantity, earliest expiry and
      display name. */
  lemma ByItemRow(items: seq<Item>, inv: seq<Quantity>, i: nat)
    requires i < |ByItem(items, inv)|
    ensures var r := ByItem(items, inv)[i];
      && r.qty == SumOf(Select(inv, BatchKey, r.itemId), Weight)
      && r.earliestExpiry == MinExpiry(Select(inv, BatchKey, r.itemId))
      && r.name == ItemName(items, r.itemId)
  {
    ItemGroupIsGroup(inv, i);
  }

  /** The partition's groups have distinct keys, so no group occurs twice. */
  lemma GroupsNoRepeats(inv: seq<Quantity>)
    ensures NoRepeats(Partition(inv, BatchKey))
  {
    var gs := Partition(inv, BatchKey);
    forall i, j | 0 <= i < j < |gs|
      ensures gs[i] != gs[j]
    {
      assert gs[i].key != gs[j].key;
    }
  }

  /** No item id is listed twice. */
  lemma ItemGroupsDistinct(inv: seq<Quantity>)
    ensures DistinctKeys(ItemGroups(inv))
  {
    var gs := Partition(inv, BatchKey);
    var sorted := ItemGroups(inv);
    GroupsNoRepeats(inv);
    PermutationNoRepeats(sorted, gs);
    forall i, k | 0 <= i < k < |sorted|
      ensures sorted[i].key != sorted[k].key
    {
      ItemGroupIsGroup(inv, i);
      ItemGroupIsGroup(inv, k);
      var a :| 0 <= a < |gs| && gs[a] == sorted[i];
      var b :| 0 <= b < |gs| && gs[b] == sorted[k];
      assert a != b;
      assert gs[a].key != gs[b].key;
    }
  }

  /** The listed group of a batch's item. */
  lemma ItemGroupOf(inv: seq<Quantity>, j: nat) returns (i: nat)
    requires j < |inv|
    ensures i < |ItemGroups(inv)| && ItemGroups(inv)[i].key == inv[j].itemId
  {
    var gs := Partition(inv, BatchKey);
    var sorted := ItemGroups(inv);
    PartitionKeysCover(inv, BatchKey);
    assert BatchKey(inv[j]).Some?;
    var m :| 0 <= m < |gs| && Keys(gs)[m] == inv[j].itemId;
    assert gs[m] in multiset(sorted);
    i :| 0 <= i < |sorted| && sorted[i] == gs[m];
  }

  /** Every batch's item has a row, and no item has two. */
  lemma ByItemCovers(items: seq<Item>, inv: seq<Quantity>)
    ensures var rows := ByItem(items, inv);
      && (forall j :: 0 <= j < |inv| ==> exists i :: 0 <= i < |rows| && rows[i].itemId == inv[j].itemId)
      && (forall i, k :: 0 <= i < k < |rows| ==> rows[i].itemId != rows[k].itemId)
  {
    var rows := ByItem(items, inv);
    forall j | 0 <= j < |inv|
      ensures exists i :: 0 <= i < |rows| && rows[i].itemId == inv[j].itemId
    {
      var i := ItemGroupOf(inv, j);
      assert rows[i].itemId == inv[j].itemId;
    }
    ItemGroupsDistinct(inv);
  }

  /** The listed ids: index ids come first and strictly ascending. */
  lemma ItemGroupsAscend(inv: seq<Quantity>)
    ensures var gs := ItemGroups(inv);
      forall i, j :: 0 <= i < j < |gs| && IndexId(gs[j].key) ==>
        IndexId(gs[i].key) && gs[i].key.value < gs[j].key.value
  {
    var gs := ItemGroups(inv);
    ItemGroupsDistinct(inv);
    forall i, j | 0 <= i < j < |gs| && IndexId(gs[j].key)
      ensures IndexId(gs[i].key) && gs[i].key.value < gs[j].key.value
    {
      assert KeyLe(IdRank(gs[i]), IdRank(gs[j]));
    }
  }

  /** The rows are listed as `Object.values` lists integer-keyed entries:
      index ids first and strictly ascending, then the other ids (`NaN`,
      negatives) in the order their first batch appears. */
  lemma ByItemOrder(items: seq<Item>, inv: seq<Quantity>)
    ensures var rows := ByItem(items, inv);
      forall i, j :: 0 <= i < j < |rows| && IndexId(rows[j].itemId) ==>
        IndexId(rows[i].itemId) && rows[i].itemId.value < rows[j].itemId.value
    ensures WithKey(ItemGroups(inv), IdRank, None) == WithKey(Partition(inv, BatchKey), IdRank, None)
  {
    ItemGroupsAscend(inv);
    SortStable(Partition(inv, BatchKey), IdRank, None);
  }

  /** One undated unit of item 5, then one of item 2. */
  function TwoBatches(): seq<Quantity> {
    [Quantity(1, Some(5), 0, Some(1), None, None), Quantity(2, Some(2), 0, Some(1), None, None)]
  }

  /** The example's groups are listed item 2 first. */
  lemma TwoBatchesGroups()
    ensures ItemGroups(TwoBatches()) == [Group(Some(2), [TwoBatches()[1]]), Group(Some(5), [TwoBatches()[0]])]
  {
    var inv := TwoBatches();
    var gs := ItemGroups(inv);
    PartitionTwo(inv[0], inv[1], BatchKey, Some(5), Some(2));
    ItemGroupIsGroup(inv, 0);
    ItemGroupIsGroup(inv, 1);
    ItemGroupsDistinct(inv);
    ItemGroupsAscend(inv);
  }

  /** `Object.values(byItem)` lists item 2 before item 5 although item 5's
      batch comes first. */
  lemma ByItemExample(items: seq<Item>)
    ensures var rows := ByItem(items, TwoBatches());
      |rows| == 2 && rows[0].itemId == Some(2) && rows[1].itemId == Some(5)
  {
    TwoBatchesGroups();
  }

  /** A row needs attention when it is low on stock or its earliest expiry
      is at most thirty days away. */
  predicate NeedsAttention(r: DetailRow, now: int) {
    r.qty < LowStockThreshold || (r.earliestExpiry.Some? && r.earliestExpiry.value - now <= SoonMs)
  }

  function ExpiryOf(r: DetailRow): Option<int> {
    r.earliestExpiry
  }

  /** `detailedRows`: the rows needing attention, earliest expiry first and
      undated rows last. */
  function DetailedRows(items: seq<Item>, inv: seq<Quantity>, now: int): (rows: seq<DetailRow>)
    ensures forall i, j :: 0 <= i < j < |rows| && rows[j].earliestExpiry.Some? ==>
      rows[i].earliestExpiry.Some? && rows[i].earliestExpiry.value <= rows[j].earliestExpiry.value
  {
    var rows := SortByKey(Filter(ByItem(items, inv), (r: DetailRow) => NeedsAttention(r, now)), ExpiryOf);
    assert forall i, j :: 0 <= i < j < |rows| ==> KeyLe(ExpiryOf(rows[i]), ExpiryOf(rows[j]));
    rows
  }

  /** A row is in the detail table exactly when it is a per-item row that
      needs attention. */
  lemma DetailedRowsMembership(items: seq<Item>, inv: seq<Quantity>, now: int, r: DetailRow)
    ensures r in DetailedRows(items, inv, now) <==> r in ByItem(items, inv) && NeedsAttention(r, now)
  {
    var all := ByItem(items, inv);
    var kept := Filter(all, (x: DetailRow) => NeedsAttention(x, now));
    var rows := DetailedRows(items, inv, now);
    assert multiset(rows) == multiset(kept);
    assert r in rows <==> r in kept by {
      assert r in rows <==> r in multiset(rows);
      assert r in kept <==> r in multiset(kept);
    }
    FilterElements(all, (x: DetailRow) => NeedsAttention(x, now));
    if r in all && NeedsAttention(r, now) {
      FilterContains(all, (x: DetailRow) => NeedsAttention(x, now), r);
    }
  }

  /** Rows with the same earliest expiry (or none) keep their `byItem`
      order: the sort is stable. */
  lemma DetailedRowsTies(items: seq<Item>, inv: seq<Quantity>, now: int, k: Option<int>)
    ensures WithKey(DetailedRows(items, inv, now), ExpiryOf, k)
      == WithKey(Filter(ByItem(items, inv), (r: DetailRow) => NeedsAttention(r, now)), ExpiryOf, k)
  {
    SortStable(Filter(ByItem(items, inv), (r: DetailRow) => NeedsAttention(r, now)), ExpiryOf, k);
  }

  /** When every per-item row needs attention and none is dated, the detail
      table is exactly the `Object.values` listing. */
  lemma DetailedRowsUndated(items: seq<Item>, inv: seq<Quantity>, now: int)
    requires forall i :: 0 <= i < |ByItem(items, inv)| ==>
      NeedsAttention(ByItem(items, inv)[i], now) && ByItem(items, inv)[i].earliestExpiry.None?
    ensures DetailedRows(items, inv, now) == ByItem(items, inv)
  {
    var all := ByItem(items, inv);
    FilterKeepsAll(all, (r: DetailRow) => NeedsAttention(r, now));
    SortSameKey(all, ExpiryOf, None);
  }

  /** A lone batch's total and earliest expiry are its own. */
  lemma SingleBatch(q: Quantity)
    ensures SumOf([q], Weight) == Weight(q)
    ensures MinExpiry([q]) == q.expiryDate
  {
    assert [q][1..] == [];
    assert [q][..0] == [];
  }

  /** The example's rows hold one unit each and no expiry. */
  lemma TwoBatchesRows(items: seq<Item>, i: nat)
    requires i < |ByItem(items, TwoBatches())|
    ensures ByItem(items, TwoBatches())[i].qty == 1
    ensures ByItem(items, TwoBatches())[i].earliestExpiry == None
  {
    var inv := TwoBatches();
    TwoBatchesGroups();
    ItemGroupIsGroup(inv, i);
    ByItemRow(items, inv, i);
    var q := inv[1 - i];
    assert ItemGroups(inv)[i].members == [q] by {
      if i == 0 {
        assert ItemGroups(inv)[0] == Group(Some(2), [inv[1]]);
      } else {
        assert ItemGroups(inv)[1] == Group(Some(5), [inv[0]]);
      }
    }
    SingleBatch(q);
  }

  /** Both rows of the example need attention and neither is dated, so the
      detail table keeps the `Object.values` order: item 2, then item 5. */
  lemma DetailedRowsExample(items: seq<Item>, now: int)
    ensures var rows := DetailedRows(items, TwoBatches(), now);
      |rows| == 2 && rows[0].itemId == Some(2) && rows[1].itemId == Some(5)
  {
    var all := ByItem(items, TwoBatches());
    forall i | 0 <= i < |all|
      ensures NeedsAttention(all[i], now) && all[i].earliestExpiry.None?
    {
      TwoBatchesRows(items, i);
    }
    DetailedRowsUndated(items, TwoBatches(), now);
    ByItemExample(items);
  }

  // ---------------------------------------------------------------------
  // Stat card colours
  // ---------------------------------------------------------------------

  const PoolSize: nat := 6

  /** The two border colours of a stat card, from two draws `i`, `j` in
      `[0, 6)`: a repeated draw is moved two places on. */
  function BeamPair(i: nat, j: nat): (r: (nat, nat))
    requires i < PoolSize && j < PoolSize
    ensures r.0 == i && r.0 < PoolSize && r.1 < PoolSize
    ensures r.0 != r.1
    ensures j != i ==> r.1 == j
  {
    (i, if j == i then (j + 2) % PoolSize else j)
  }
}

=== FILE: datatable.dfy ===
/** The view-state controller of the generic data table: the storage key
    derived from the column list, loading a saved view field by field,
    persisting all six fields, resetting to defaults, seeding and rearranging
    the column order, and the group-by rendering of the row list.

    Sorting, filtering, pinning, visibility and pagination are carried as
    plain values; what they do to the rows belongs to the table library and
    is not modelled. Browser storage is a map from key to entry, and a write
    is immediate (the 250 ms debounce is not modelled). */
module DataTable {
  import opened Common
  import opened Strings
  import opened Grouping
  import opened Ordering

  // ---------------------------------------------------------------------
  // Storage key
  // ---------------------------------------------------------------------

  datatype Column = Column(id: Option<string>, accessorKey: Option<string>)

  const KeyPrefix: string := "datatable:view:"

  /** `c.id || c.accessorKey || ''`. */
  function ColumnName(c: Column): string {
    if TruthyStr(c.id) then c.id.value
    else if TruthyStr(c.accessorKey) then c.accessorKey.value
    else ""
  }

  /** The column signature: one name per column, in column order. */
  function Signature(columns: seq<Column>): (names: seq<string>)
    ensures |names| == |columns|
    ensures forall i :: 0 <= i < |columns| ==> names[i] == ColumnName(columns[i])
  {
    seq(|columns|, i requires 0 <= i < |columns| => ColumnName(columns[i]))
  }

  predicate BarFree(columns: seq<Column>) {
    forall i :: 0 <= i < |columns| ==> '|' !in ColumnName(columns[i])
  }

  /** `datatable:view:` followed by the column names joined with `|`. The
      key always carries the prefix, and when no name contains `|` the
      names can be read back from it. */
  function StorageKey(columns: seq<Column>): (key: string)
    ensures |KeyPrefix| <= |key| && key[..|KeyPrefix|] == KeyPrefix
    ensures |columns| > 0 && BarFree(columns) ==> Split(key[|KeyPrefix|..], '|') == Signature(columns)
  {
    var key := KeyPrefix + Join(Signature(columns), "|");
    assert key[|KeyPrefix|..] == Join(Signature(columns), ['|']);
    assert |columns| > 0 && BarFree(columns) ==> Split(key[|KeyPrefix|..], '|') == Signature(columns) by {
      if |columns| > 0 && BarFree(columns) {
        SplitJoin(Signature(columns), '|');
      }
    }
    key
  }

  /** Two non-empty column lists whose names avoid `|` share a storage key
      exactly when they have the same signature. */
  lemma StorageKeyIdentifiesSignature(a: seq<Column>, b: seq<Column>)
    requires |a| > 0 && |b| > 0 && BarFree(a) && BarFree(b)
    ensures StorageKey(a) == StorageKey(b) <==> Signature(a) == Signature(b)
  {
  }

  // ---------------------------------------------------------------------
  // View state, saved views and storage
  // ---------------------------------------------------------------------

  datatype SortRule = SortRule(id: string, desc: bool)

  datatype Pinning = Pinning(left: seq<string>, right: seq<string>)

  /** The six persisted pieces of table state. */
  datatype View = View(
    sorting: seq<SortRule>,
    globalFilter: string,
    columnVisibility: map<string, bool>,
    columnPinning: Pinning,
    columnOrder: seq<string>,
    groupBy: string)

  /** The initial state of every field, and the state `resetView` restores. */
  const DefaultView: View := View([], "", map[], Pinning([], []), [], "")

  /** A parsed saved view. For sorting, visibility, pinning and order,
      `None` means the field is absent or falsy; for the filter and the
      group-by column, `None` means the field is not a string. */
  datatype SavedView = SavedView(
    sorting: Option<seq<SortRule>>,
    globalFilter: Option<string>,
    columnVisibility: Option<map<string, bool>>,
    columnPinning: Option<Pinning>,
    columnOrder: Option<seq<string>>,
    groupBy: Option<string>)

  /** A stored entry: `Unreadable` covers the empty string, text that is not
      JSON, and JSON `null` (whose first field access throws). */
  datatype Entry = Unreadable | Json(saved: SavedView)

  type Storage = map<string, Entry>

  /** Load the saved view for `key` into `v`: each present field replaces
      the current one, every other field is kept, and an absent or
      unreadable entry changes nothing. */
  function Load(storage: Storage, key: string, v: View): (r: View)
    ensures key !in storage || storage[key].Unreadable? ==> r == v
    ensures key in storage && storage[key].Json? ==>
      var s := storage[key].saved;
      && r.sorting == s.sorting.GetOr(v.sorting)
      && r.globalFilter == s.globalFilter.GetOr(v.globalFilter)
      && r.columnVisibility == s.columnVisibility.GetOr(v.columnVisibility)
      && r.columnPinning == s.columnPinning.GetOr(v.columnPinning)
      && r.columnOrder == s.columnOrder.GetOr(v.columnOrder)
      && r.groupBy == s.groupBy.GetOr(v.groupBy)
  {
    if key !in storage then v
    else match storage[key]
      case Unreadable => v
      case Json(s) =>
        var v1 := if s.sorting.Some? then v.(sorting := s.sorting.value) else v;
        var v2 := if s.globalFilter.Some? then v1.(globalFilter := s.globalFilter.value) else v1;
        var v3 := if s.columnVisibility.Some? then v2.(columnVisibility := s.columnVisibility.value) else v2;
        var v4 := if s.columnPinning.Some? then v3.(columnPinning := s.columnPinning.value) else v3;
        var v5 := if s.columnOrder.Some? then v4.(columnOrder := s.columnOrder.value) else v4;
        if s.groupBy.Some? then v5.(groupBy := s.groupBy.value) else v5
  }

  /** The JSON written for a view: all six fields. Arrays and objects are
      truthy and the two strings are strings, so every field is present. */
  function Snapshot(v: View): SavedView {
    SavedView(Some(v.sorting), Some(v.globalFilter), Some(v.columnVisibility),
              Some(v.columnPinning), Some(v.columnOrder), Some(v.groupBy))
  }

  /** `localStorage.setItem(key, JSON.stringify({...}))`. */
  function Persist(storage: Storage, key: string, v: View): (r: Storage)
    ensures key in r && r[key].Json?
    ensures forall k :: k in storage && k != key ==> k in r && r[k] == storage[k]
  {
    storage[key := Json(Snapshot(v))]
  }

  /** `resetView`: the default view, and the entry for `key` removed. */
  function Reset(storage: Storage, key: string): (r: (View, Storage))
    ensures r.0 == DefaultView
    ensures key !in r.1
    ensures forall k :: k in storage && k != key ==> k in r.1 && r.1[k] == storage[k]
  {
    (DefaultView, storage - {key})
  }

  /** Save/load round trip: loading what was persisted reproduces all six
      fields, whatever the state it is loaded into. */
  lemma LoadAfterPersist(storage: Storage, key: string, v: View, w: View)
    ensures Load(Persist(storage, key, v), key, w) == v
  {
  }

  /** Persisting under one key leaves what every other key loads unchanged. */
  lemma PersistIsolated(storage: Storage, key: string, other: string, v: View, w: View)
    requires other != key
    ensures Load(Persist(storage, key, v), other, w) == Load(storage, other, w)
  {
  }

  /** Loading twice is loading once. */
  lemma LoadIdempotent(storage: Storage, key: string, v: View)
    ensures Load(storage, key, Load(storage, key, v)) == Load(storage, key, v)
  {
  }

  /** After a reset nothing is stored for the key, so a reload starts from
      and keeps the defaults; once the defaults are persisted again a reload
      into any state yields the defaults. */
  lemma ReloadAfterReset(storage: Storage, key: string, w: View)
    ensures Load(Reset(storage, key).1, key, DefaultView) == DefaultView
    ensures Load(Reset(storage, key).1, key, w) == w
    ensures Load(Persist(Reset(storage, key).1, key, Reset(storage, key).0), key, w) == DefaultView
  {
  }

  // ---------------------------------------------------------------------
  // Column order
  // ---------------------------------------------------------------------

  /** The seeding effect: an empty order becomes the list of leaf column ids;
      any other order is kept. */
  function SeedOrder(order: seq<string>, leafIds: seq<string>): (r: seq<string>)
    ensures |order| == 0 ==> r == leafIds
    ensures |order| > 0 ==> r == order
  {
    if |order| == 0 then leafIds else order
  }

  /** Seeding twice is seeding once. */
  lemma SeedIdempotent(order: seq<string>, leafIds: seq<string>)
    ensures SeedOrder(SeedOrder(order, leafIds), leafIds) == SeedOrder(order, leafIds)
  {
  }

  datatype Direction = Up | Down

  /** `moveColumn(id, dir)`: swap `id` (its first occurrence) with its
      neighbour above or below; nothing happens when `id` is absent or the
      neighbour would be off either end. */
  function MoveColumn(order: seq<string>, id: string, dir: Direction): (r: seq<string>)
    ensures |r| == |order|
    ensures multiset(r) == multiset(order)
    ensures id !in order ==> r == order
    ensures id in order ==>
      var idx := IndexOf(order, id);
      var w := if dir == Up then idx - 1 else idx + 1;
      if w < 0 || w >= |order| then r == order
      else (r[idx] == order[w] && r[w] == order[idx]
        && forall i :: 0 <= i < |order| && i != idx && i != w ==> r[i] == order[i])
  {
    var idx := IndexOf(order, id);
    if idx == -1 then order
    else
      var w := if dir == Up then idx - 1 else idx + 1;
      if w < 0 || w >= |order| then order
      else
        Swap(order, idx, w)
  }

  /** `[next[idx], next[target]] = [next[target], next[idx]]`. */
  function Swap(s: seq<string>, i: nat, j: nat): (r: seq<string>)
    requires i < |s| && j < |s|
    ensures |r| == |s| && r[i] == s[j] && r[j] == s[i]
    ensures forall k :: 0 <= k < |s| && k != i && k != j ==> r[k] == s[k]
    ensures multiset(r) == multiset(s)
  {
    var t := s[i := s[j]];
    assert multiset(t) == multiset(s) - multiset{s[i]} + multiset{s[j]};
    assert t[j] == s[j] || i == j;
    t[j := s[i]]
  }

  /** Swapping the same two places twice changes nothing. */
  lemma SwapTwice(s: seq<string>, i: nat, j: nat)
    requires i < |s| && j < |s|
    ensures Swap(Swap(s, i, j), j, i) == s
  {
    var r := Swap(Swap(s, i, j), j, i);
    assert forall k :: 0 <= k < |s| ==> r[k] == s[k];
  }

  /** Whether `moveColumn` changes anything. */
  predicate Moves(order: seq<string>, id: string, dir: Direction) {
    var idx := IndexOf(order, id);
    idx != -1 && (if dir == Up then idx - 1 >= 0 else idx + 1 < |order|)
  }

  /** Moving a column up and then down restores the order, whenever the
      first move did something. */
  lemma UpThenDown(order: seq<string>, id: string)
    requires Moves(order, id, Up)
    ensures MoveColumn(MoveColumn(order, id, Up), id, Down) == order
  {
    var idx := IndexOf(order, id);
    var once := Swap(order, idx, idx - 1);
    assert MoveColumn(order, id, Up) == once;
    // the neighbour above is not `id`, since `idx` is its first occurrence
    forall j | 0 <= j < idx - 1
      ensures once[j] != id
    {
      assert once[j] == order[..idx][j];
    }
    assert once[idx - 1] == id;
    IndexOfIs(once, id, idx - 1);
    assert MoveColumn(once, id, Down) == Swap(once, idx - 1, idx);
    SwapTwice(order, idx, idx - 1);
  }

  /** After a down move, `id` is first found one place lower. */
  lemma DownMoveIndex(order: seq<string>, id: string)
    requires Moves(order, id, Down)
    requires order[IndexOf(order, id) + 1] != id
    ensures var idx := IndexOf(order, id);
      && MoveColumn(order, id, Down) == Swap(order, idx, idx + 1)
      && IndexOf(Swap(order, idx, idx + 1), id) == idx + 1
  {
    var idx := IndexOf(order, id);
    var once := Swap(order, idx, idx + 1);
    forall j | 0 <= j < idx + 1
      ensures once[j] != id
    {
      if j < idx {
        assert once[j] == order[..idx][j];
      }
    }
    IndexOfIs(once, id, idx + 1);
  }

  /** Moving a column down and then up restores the order, whenever the
      first move did something and the neighbour below is another column. */
  lemma DownThenUp(order: seq<string>, id: string)
    requires Moves(order, id, Down)
    requires order[IndexOf(order, id) + 1] != id
    ensures MoveColumn(MoveColumn(order, id, Down), id, Up) == order
  {
    var idx := IndexOf(order, id);
    DownMoveIndex(order, id);
    var once := Swap(order, idx, idx + 1);
    assert MoveColumn(once, id, Up) == Swap(once, idx + 1, idx);
    SwapTwice(order, idx, idx + 1);
  }

  /** Moving keeps an order that is a rearrangement of the leaf columns a
      rearrangement of them. */
  lemma MoveKeepsPermutation(order: seq<string>, leafIds: seq<string>, id: string, dir: Direction)
    requires multiset(order) == multiset(leafIds)
    ensures multiset(MoveColumn(order, id, dir)) == multiset(leafIds)
  {
  }

  /** After `resetView` the order is empty and the seeding effect does not
      run again (the number of leaf columns has not changed), so every
      Up/Down button does nothing until the table is mounted again. */
  lemma ArrangeInertAfterReset(storage: Storage, key: string, id: string, dir: Direction)
    ensures MoveColumn(Reset(storage, key).0.columnOrder, id, dir) == []
  {
  }

  // ---------------------------------------------------------------------
  // Mounting: load, then seed
  // ---------------------------------------------------------------------

  /** Mounting as the component is written: the load effect queues the saved
      fields, then the seeding effect, which read the order of the first
      render (always empty), queues the leaf ids; the later update wins. */
  function MountAsWritten(storage: Storage, columns: seq<Column>, leafIds: seq<string>): (r: View)
    ensures r.columnOrder == leafIds
  {
    var loaded := Load(storage, StorageKey(columns), DefaultView);
    loaded.(columnOrder := SeedOrder(DefaultView.columnOrder, leafIds))
  }

  /** Mounting with the seeding step applied to the loaded order. */
  function Mount(storage: Storage, columns: seq<Column>, leafIds: seq<string>): (r: View)
    ensures |leafIds| > 0 ==> |r.columnOrder| > 0
  {
    var loaded := Load(storage, StorageKey(columns), DefaultView);
    loaded.(columnOrder := SeedOrder(loaded.columnOrder, leafIds))
  }

  /** A saved custom column order does not survive a reload of the
      component as written: with columns `a`, `b` and a saved order
      `b, a`, the mounted order is `a, b`. */
  lemma SavedOrderLostOnMount()
    ensures var columns := [Column(Some("a"), None), Column(Some("b"), None)];
            var saved := DefaultView.(columnOrder := ["b", "a"]);
            var storage := Persist(map[], StorageKey(columns), saved);
            MountAsWritten(storage, columns, ["a", "b"]).columnOrder == ["a", "b"]
            && Load(storage, StorageKey(columns), DefaultView).columnOrder == ["b", "a"]
  {
  }

  /** With seeding applied to the loaded order, a persisted view with a
      non-empty column order comes back whole when the table is mounted. */
  lemma MountRestoresPersisted(storage: Storage, columns: seq<Column>, leafIds: seq<string>, v: View)
    requires |v.columnOrder| > 0
    ensures Mount(Persist(storage, StorageKey(columns), v), columns, leafIds) == v
  {
    LoadAfterPersist(storage, StorageKey(columns), v, DefaultView);
  }

  // ---------------------------------------------------------------------
  // Group-by rendering
  // ---------------------------------------------------------------------

  /** A cell value as the table library returns it. */
  datatype Cell = Undefined | Null | Text(s: string) | Number(n: int) | Boolean(b: bool)

  type Row = map<string, Cell>

  /** `row.getValue(column)`; a row without the column reads as undefined. */
  function CellOf(row: Row, column: string): Cell {
    if column in row then row[column] else Undefined
  }

  /** `String(value ?? '—')`. */
  function GroupLabel(c: Cell): string {
    match c
    case Undefined => "—"
    case Null => "—"
    case Text(s) => s
    case Number(n) => IntToString(n)
    case Boolean(b) => if b then "true" else "false"
  }

  /** Labels compare as strings: the number 0 and the text "0" share a
      group, and null and undefined share the "—" group. */
  lemma LabelsAreStrings()
    ensures GroupLabel(Number(0)) == GroupLabel(Text("0"))
    ensures GroupLabel(Null) == GroupLabel(Undefined) == "—"
  {
  }

  function LabelOf(groupBy: string): Row -> Option<string> {
    r => Some(GroupLabel(CellOf(r, groupBy)))
  }

  /** The groups of the row list, one per label, each holding its rows in
      input order. */
  function GroupRows(rows: seq<Row>, groupBy: string): seq<Group<string, Row>> {
    Partition(rows, LabelOf(groupBy))
  }

  /** The names a plain object literal inherits from `Object.prototype`.
      Looking one up on the `groups` dictionary finds a function (for
      `__proto__`, the prototype object itself), never an array. */
  const InheritedNames: set<string> := {
    "constructor", "hasOwnProperty", "isPrototypeOf", "propertyIsEnumerable",
    "toLocaleString", "toString", "valueOf", "__proto__",
    "__defineGetter__", "__defineSetter__", "__lookupGetter__", "__lookupSetter__"}

  /** The grouping loop as written, over a plain object: `groups[key] ||
      []` keeps an inherited member, whose missing `push` throws a
      `TypeError` (`None`) and aborts the rendering. */
  function GroupRowsAsWritten(rows: seq<Row>, groupBy: string): Option<seq<Group<string, Row>>> {
    PushAll(rows, RowLabel(groupBy), InheritedNames)
  }

  function RowLabel(groupBy: string): Row -> string {
    r => GroupLabel(CellOf(r, groupBy))
  }

  /** `forEach(row => { groups[key] = groups[key] || []; groups[key].push(row) })`
      on a dictionary where the names in `inherited` already hold values
      that are not arrays. */
  function PushAll<T>(xs: seq<T>, name: T -> string, inherited: set<string>): Option<seq<Group<string, T>>> {
    if |xs| == 0 then Some([])
    else match PushAll(xs[..|xs| - 1], name, inherited)
      case None => None
      case Some(gs) =>
        var k := name(xs[|xs| - 1]);
        if k in inherited then None else Some(Place(gs, k, xs[|xs| - 1]))
  }

  /** The loop as written throws exactly when some row's name is an
      inherited name, and otherwise builds the intended groups. */
  lemma GroupRowsAsWrittenThrows(rows: seq<Row>, groupBy: string)
    ensures GroupRowsAsWritten(rows, groupBy).None?
        <==> exists i :: 0 <= i < |rows| && GroupLabel(CellOf(rows[i], groupBy)) in InheritedNames
    ensures GroupRowsAsWritten(rows, groupBy).Some? ==>
      GroupRowsAsWritten(rows, groupBy).value == GroupRows(rows, groupBy)
  {
    var name := RowLabel(groupBy);
    PushAllThrows(rows, name, InheritedNames);
    PushAllAgrees(rows, name, InheritedNames, LabelOf(groupBy));
  }

  lemma {:induction false} PushAllThrows<T>(xs: seq<T>, name: T -> string, inherited: set<string>)
    ensures PushAll(xs, name, inherited).None?
        <==> exists i :: 0 <= i < |xs| && name(xs[i]) in inherited
  {
    if |xs| > 0 {
      var pre := xs[..|xs| - 1];
      PushAllThrows(pre, name, inherited);
      if name(xs[|xs| - 1]) !in inherited && PushAll(pre, name, inherited).None? {
        var i :| 0 <= i < |pre| && name(pre[i]) in inherited;
        assert pre[i] == xs[i];
      } else if name(xs[|xs| - 1]) !in inherited {
        forall i | 0 <= i < |xs|
          ensures name(xs[i]) !in inherited
        {
          if i < |pre| {
            assert pre[i] == xs[i];
          }
        }
      }
    }
  }

  lemma {:induction false} PushAllAgrees<T>(xs: seq<T>, name: T -> string, inherited: set<string>, key: T -> Option<string>)
    requires forall x :: key(x) == Some(name(x))
    ensures PushAll(xs, name, inherited).Some? ==> PushAll(xs, name, inherited).value == Partition(xs, key)
  {
    if |xs| > 0 {
      var pre := xs[..|xs| - 1];
      var x := xs[|xs| - 1];
      PushAllAgrees(pre, name, inherited, key);
      assert xs == pre + [x];
      PartitionSnoc(pre, x, key);
    }
  }

  /** A row whose group-by cell is the text "constructor" crashes the loop
      as written, where the intended grouping gives it a group of its own. */
  lemma InheritedLabelThrows(row: Row, groupBy: string)
    requires CellOf(row, groupBy) == Text("constructor")
    ensures GroupRowsAsWritten([row], groupBy) == None
    ensures GroupRows([row], groupBy) == [Group("constructor", [row])]
  {
    assert [row][..0] == [];
    PartitionSnocNew([], row, LabelOf(groupBy), "constructor");
    assert [] + [row] == [row];
  }

  /** An array-index key: the canonical decimal text of a whole number
      below 2^32 - 1. */
  predicate IndexKey(k: string) {
    && |k| > 0
    && AllDigits(k)
    && (k[0] != '0' || |k| == 1)
    && ParseNat(k) < ArrayIndexLimit
  }

  /** The label of a number cell is an array-index key exactly when the
      number is in the index range. */
  lemma NumberLabelIsIndexKey(n: int)
    ensures IndexKey(GroupLabel(Number(n))) <==> 0 <= n < ArrayIndexLimit
  {
    var k := IntToString(n);
    if n < 0 {
      assert k[0] == '-';
    } else {
      NatToStringRoundTrip(n);
    }
  }

  /** Where `Object.entries` puts a group: array-index keys by value, the
      others (`None`) after them. */
  function EntryRank(g: Group<string, Row>): Option<int> {
    if IndexKey(g.key) then Some(ParseNat(g.key)) else None
  }

  /** `Object.entries(groups)`: the array-index keys first, ascending, then
      the other keys in insertion order. */
  function Entries(gs: seq<Group<string, Row>>): seq<Group<string, Row>> {
    SortByKey(gs, EntryRank)
  }

  /** The listed groups are the same groups: array-index keys ascending and
      ahead of the others, which keep their insertion order. */
  lemma EntriesOrder(gs: seq<Group<string, Row>>)
    ensures multiset(Entries(gs)) == multiset(gs)
    ensures forall i, j :: 0 <= i < j < |Entries(gs)| && IndexKey(Entries(gs)[j].key) ==>
      IndexKey(Entries(gs)[i].key) && ParseNat(Entries(gs)[i].key) <= ParseNat(Entries(gs)[j].key)
    ensures WithKey(Entries(gs), EntryRank, None) == WithKey(gs, EntryRank, None)
  {
    var r := Entries(gs);
    forall i, j | 0 <= i < j < |r| && IndexKey(r[j].key)
      ensures IndexKey(r[i].key) && ParseNat(r[i].key) <= ParseNat(r[j].key)
    {
      assert KeyLe(EntryRank(r[i]), EntryRank(r[j]));
    }
    SortStable(gs, EntryRank, None);
  }

  /** Without array-index keys, the groups are listed in insertion order. */
  lemma EntriesKeepOrder(gs: seq<Group<string, Row>>)
    requires forall i :: 0 <= i < |gs| ==> !IndexKey(gs[i].key)
    ensures Entries(gs) == gs
  {
    var r := Entries(gs);
    forall i | 0 <= i < |r|
      ensures EntryRank(r[i]) == None
    {
      assert r[i] in multiset(gs);
    }
    WithKeyAll(r, EntryRank, None);
    WithKeyAll(gs, EntryRank, None);
    SortStable(gs, EntryRank, None);
  }

  /** Listing reorders whole groups, so the rows they hold are the same. */
  lemma {:induction false} FlattenInsert(g: Group<string, Row>, gs: seq<Group<string, Row>>, key: Group<string, Row> -> Option<int>)
    ensures multiset(Flatten(Insert(g, gs, key))) == multiset(g.members) + multiset(Flatten(gs))
  {
    if |gs| > 0 && !KeyLe(key(g), key(gs[0])) {
      FlattenInsert(g, gs[1..], key);
      assert ([gs[0]] + Insert(g, gs[1..], key))[1..] == Insert(g, gs[1..], key);
    }
  }

  lemma {:induction false} FlattenEntries(gs: seq<Group<string, Row>>)
    ensures multiset(Flatten(Entries(gs))) == multiset(Flatten(gs))
  {
    if |gs| > 0 {
      FlattenEntries(gs[1..]);
      FlattenInsert(gs[0], Entries(gs[1..]), EntryRank);
    }
  }

  /** A rendered body line. */
  datatype Line = GroupHeader(heading: string, count: nat) | RowLine(row: Row) | NoResults

  function GroupLines(gs: seq<Group<string, Row>>): seq<Line> {
    if |gs| == 0 then []
    else [GroupHeader(gs[0].key, |gs[0].members|)] + RowLines(gs[0].members) + GroupLines(gs[1..])
  }

  function RowLines(rows: seq<Row>): (ls: seq<Line>)
    ensures |ls| == |rows| && forall i :: 0 <= i < |rows| ==> ls[i] == RowLine(rows[i])
  {
    seq(|rows|, i requires 0 <= i < |rows| => RowLine(rows[i]))
  }

  /** The table body: grouped when a group-by column is set, then the
      "No results" line when there are no rows. */
  function Body(rows: seq<Row>, groupBy: string): seq<Line> {
    (if groupBy != "" then GroupLines(Entries(GroupRows(rows, groupBy))) else RowLines(rows))
    + (if |rows| == 0 then [NoResults] else [])
  }

  /** The rows a body shows, in order. */
  function Shown(ls: seq<Line>): seq<Row> {
    if |ls| == 0 then []
    else (if ls[0].RowLine? then [ls[0].row] else []) + Shown(ls[1..])
  }

  lemma {:induction false} ShownAppend(a: seq<Line>, b: seq<Line>)
    ensures Shown(a + b) == Shown(a) + Shown(b)
  {
    if |a| > 0 {
      assert (a + b)[0] == a[0];
      assert (a + b)[1..] == a[1..] + b;
      ShownAppend(a[1..], b);
    } else {
      assert a + b == b;
    }
  }

  lemma {:induction false} ShownRowLines(rows: seq<Row>)
    ensures Shown(RowLines(rows)) == rows
  {
    if |rows| > 0 {
      assert RowLines(rows) == [RowLine(rows[0])] + RowLines(rows[1..]);
      ShownAppend([RowLine(rows[0])], RowLines(rows[1..]));
      ShownRowLines(rows[1..]);
      assert rows == [rows[0]] + rows[1..];
    }
  }

  lemma {:induction false} ShownGroupLines(gs: seq<Group<string, Row>>)
    ensures Shown(GroupLines(gs)) == Flatten(gs)
  {
    if |gs| > 0 {
      var head := [GroupHeader(gs[0].key, |gs[0].members|)];
      ShownAppend(head + RowLines(gs[0].members), GroupLines(gs[1..]));
      ShownAppend(head, RowLines(gs[0].members));
      ShownRowLines(gs[0].members);
      ShownGroupLines(gs[1..]);
    }
  }

  /** The body shows every row exactly once: rearranged into groups with
      grouping, and in input order without. */
  lemma BodyShowsEveryRow(rows: seq<Row>, groupBy: string)
    ensures multiset(Shown(Body(rows, groupBy))) == multiset(rows)
    ensures groupBy == "" ==> Shown(Body(rows, groupBy)) == rows
  {
    var tail: seq<Line> := if |rows| == 0 then [NoResults] else [];
    assert Shown(tail) == [];
    if groupBy != "" {
      var gs := Entries(GroupRows(rows, groupBy));
      ShownAppend(GroupLines(gs), tail);
      ShownGroupLines(gs);
      FlattenEntries(GroupRows(rows, groupBy));
      GroupedRowsCovered(rows, groupBy);
    } else {
      ShownAppend(RowLines(rows), tail);
      ShownRowLines(rows);
    }
  }

  lemma GroupedRowsCovered(rows: seq<Row>, groupBy: string)
    ensures multiset(Flatten(GroupRows(rows, groupBy))) == multiset(rows)
  {
    PartitionCovers(rows, LabelOf(groupBy));
    KeyedAll(rows, LabelOf(groupBy));
  }

  /** "No results" appears exactly when there are no rows. */
  lemma NoResultsIffEmpty(rows: seq<Row>, groupBy: string)
    ensures NoResults in Body(rows, groupBy) <==> |rows| == 0
  {
    var main := if groupBy != "" then GroupLines(Entries(GroupRows(rows, groupBy))) else RowLines(rows);
    assert NoResults !in main by {
      if groupBy != "" {
        GroupLinesHaveNoEmptyMarker(Entries(GroupRows(rows, groupBy)));
      }
    }
    if |rows| == 0 {
      assert Body(rows, groupBy)[|main|] == NoResults;
    } else {
      assert Body(rows, groupBy) == main;
    }
  }

  lemma {:induction false} GroupLinesHaveNoEmptyMarker(gs: seq<Group<string, Row>>)
    ensures NoResults !in GroupLines(gs)
  {
    if |gs| > 0 {
      GroupLinesHaveNoEmptyMarker(gs[1..]);
    }
  }

  /** Every row lands in exactly one group, the one for its label; a group
      holds its rows in input order; and the group sizes add up to the
      number of rows. */
  lemma GroupsPartitionRows(rows: seq<Row>, groupBy: string)
    ensures var gs := GroupRows(rows, groupBy);
      && DistinctKeys(gs)
      && (forall i :: 0 <= i < |rows| ==> GroupLabel(CellOf(rows[i], groupBy)) in Keys(gs))
      && (forall g :: 0 <= g < |gs| ==> gs[g].members == Select(rows, LabelOf(groupBy), gs[g].key))
      && |Flatten(gs)| == |rows|
  {
    var gs := GroupRows(rows, groupBy);
    PartitionSelects(rows, LabelOf(groupBy));
    PartitionCovers(rows, LabelOf(groupBy));
    KeyedAll(rows, LabelOf(groupBy));
    forall i | 0 <= i < |rows|
      ensures GroupLabel(CellOf(rows[i], groupBy)) in Keys(gs)
    {
      assert LabelOf(groupBy)(rows[i]).Some?;
    }
  }

  /** The grouping example: rows labelled a, b, a are collected into the
      groups a (the first and third rows) and b (the second), in order of
      first appearance; `Object.entries` lists them in that order when
      neither label is an array index. */
  lemma GroupingExample(r1: Row, r2: Row, r3: Row, groupBy: string, a: string, b: string)
    requires a != b
    requires GroupLabel(CellOf(r1, groupBy)) == a && GroupLabel(CellOf(r2, groupBy)) == b
    requires GroupLabel(CellOf(r3, groupBy)) == a
    ensures GroupRows([r1, r2, r3], groupBy) == [Group(a, [r1, r3]), Group(b, [r2])]
    ensures !IndexKey(a) && !IndexKey(b) ==>
      Entries(GroupRows([r1, r2, r3], groupBy)) == [Group(a, [r1, r3]), Group(b, [r2])]
  {
    CollectThree(r1, r2, r3, groupBy, a, b);
    if !IndexKey(a) && !IndexKey(b) {
      EntriesKeepOrder([Group(a, [r1, r3]), Group(b, [r2])]);
    }
  }

  lemma CollectThree(r1: Row, r2: Row, r3: Row, groupBy: string, a: string, b: string)
    requires a != b
    requires GroupLabel(CellOf(r1, groupBy)) == a && GroupLabel(CellOf(r2, groupBy)) == b
    requires GroupLabel(CellOf(r3, groupBy)) == a
    ensures GroupRows([r1, r2, r3], groupBy) == [Group(a, [r1, r3]), Group(b, [r2])]
  {
    var key := LabelOf(groupBy);
    assert key(r1) == Some(a) && key(r2) == Some(b) && key(r3) == Some(a);
    PartitionThree(r1, r2, r3, key, a, b);
  }

  /** Number cells 1, 0, 1: the groups are collected as "1" then "0", and
      `Object.entries` lists "0" first, since both are array indices. */
  lemma NumberGroupsExample(r1: Row, r2: Row, r3: Row, groupBy: string)
    requires CellOf(r1, groupBy) == Number(1) && CellOf(r2, groupBy) == Number(0)
    requires CellOf(r3, groupBy) == Number(1)
    ensures Entries(GroupRows([r1, r2, r3], groupBy)) == [Group("0", [r2]), Group("1", [r1, r3])]
  {
    assert GroupLabel(Number(1)) == "1" && GroupLabel(Number(0)) == "0";
    CollectThree(r1, r2, r3, groupBy, "1", "0");
    EntriesOneZero([r1, r3], [r2]);
  }

  lemma DigitKeys()
    ensures IndexKey("1") && ParseNat("1") == 1
    ensures IndexKey("0") && ParseNat("0") == 0
  {
    assert "1"[..0] == [] && "0"[..0] == [];
  }

  lemma EntriesOneZero(m1: seq<Row>, m0: seq<Row>)
    ensures Entries([Group("1", m1), Group("0", m0)]) == [Group("0", m0), Group("1", m1)]
  {
    var g1 := Group("1", m1);
    var g0 := Group("0", m0);
    DigitKeys();
    assert EntryRank(g1) == Some(1) && EntryRank(g0) == Some(0);
    assert [g1, g0][1..] == [g0];
    assert Entries([g0]) == [g0];
  }


}

=== FILE: grouping.dfy ===
/** Grouping and counting by key, the `Record<string, …>` accumulation
    pattern the dashboard repeats: `groups[k] = groups[k] || []; groups[k].push(x)`
    and `counts[k] = (counts[k] ?? 0) + w`. A JavaScript record is modelled as
    an association list with distinct keys in first-insertion order; no
    property below depends on that order. */
module Grouping {
  import opened Common

  /** A key and the elements filed under it. */
  datatype Group<K, T> = Group(key: K, members: seq<T>)

  function Keys<K, T>(gs: seq<Group<K, T>>): (ks: seq<K>)
    ensures |ks| == |gs| && forall i :: 0 <= i < |gs| ==> ks[i] == gs[i].key
  {
    seq(|gs|, i requires 0 <= i < |gs| => gs[i].key)
  }

  predicate DistinctKeys<K(==), T>(gs: seq<Group<K, T>>) {
    forall i, j :: 0 <= i < j < |gs| ==> gs[i].key != gs[j].key
  }

  /** The position of the group for `k`, or -1 (`groups[k]` is undefined). */
  function FindGroup<K(==), T>(gs: seq<Group<K, T>>, k: K): (i: int)
    ensures -1 <= i < |gs|
    ensures i == -1 <==> k !in Keys(gs)
    ensures 0 <= i ==> gs[i].key == k
  {
    if |gs| == 0 then -1
    else if gs[|gs| - 1].key == k then |gs| - 1
    else
      assert Keys(gs) == Keys(gs[..|gs| - 1]) + [gs[|gs| - 1].key];
      FindGroup(gs[..|gs| - 1], k)
  }

  /** File `x` under `k`: append to the existing group, or open a new one at
      the end. */
  function Place<K(==), T>(gs: seq<Group<K, T>>, k: K, x: T): (r: seq<Group<K, T>>)
    requires DistinctKeys(gs)
    ensures DistinctKeys(r)
    ensures k in Keys(r)
    ensures Keys(r) == Keys(gs) || Keys(r) == Keys(gs) + [k]
  {
    var i := FindGroup(gs, k);
    if i == -1 then
      var r := gs + [Group(k, [x])];
      assert Keys(r) == Keys(gs) + [k];
      r
    else
      var r := gs[i := Group(k, gs[i].members + [x])];
      assert Keys(r) == Keys(gs);
      assert Keys(r)[i] == k;
      r
  }

  /** Filing one element adds exactly that element to the groups' contents. */
  lemma PlaceAdds<K, T>(gs: seq<Group<K, T>>, k: K, x: T)
    requires DistinctKeys(gs)
    ensures multiset(Flatten(Place(gs, k, x))) == multiset(Flatten(gs)) + multiset{x}
  {
    var i := FindGroup(gs, k);
    if i == -1 {
      FlattenAppend(gs, Group(k, [x]));
    } else {
      FlattenPush(gs, i, x);
    }
  }

  /** Filing under a new key opens a group at the end. */
  lemma PlaceNew<K, T>(gs: seq<Group<K, T>>, k: K, x: T)
    requires DistinctKeys(gs)
    requires k !in Keys(gs)
    ensures Place(gs, k, x) == gs + [Group(k, [x])]
  {
  }

  /** Filing under the key of group `i` appends to that group only. */
  lemma PlaceExisting<K, T>(gs: seq<Group<K, T>>, k: K, x: T, i: nat)
    requires DistinctKeys(gs)
    requires i < |gs| && gs[i].key == k
    ensures Place(gs, k, x) == gs[i := Group(k, gs[i].members + [x])]
  {
    assert FindGroup(gs, k) == i;
  }

  /** The elements of `xs` whose key is `k`, in input order. */
  function Select<K(==), T>(xs: seq<T>, key: T -> Option<K>, k: K): (r: seq<T>)
    ensures forall j :: 0 <= j < |r| ==> key(r[j]) == Some(k)
  {
    if |xs| == 0 then []
    else Select(xs[..|xs| - 1], key, k) + (if key(xs[|xs| - 1]) == Some(k) then [xs[|xs| - 1]] else [])
  }

  /** What `Select` keeps comes from the input. */
  lemma {:induction false} SelectIn<K, T>(xs: seq<T>, key: T -> Option<K>, k: K)
    ensures forall j :: 0 <= j < |Select(xs, key, k)| ==> Select(xs, key, k)[j] in xs
  {
    if |xs| > 0 {
      var pre := xs[..|xs| - 1];
      SelectIn(pre, key, k);
      assert forall y :: y in pre ==> y in xs;
    }
  }

  lemma {:induction false} SelectNone<K, T>(xs: seq<T>, key: T -> Option<K>, k: K)
    requires forall i :: 0 <= i < |xs| ==> key(xs[i]) != Some(k)
    ensures Select(xs, key, k) == []
  {
    if |xs| > 0 {
      SelectNone(xs[..|xs| - 1], key, k);
    }
  }

  /** The elements with key `k` are as many as a count of them says. */
  lemma {:induction false} SelectCount<K, T>(xs: seq<T>, key: T -> Option<K>, k: K, p: T -> bool)
    requires forall x :: p(x) == (key(x) == Some(k))
    ensures |Select(xs, key, k)| == Count(xs, p)
  {
    if |xs| > 0 {
      var pre := xs[..|xs| - 1];
      SelectCount(pre, key, k, p);
      assert xs == pre + [xs[|xs| - 1]];
      CountSnoc(pre, xs[|xs| - 1], p);
    }
  }

  /** Partition `xs` by key; elements without a key are skipped. */
  function Partition<K(==), T>(xs: seq<T>, key: T -> Option<K>): (gs: seq<Group<K, T>>)
    ensures DistinctKeys(gs)
  {
    if |xs| == 0 then []
    else
      var prev := Partition(xs[..|xs| - 1], key);
      match key(xs[|xs| - 1])
      case None => prev
      case Some(k) => Place(prev, k, xs[|xs| - 1])
  }

  /** Each group holds exactly the elements with its key, in input order. */
  lemma {:induction false} PartitionMembers<K, T>(xs: seq<T>, key: T -> Option<K>)
    ensures forall i :: 0 <= i < |Partition(xs, key)| ==>
      Partition(xs, key)[i].members == Select(xs, key, Partition(xs, key)[i].key)
  {
    if |xs| > 0 {
      var pre := xs[..|xs| - 1];
      var x := xs[|xs| - 1];
      PartitionMembers(pre, key);
      var prev := Partition(pre, key);
      var gs := Partition(xs, key);
      match key(x)
      case None =>
        assert gs == prev;
        forall i | 0 <= i < |gs|
          ensures gs[i].members == Select(xs, key, gs[i].key)
        {
          assert Select(xs, key, gs[i].key) == Select(pre, key, gs[i].key) + [];
        }
      case Some(k) =>
        assert gs == Place(prev, k, x);
        if k !in Keys(prev) {
          PartitionKeysCover(pre, key);
          SelectNone(pre, key, k);
          PlaceNew(prev, k, x);
          forall i | 0 <= i < |gs|
            ensures gs[i].members == Select(xs, key, gs[i].key)
          {
            if i < |prev| {
              assert gs[i].key != k by {
                assert Keys(prev)[i] == gs[i].key;
              }
              assert Select(xs, key, gs[i].key) == Select(pre, key, gs[i].key) + [];
            } else {
              assert Select(xs, key, k) == [] + [x];
            }
          }
        } else {
          var j := FindGroup(prev, k);
          PlaceExisting(prev, k, x, j);
          forall i | 0 <= i < |gs|
            ensures gs[i].members == Select(xs, key, gs[i].key)
          {
            if i != j {
              assert Select(xs, key, gs[i].key) == Select(pre, key, gs[i].key) + [];
            }
          }
        }
    }
  }

  /** Every keyed element has a group. */
  lemma {:induction false} PartitionKeysCover<K, T>(xs: seq<T>, key: T -> Option<K>)
    ensures forall i :: 0 <= i < |xs| && key(xs[i]).Some? ==> key(xs[i]).value in Keys(Partition(xs, key))
  {
    if |xs| > 0 {
      var pre := xs[..|xs| - 1];
      PartitionKeysCover(pre, key);
      assert forall i :: 0 <= i < |pre| ==> pre[i] == xs[i];
    }
  }

  /** No group is empty. */
  lemma {:induction false} PartitionNonEmpty<K, T>(xs: seq<T>, key: T -> Option<K>)
    ensures forall i :: 0 <= i < |Partition(xs, key)| ==> |Partition(xs, key)[i].members| > 0
  {
    if |xs| > 0 {
      var pre := xs[..|xs| - 1];
      PartitionNonEmpty(pre, key);
      var prev := Partition(pre, key);
      match key(xs[|xs| - 1])
      case None =>
        assert Partition(xs, key) == prev;
      case Some(k) =>
        assert Partition(xs, key) == Place(prev, k, xs[|xs| - 1]);
        if k !in Keys(prev) {
          PlaceNew(prev, k, xs[|xs| - 1]);
        } else {
          PlaceExisting(prev, k, xs[|xs| - 1], FindGroup(prev, k));
        }
    }
  }

  /** The three facts about a partition together. */
  lemma PartitionSelects<K, T>(xs: seq<T>, key: T -> Option<K>)
    ensures var gs := Partition(xs, key);
      && (forall i :: 0 <= i < |gs| ==> gs[i].members == Select(xs, key, gs[i].key))
      && (forall i :: 0 <= i < |gs| ==> |gs[i].members| > 0)
      && (forall i :: 0 <= i < |xs| && key(xs[i]).Some? ==> key(xs[i]).value in Keys(gs))
  {
    PartitionMembers(xs, key);
    PartitionNonEmpty(xs, key);
    PartitionKeysCover(xs, key);
  }

  /** Partitioning one more element files it under its key, if it has one. */
  lemma PartitionSnoc<K, T>(xs: seq<T>, x: T, key: T -> Option<K>)
    ensures Partition(xs + [x], key) ==
      match key(x)
      case None => Partition(xs, key)
      case Some(k) => Place(Partition(xs, key), k, x)
  {
    assert (xs + [x])[..|xs|] == xs;
  }

  /** An element under a key not seen before opens a group at the end. */
  lemma PartitionSnocNew<K, T>(xs: seq<T>, x: T, key: T -> Option<K>, k: K)
    requires key(x) == Some(k) && k !in Keys(Partition(xs, key))
    ensures Partition(xs + [x], key) == Partition(xs, key) + [Group(k, [x])]
  {
    PartitionSnoc(xs, x, key);
    PlaceNew(Partition(xs, key), k, x);
  }

  /** An element under the key of group `i` joins that group. */
  lemma PartitionSnocExisting<K, T>(xs: seq<T>, x: T, key: T -> Option<K>, i: nat)
    requires i < |Partition(xs, key)| && key(x) == Some(Partition(xs, key)[i].key)
    ensures var gs := Partition(xs, key);
      Partition(xs + [x], key) == gs[i := Group(gs[i].key, gs[i].members + [x])]
  {
    var gs := Partition(xs, key);
    PartitionSnoc(xs, x, key);
    PlaceExisting(gs, gs[i].key, x, i);
  }

  /** Two elements under different keys give two groups, in that order. */
  lemma PartitionTwo<K, T>(x1: T, x2: T, key: T -> Option<K>, a: K, b: K)
    requires a != b
    requires key(x1) == Some(a) && key(x2) == Some(b)
    ensures Partition([x1, x2], key) == [Group(a, [x1]), Group(b, [x2])]
  {
    PartitionSnocNew([], x1, key, a);
    assert [] + [x1] == [x1];
    PartitionSnocNew([x1], x2, key, b);
    assert [x1] + [x2] == [x1, x2];
  }

  /** Keys `a`, `b`, `a` give the group `a` (first and third elements) and
      then the group `b`: groups follow the first appearance of their key. */
  lemma PartitionThree<K, T>(x1: T, x2: T, x3: T, key: T -> Option<K>, a: K, b: K)
    requires a != b
    requires key(x1) == Some(a) && key(x2) == Some(b) && key(x3) == Some(a)
    ensures Partition([x1, x2, x3], key) == [Group(a, [x1, x3]), Group(b, [x2])]
  {
    PartitionTwo(x1, x2, key, a, b);
    PartitionSnocExisting([x1, x2], x3, key, 0);
    assert [x1, x2] + [x3] == [x1, x2, x3];
    assert [x1] + [x3] == [x1, x3];
  }

  /** All members of all groups, group after group. */
  function Flatten<K, T>(gs: seq<Group<K, T>>): seq<T> {
    if |gs| == 0 then [] else gs[0].members + Flatten(gs[1..])
  }

  lemma {:induction false} FlattenAppend<K, T>(gs: seq<Group<K, T>>, g: Group<K, T>)
    ensures Flatten(gs + [g]) == Flatten(gs) + g.members
  {
    if |gs| == 0 {
      assert [g][1..] == [];
    } else {
      assert (gs + [g])[1..] == gs[1..] + [g];
      FlattenAppend(gs[1..], g);
    }
  }

  lemma {:induction false} FlattenPush<K, T>(gs: seq<Group<K, T>>, i: nat, x: T)
    requires i < |gs|
    ensures multiset(Flatten(gs[i := Group(gs[i].key, gs[i].members + [x])]))
         == multiset(Flatten(gs)) + multiset{x}
  {
    var h := gs[i := Group(gs[i].key, gs[i].members + [x])];
    assert Flatten(h) == h[0].members + Flatten(h[1..]);
    assert Flatten(gs) == gs[0].members + Flatten(gs[1..]);
    if i > 0 {
      assert h[1..] == gs[1..][i - 1 := Group(gs[1..][i - 1].key, gs[1..][i - 1].members + [x])];
      FlattenPush(gs[1..], i - 1, x);
    } else {
      assert h[1..] == gs[1..];
    }
  }

  /** The elements that have a key. */
  function Keyed<K, T>(xs: seq<T>, key: T -> Option<K>): seq<T> {
    Filter(xs, x => key(x).Some?)
  }

  /** When every element has a key, all of them are keyed. */
  lemma {:induction false} KeyedAll<K, T>(xs: seq<T>, key: T -> Option<K>)
    requires forall i :: 0 <= i < |xs| ==> key(xs[i]).Some?
    ensures Keyed(xs, key) == xs
  {
    if |xs| > 0 {
      KeyedAll(xs[1..], key);
      assert xs == [xs[0]] + xs[1..];
    }
  }

  /** The keyed elements are those passing any test that holds exactly of
      the elements with a key. */
  lemma {:induction false} KeyedIs<K, T>(xs: seq<T>, key: T -> Option<K>, p: T -> bool)
    requires forall i :: 0 <= i < |xs| ==> (key(xs[i]).Some? <==> p(xs[i]))
    ensures Keyed(xs, key) == Filter(xs, p)
  {
    if |xs| > 0 {
      assert forall i :: 1 <= i < |xs| ==> xs[i] == xs[1..][i - 1];
      KeyedIs(xs[1..], key, p);
    }
  }

  /** A partition is a rearrangement of the keyed elements: every keyed
      element lands in its group exactly once, so the group sizes add up to
      the number of keyed elements. */
  lemma {:induction false} PartitionCovers<K, T>(xs: seq<T>, key: T -> Option<K>)
    ensures multiset(Flatten(Partition(xs, key))) == multiset(Keyed(xs, key))
    ensures |Flatten(Partition(xs, key))| == |Keyed(xs, key)|
  {
    if |xs| > 0 {
      var pre := xs[..|xs| - 1];
      var x := xs[|xs| - 1];
      assert xs == pre + [x];
      PartitionCovers(pre, key);
      FilterAppend(pre, [x], y => key(y).Some?);
      assert Keyed(xs, key) == Keyed(pre, key) + Keyed([x], key);
      var prev := Partition(pre, key);
      match key(x)
      case None =>
        assert Keyed([x], key) == [];
      case Some(k) =>
        assert Keyed([x], key) == [x];
        PlaceAdds(prev, k, x);
    }
    assert |multiset(Flatten(Partition(xs, key)))| == |multiset(Keyed(xs, key))|;
  }

  /** An association list of per-key totals. */
  type Counts<K> = seq<(K, int)>

  function CountKeys<K>(c: Counts<K>): (ks: seq<K>)
    ensures |ks| == |c| && forall i :: 0 <= i < |c| ==> ks[i] == c[i].0
  {
    seq(|c|, i requires 0 <= i < |c| => c[i].0)
  }

  predicate DistinctCountKeys<K(==)>(c: Counts<K>) {
    forall i, j :: 0 <= i < j < |c| ==> c[i].0 != c[j].0
  }

  /** `counts[k] ?? 0`. */
  function Get<K(==)>(c: Counts<K>, k: K): int {
    if |c| == 0 then 0 else if c[0].0 == k then c[0].1 else Get(c[1..], k)
  }

  /** The position of the entry for `k`, or -1. */
  function FindCount<K(==)>(c: Counts<K>, k: K): (i: int)
    ensures -1 <= i < |c|
    ensures i == -1 <==> k !in CountKeys(c)
    ensures 0 <= i ==> c[i].0 == k
  {
    if |c| == 0 then -1
    else if c[|c| - 1].0 == k then |c| - 1
    else
      assert CountKeys(c) == CountKeys(c[..|c| - 1]) + [c[|c| - 1].0];
      FindCount(c[..|c| - 1], k)
  }

  /** `counts[k] = (counts[k] ?? 0) + w`. */
  function Bump<K(==)>(c: Counts<K>, k: K, w: int): (r: Counts<K>)
    requires DistinctCountKeys(c)
    ensures DistinctCountKeys(r)
    ensures k in CountKeys(r)
    ensures CountKeys(r) == CountKeys(c) || CountKeys(r) == CountKeys(c) + [k]
  {
    var i := FindCount(c, k);
    BumpKeys(c, k, w);
    if i == -1 then c + [(k, w)] else c[i := (k, c[i].1 + w)]
  }

  /** The keys after a bump: a new key goes at the end, an existing one
      stays where it is. */
  lemma BumpKeys<K>(c: Counts<K>, k: K, w: int)
    requires DistinctCountKeys(c)
    ensures FindCount(c, k) == -1 ==> CountKeys(c + [(k, w)]) == CountKeys(c) + [k]
    ensures FindCount(c, k) == -1 ==> DistinctCountKeys(c + [(k, w)])
    ensures var i := FindCount(c, k);
      0 <= i ==> CountKeys(c[i := (k, c[i].1 + w)]) == CountKeys(c) && DistinctCountKeys(c[i := (k, c[i].1 + w)])
  {
    var i := FindCount(c, k);
    if i == -1 {
      assert CountKeys(c + [(k, w)]) == CountKeys(c) + [k];
    } else {
      assert CountKeys(c[i := (k, c[i].1 + w)]) == CountKeys(c);
    }
  }

  /** Bumping an entry adds the weight to the grand total. */
  lemma BumpTotal<K>(c: Counts<K>, k: K, w: int)
    requires DistinctCountKeys(c)
    ensures Total(Bump(c, k, w)) == Total(c) + w
  {
    var i := FindCount(c, k);
    if i == -1 {
      assert Bump(c, k, w) == c + [(k, w)];
      TotalAppend(c, (k, w));
    } else {
      assert Bump(c, k, w) == c[i := (k, c[i].1 + w)];
      TotalUpdate(c, i, (k, c[i].1 + w));
    }
  }

  /** Accumulate the weight of every keyed element under its key, in input
      order. Every key that occurs gets exactly one entry, and only keys that
      occur do. */
  function Tally<K(==), T>(xs: seq<T>, key: T -> Option<K>, weight: T -> int): (c: Counts<K>)
    ensures DistinctCountKeys(c)
    ensures forall i :: 0 <= i < |xs| && key(xs[i]).Some? ==> key(xs[i]).value in CountKeys(c)
    ensures forall i :: 0 <= i < |c| ==> Select(xs, key, c[i].0) != []
  {
    if |xs| == 0 then []
    else
      var pre := xs[..|xs| - 1];
      var x := xs[|xs| - 1];
      var prev := Tally(pre, key, weight);
      assert forall i :: 0 <= i < |pre| ==> pre[i] == xs[i];
      match key(x)
      case None => prev
      case Some(k) => Bump(prev, k, weight(x))
  }

  /** Reading a bumped entry. */
  lemma GetBump<K>(c: Counts<K>, k: K, w: int, k': K)
    requires DistinctCountKeys(c)
    ensures Get(Bump(c, k, w), k') == Get(c, k') + (if k' == k then w else 0)
  {
    var r := Bump(c, k, w);
    var i := FindCount(c, k);
    var j := FindCount(c, k');
    var jr := FindCount(r, k');
    if jr == -1 {
      GetAbsent(r, k');
      GetAbsent(c, k');
    } else {
      GetEntry(r, jr);
      if j == -1 {
        GetAbsent(c, k');
      } else {
        GetEntry(c, j);
        assert jr == j;
      }
    }
  }

  lemma {:induction false} GetEntry<K>(c: Counts<K>, i: nat)
    requires DistinctCountKeys(c)
    requires i < |c|
    ensures Get(c, c[i].0) == c[i].1
  {
    if i > 0 {
      GetEntry(c[1..], i - 1);
    }
  }

  lemma {:induction false} GetAbsent<K>(c: Counts<K>, k: K)
    requires k !in CountKeys(c)
    ensures Get(c, k) == 0
  {
    if |c| > 0 {
      assert CountKeys(c) == [c[0].0] + CountKeys(c[1..]);
      GetAbsent(c[1..], k);
    }
  }

  /** Reading a tally: `counts[k] ?? 0` is the total weight of the elements
      keyed `k`, for every `k`. */
  lemma {:induction false} TallyGet<K, T>(xs: seq<T>, key: T -> Option<K>, weight: T -> int, k: K)
    ensures Get(Tally(xs, key, weight), k) == SumOf(Select(xs, key, k), weight)
  {
    if |xs| == 0 {
      assert Tally(xs, key, weight) == [];
    } else {
      var pre := xs[..|xs| - 1];
      var x := xs[|xs| - 1];
      TallyGet(pre, key, weight, k);
      var tail := if key(x) == Some(k) then [x] else [];
      SumOfAppend(Select(pre, key, k), tail, weight);
      match key(x)
      case None =>
      case Some(k0) =>
        GetBump(Tally(pre, key, weight), k0, weight(x), k);
    }
  }

  /** Each entry of a tally holds the total weight of its key's elements. */
  lemma TallyEntry<K, T>(xs: seq<T>, key: T -> Option<K>, weight: T -> int, i: nat)
    requires i < |Tally(xs, key, weight)|
    ensures Tally(xs, key, weight)[i].1 == SumOf(Select(xs, key, Tally(xs, key, weight)[i].0), weight)
  {
    GetEntry(Tally(xs, key, weight), i);
    TallyGet(xs, key, weight, Tally(xs, key, weight)[i].0);
  }

  /** The sum of all entries of an association list of totals. */
  function Total<K>(c: Counts<K>): int {
    if |c| == 0 then 0 else c[0].1 + Total(c[1..])
  }

  lemma {:induction false} TotalAppend<K>(c: Counts<K>, e: (K, int))
    ensures Total(c + [e]) == Total(c) + e.1
  {
    if |c| == 0 {
      assert [e][1..] == [];
    } else {
      assert (c + [e])[1..] == c[1..] + [e];
      TotalAppend(c[1..], e);
    }
  }

  lemma {:induction false} TotalUpdate<K>(c: Counts<K>, i: nat, e: (K, int))
    requires i < |c|
    ensures Total(c[i := e]) == Total(c) - c[i].1 + e.1
  {
    if i > 0 {
      assert c[i := e][1..] == c[1..][i - 1 := e];
      TotalUpdate(c[1..], i - 1, e);
    }
  }

  /** The entries of a tally add up to the total weight of the keyed
      elements. */
  lemma {:induction false} TallyTotal<K, T>(xs: seq<T>, key: T -> Option<K>, weight: T -> int)
    ensures Total(Tally(xs, key, weight)) == SumOf(Keyed(xs, key), weight)
  {
    if |xs| > 0 {
      var pre := xs[..|xs| - 1];
      var x := xs[|xs| - 1];
      assert xs == pre + [x];
      TallyTotal(pre, key, weight);
      FilterAppend(pre, [x], y => key(y).Some?);
      SumOfAppend(Keyed(pre, key), Keyed([x], key), weight);
      var prev := Tally(pre, key, weight);
      match key(x)
      case None =>
        assert Keyed([x], key) == [];
      case Some(k) =>
        assert Keyed([x], key) == [x];
        BumpTotal(prev, k, weight(x));
    }
  }

  /** With unit weights a tally counts: its entries add up to the number of
      keyed elements. */
  lemma {:induction false} SumOfOnes<T>(xs: seq<T>, one: T -> int)
    requires forall x :: one(x) == 1
    ensures SumOf(xs, one) == |xs|
  {
    if |xs| > 0 {
      SumOfOnes(xs[1..], one);
    }
  }
}

=== FILE: integrations.dfy ===
/** The integrations page: a list of API keys and a list of webhooks, both
    held in page state. New entries take the current time as their id and go
    to the front; removal filters by id; webhook edits replace one entry. */
module Integrations {
  import opened Common
  import opened Strings

  datatype ApiKey = ApiKey(id: int, name: string, masked: string)

  datatype Webhook = Webhook(id: int, url: string, events: seq<string>, enabled: bool)

  /** The mask shown for every key made on this page. */
  const DemoMask: string := "sk_demo_****************"

  const InitialKeys: seq<ApiKey> := [ApiKey(1, "Server Key", "sk_live_****************")]

  const InitialHooks: seq<Webhook> :=
    [Webhook(1, "https://example.com/webhook", ["po.created", "inventory.updated"], true)]

  function KeyIds(keys: seq<ApiKey>): (ids: seq<int>)
    ensures |ids| == |keys| && forall i :: 0 <= i < |keys| ==> ids[i] == keys[i].id
  {
    seq(|keys|, i requires 0 <= i < |keys| => keys[i].id)
  }

  function HookIds(hooks: seq<Webhook>): (ids: seq<int>)
    ensures |ids| == |hooks| && forall i :: 0 <= i < |hooks| ==> ids[i] == hooks[i].id
  {
    seq(|hooks|, i requires 0 <= i < |hooks| => hooks[i].id)
  }

  /** `createKey`, with `now` standing for `Date.now()`: a key named
      `Key <now>` with the demo mask, in front of the existing keys. */
  function CreateKey(keys: seq<ApiKey>, now: int): (r: seq<ApiKey>)
    ensures |r| == |keys| + 1
    ensures r[0] == ApiKey(now, "Key " + IntToString(now), DemoMask)
    ensures r[1..] == keys
  {
    [ApiKey(now, "Key " + IntToString(now), DemoMask)] + keys
  }

  /** Keys made at different times have different names. */
  lemma CreatedNamesDistinct(keys: seq<ApiKey>, now: int, later: int)
    requires now != later
    ensures CreateKey(keys, now)[0].name != CreateKey(keys, later)[0].name
  {
    var a := "Key " + IntToString(now);
    var b := "Key " + IntToString(later);
    if a == b {
      assert a[4..] == IntToString(now) && b[4..] == IntToString(later);
      IntToStringInjective(now, later);
    }
  }

  function KeepKey(id: int): ApiKey -> bool {
    (k: ApiKey) => k.id != id
  }

  /** `revoke(id)`: drop every key with this id, keep the rest in order. */
  function Revoke(keys: seq<ApiKey>, id: int): (r: seq<ApiKey>)
    ensures id !in KeyIds(r)
    ensures forall i :: 0 <= i < |r| ==> r[i] in keys
    ensures forall i :: 0 <= i < |keys| && keys[i].id != id ==> keys[i] in r
    ensures |r| == |keys| - Count(keys, (k: ApiKey) => k.id == id)
  {
    FilterElements(keys, KeepKey(id));
    FilterKeepsPassing(keys, KeepKey(id));
    CountSplit(keys, KeepKey(id), (k: ApiKey) => k.id == id);
    Filter(keys, KeepKey(id))
  }

  /** Revoking works piece by piece and keeps the order: revoking from two
      lists joined is joining the revoked lists, and a single key is kept
      exactly when its id differs. Together these fix the result for every
      list. */
  lemma RevokeKeepsOrder(a: seq<ApiKey>, b: seq<ApiKey>, k: ApiKey, id: int)
    ensures Revoke(a + b, id) == Revoke(a, id) + Revoke(b, id)
    ensures Revoke([k], id) == if k.id == id then [] else [k]
  {
    FilterAppend(a, b, KeepKey(id));
    assert [k][1..] == [];
  }

  /** A list splits into the elements a test keeps and those it drops. */
  lemma {:induction false} CountSplit<T>(xs: seq<T>, keep: T -> bool, drop: T -> bool)
    requires forall x :: keep(x) == !drop(x)
    ensures |Filter(xs, keep)| + Count(xs, drop) == |xs|
  {
    if |xs| > 0 {
      CountSplit(xs[1..], keep, drop);
    }
  }

  /** Revoking a just-created key whose id was fresh gives back the keys as
      they were. */
  lemma RevokeUndoesCreate(keys: seq<ApiKey>, now: int)
    requires now !in KeyIds(keys)
    ensures Revoke(CreateKey(keys, now), now) == keys
  {
    assert forall i :: 0 <= i < |keys| ==> KeepKey(now)(keys[i]);
    FilterKeepsAll(keys, KeepKey(now));
    assert CreateKey(keys, now)[1..] == keys;
  }

  /** Revoking twice is revoking once. */
  lemma RevokeIdempotent(keys: seq<ApiKey>, id: int)
    ensures Revoke(Revoke(keys, id), id) == Revoke(keys, id)
  {
    var r := Revoke(keys, id);
    assert forall i :: 0 <= i < |r| ==> KeepKey(id)(r[i]) by {
      assert forall i :: 0 <= i < |r| ==> KeyIds(r)[i] == r[i].id;
    }
    FilterKeepsAll(r, KeepKey(id));
  }

  /** `addWebhook`: an empty, disabled webhook in front of the others. */
  function AddWebhook(hooks: seq<Webhook>, now: int): (r: seq<Webhook>)
    ensures |r| == |hooks| + 1
    ensures r[0] == Webhook(now, "", [], false)
    ensures r[1..] == hooks
  {
    [Webhook(now, "", [], false)] + hooks
  }

  /** The effect shared by every per-row edit: only entry `idx` changes, and
      it keeps its id. */
  predicate EditsOnly(hooks: seq<Webhook>, r: seq<Webhook>, idx: nat) {
    && |r| == |hooks|
    && idx < |hooks|
    && r[idx].id == hooks[idx].id
    && forall i :: 0 <= i < |hooks| && i != idx ==> r[i] == hooks[i]
  }

  /** The URL input of row `idx`. */
  function SetUrl(hooks: seq<Webhook>, idx: nat, url: string): (r: seq<Webhook>)
    requires idx < |hooks|
    ensures EditsOnly(hooks, r, idx)
    ensures r[idx] == hooks[idx].(url := url)
  {
    hooks[idx := hooks[idx].(url := url)]
  }

  /** The event selector of row `idx`: the chosen event alone, or no event
      when the choice is empty. */
  function SelectEvent(hooks: seq<Webhook>, idx: nat, v: string): (r: seq<Webhook>)
    requires idx < |hooks|
    ensures EditsOnly(hooks, r, idx)
    ensures |r[idx].events| <= 1
    ensures r[idx].events == [] <==> v == ""
    ensures v != "" ==> r[idx].events[0] == v
    ensures r[idx].url == hooks[idx].url && r[idx].enabled == hooks[idx].enabled
  {
    hooks[idx := hooks[idx].(events := if v != "" then [v] else [])]
  }

  /** The enabled switch of row `idx`. */
  function SetEnabled(hooks: seq<Webhook>, idx: nat, v: bool): (r: seq<Webhook>)
    requires idx < |hooks|
    ensures EditsOnly(hooks, r, idx)
    ensures r[idx] == hooks[idx].(enabled := v)
  {
    hooks[idx := hooks[idx].(enabled := v)]
  }

  /** Edits keep the list's ids, so the rows keep their identities. */
  lemma EditsKeepIds(hooks: seq<Webhook>, r: seq<Webhook>, idx: nat)
    requires EditsOnly(hooks, r, idx)
    ensures HookIds(r) == HookIds(hooks)
  {
  }

  /** Setting a row's URL back to what it was undoes the edit. */
  lemma SetUrlUndo(hooks: seq<Webhook>, idx: nat, url: string)
    requires idx < |hooks|
    ensures SetUrl(SetUrl(hooks, idx, url), idx, hooks[idx].url) == hooks
  {
  }

  /** Edits of different rows commute. */
  lemma EditsCommute(hooks: seq<Webhook>, i: nat, j: nat, url: string, v: bool)
    requires i < |hooks| && j < |hooks| && i != j
    ensures SetEnabled(SetUrl(hooks, i, url), j, v) == SetUrl(SetEnabled(hooks, j, v), i, url)
  {
  }

  function KeepHook(id: int): Webhook -> bool {
    (w: Webhook) => w.id != id
  }

  /** The remove button: drop every webhook with this id. */
  function RemoveWebhook(hooks: seq<Webhook>, id: int): (r: seq<Webhook>)
    ensures id !in HookIds(r)
    ensures forall i :: 0 <= i < |r| ==> r[i] in hooks
    ensures forall i :: 0 <= i < |hooks| && hooks[i].id != id ==> hooks[i] in r
    ensures |r| == |hooks| - Count(hooks, (w: Webhook) => w.id == id)
  {
    FilterElements(hooks, KeepHook(id));
    FilterKeepsPassing(hooks, KeepHook(id));
    CountSplit(hooks, KeepHook(id), (w: Webhook) => w.id == id);
    Filter(hooks, KeepHook(id))
  }

  /** Removal works piece by piece and keeps the order: removing from two
      lists joined is joining the shortened lists, and a single webhook is
      kept exactly when its id differs. */
  lemma RemoveKeepsOrder(a: seq<Webhook>, b: seq<Webhook>, w: Webhook, id: int)
    ensures RemoveWebhook(a + b, id) == RemoveWebhook(a, id) + RemoveWebhook(b, id)
    ensures RemoveWebhook([w], id) == if w.id == id then [] else [w]
  {
    FilterAppend(a, b, KeepHook(id));
    assert [w][1..] == [];
  }

  /** Removing a just-added webhook whose id was fresh gives back the list. */
  lemma RemoveUndoesAdd(hooks: seq<Webhook>, now: int)
    requires now !in HookIds(hooks)
    ensures RemoveWebhook(AddWebhook(hooks, now), now) == hooks
  {
    assert forall i :: 0 <= i < |hooks| ==> KeepHook(now)(hooks[i]);
    FilterKeepsAll(hooks, KeepHook(now));
    assert AddWebhook(hooks, now)[1..] == hooks;
  }
}

=== FILE: ordering.dfy ===
/** The one ordering the dashboard sorts by: `Array.prototype.sort` with the
    comparator `(a, b) => ka - kb`, where a key is a number and a missing key
    is `Infinity`. Two missing keys compare as `Infinity - Infinity`, which is
    `NaN`, and `sort` reads `NaN` as "equal"; `sort` is stable. So the result
    is the stable ascending order with missing keys last. */
module Ordering {
  import opened Common

  /** `ka - kb <= 0` (or `NaN`) under the comparator above. */
  predicate KeyLe(a: Option<int>, b: Option<int>) {
    b.None? || (a.Some? && a.value <= b.value)
  }

  predicate SortedBy<T>(xs: seq<T>, key: T -> Option<int>) {
    forall i, j :: 0 <= i < j < |xs| ==> KeyLe(key(xs[i]), key(xs[j]))
  }

  /** Insert `x` in front of the first element that does not sort before it. */
  function Insert<T>(x: T, s: seq<T>, key: T -> Option<int>): (r: seq<T>)
    ensures multiset(r) == multiset(s) + multiset{x}
    ensures |r| == |s| + 1
    ensures forall j :: 0 <= j < |r| ==> r[j] == x || r[j] in s
  {
    if |s| == 0 then [x]
    else if KeyLe(key(x), key(s[0])) then [x] + s
    else
      assert s == [s[0]] + s[1..];
      [s[0]] + Insert(x, s[1..], key)
  }

  lemma {:induction false} InsertSorted<T>(x: T, s: seq<T>, key: T -> Option<int>)
    requires SortedBy(s, key)
    ensures SortedBy(Insert(x, s, key), key)
  {
    if |s| > 0 && !KeyLe(key(x), key(s[0])) {
      var tail := s[1..];
      assert SortedBy(tail, key) by {
        assert forall i :: 0 <= i < |tail| ==> tail[i] == s[i + 1];
      }
      InsertSorted(x, tail, key);
      HeadBeforeInsert(x, s, key);
      ConsSorted(s[0], Insert(x, tail, key), key);
    } else if |s| > 0 {
      assert forall j :: 0 <= j < |s| ==> KeyLe(key(s[0]), key(s[j]));
      ConsSorted(x, s, key);
    }
  }

  /** Putting an element no later than all others in front keeps the order. */
  lemma ConsSorted<T>(y: T, t: seq<T>, key: T -> Option<int>)
    requires SortedBy(t, key)
    requires forall j :: 0 <= j < |t| ==> KeyLe(key(y), key(t[j]))
    ensures SortedBy([y] + t, key)
  {
    var r := [y] + t;
    forall i, j | 0 <= i < j < |r|
      ensures KeyLe(key(r[i]), key(r[j]))
    {
      assert r[j] == t[j - 1];
      if i > 0 {
        assert r[i] == t[i - 1];
      }
    }
  }

  /** When `x` sorts after the head of a sorted list, the head is no later
      than anything in the insertion into the rest. */
  lemma HeadBeforeInsert<T>(x: T, s: seq<T>, key: T -> Option<int>)
    requires SortedBy(s, key) && |s| > 0 && !KeyLe(key(x), key(s[0]))
    ensures forall j :: 0 <= j < |Insert(x, s[1..], key)| ==> KeyLe(key(s[0]), key(Insert(x, s[1..], key)[j]))
  {
    var tail := s[1..];
    var t := Insert(x, tail, key);
    forall j | 0 <= j < |t|
      ensures KeyLe(key(s[0]), key(t[j]))
    {
      if t[j] != x {
        var m :| 0 <= m < |tail| && tail[m] == t[j];
        assert tail[m] == s[m + 1];
      }
    }
  }

  /** The sorted copy `[...xs].sort(cmp)`. */
  function SortByKey<T>(xs: seq<T>, key: T -> Option<int>): (r: seq<T>)
    ensures SortedBy(r, key)
    ensures multiset(r) == multiset(xs)
    ensures |r| == |xs|
  {
    if |xs| == 0 then []
    else
      assert xs == [xs[0]] + xs[1..];
      InsertSorted(xs[0], SortByKey(xs[1..], key), key);
      Insert(xs[0], SortByKey(xs[1..], key), key)
  }

  /** The elements whose key is `k`, in order. */
  function WithKey<T>(xs: seq<T>, key: T -> Option<int>, k: Option<int>): seq<T> {
    Filter(xs, x => key(x) == k)
  }

  lemma WithKeyCons<T>(y: T, s: seq<T>, key: T -> Option<int>, k: Option<int>)
    ensures WithKey([y] + s, key, k) == (if key(y) == k then [y] else []) + WithKey(s, key, k)
  {
    assert ([y] + s)[0] == y;
    assert ([y] + s)[1..] == s;
  }

  lemma {:induction false} InsertStable<T>(x: T, s: seq<T>, key: T -> Option<int>, k: Option<int>)
    ensures WithKey(Insert(x, s, key), key, k) == WithKey([x], key, k) + WithKey(s, key, k)
  {
    WithKeyOne(x, key, k);
    if |s| == 0 {
    } else if KeyLe(key(x), key(s[0])) {
      WithKeyCons(x, s, key, k);
    } else {
      InsertStable(x, s[1..], key, k);
      InsertStableAfter(x, s, key, k);
    }
  }

  lemma WithKeyOne<T>(x: T, key: T -> Option<int>, k: Option<int>)
    ensures WithKey([x], key, k) == if key(x) == k then [x] else []
  {
    WithKeyCons(x, [], key, k);
    assert [x] + [] == [x];
  }

  /** The step of `InsertStable` when `x` goes after the head. */
  lemma InsertStableAfter<T>(x: T, s: seq<T>, key: T -> Option<int>, k: Option<int>)
    requires |s| > 0 && !KeyLe(key(x), key(s[0]))
    requires WithKey(Insert(x, s[1..], key), key, k) == WithKey([x], key, k) + WithKey(s[1..], key, k)
    ensures WithKey(Insert(x, s, key), key, k) == WithKey([x], key, k) + WithKey(s, key, k)
  {
    InsertAfterHead(x, s, key);
    // s[0] sorts strictly before x, so at most one of them has key `k`
    StableCons(s[0], x, Insert(x, s[1..], key), s[1..], key, k);
  }

  lemma InsertAfterHead<T>(x: T, s: seq<T>, key: T -> Option<int>)
    requires |s| > 0 && !KeyLe(key(x), key(s[0]))
    ensures Insert(x, s, key) == [s[0]] + Insert(x, s[1..], key)
    ensures s == [s[0]] + s[1..]
  {
  }

  /** Putting `y` in front of both sides of `t ~ [x] + r` (on key `k`) when
      `x` and `y` do not both have key `k`. */
  lemma StableCons<T>(y: T, x: T, t: seq<T>, r: seq<T>, key: T -> Option<int>, k: Option<int>)
    requires !(key(x) == k && key(y) == k)
    requires WithKey(t, key, k) == WithKey([x], key, k) + WithKey(r, key, k)
    ensures WithKey([y] + t, key, k) == WithKey([x], key, k) + WithKey([y] + r, key, k)
  {
    var a := WithKey([x], key, k);
    var b: seq<T> := if key(y) == k then [y] else [];
    WithKeyOne(x, key, k);
    WithKeyCons(y, t, key, k);
    WithKeyCons(y, r, key, k);
    SwapEmpty(a, b, WithKey(r, key, k));
  }

  /** Of two lists at most one of which is non-empty, either may go first. */
  lemma SwapEmpty<T>(a: seq<T>, b: seq<T>, w: seq<T>)
    requires a == [] || b == []
    ensures b + (a + w) == a + (b + w)
  {
    if a == [] {
      assert a + w == w;
    } else {
      assert b + w == w;
    }
  }

  /** When every element has key `k`, all of them are kept. */
  lemma {:induction false} WithKeyAll<T>(xs: seq<T>, key: T -> Option<int>, k: Option<int>)
    requires forall i :: 0 <= i < |xs| ==> key(xs[i]) == k
    ensures WithKey(xs, key, k) == xs
  {
    if |xs| > 0 {
      WithKeyAll(xs[1..], key, k);
      WithKeyCons(xs[0], xs[1..], key, k);
      assert xs == [xs[0]] + xs[1..];
    }
  }

  /** Sorting is stable: the elements sharing a key keep their input order. */
  lemma {:induction false} SortStable<T>(xs: seq<T>, key: T -> Option<int>, k: Option<int>)
    ensures WithKey(SortByKey(xs, key), key, k) == WithKey(xs, key, k)
  {
    if |xs| > 0 {
      SortStable(xs[1..], key, k);
      InsertStable(xs[0], SortByKey(xs[1..], key), key, k);
      assert WithKey(xs, key, k) == WithKey([xs[0]], key, k) + WithKey(xs[1..], key, k) by {
        assert xs == [xs[0]] + xs[1..];
        FilterAppend([xs[0]], xs[1..], x => key(x) == k);
      }
    }
  }

  /** Sorting a list whose elements all share one key changes nothing. */
  lemma SortSameKey<T>(xs: seq<T>, key: T -> Option<int>, k: Option<int>)
    requires forall i :: 0 <= i < |xs| ==> key(xs[i]) == k
    ensures SortByKey(xs, key) == xs
  {
    var r := SortByKey(xs, key);
    forall i | 0 <= i < |r|
      ensures key(r[i]) == k
    {
      assert r[i] in multiset(xs);
    }
    SortStable(xs, key, k);
    WithKeyAll(xs, key, k);
    WithKeyAll(r, key, k);
  }

  /** The head of a sorted copy has a key no later than any element's. */
  lemma HeadIsMinimal<T>(xs: seq<T>, key: T -> Option<int>)
    requires |xs| > 0
    ensures forall j :: 0 <= j < |xs| ==> KeyLe(key(SortByKey(xs, key)[0]), key(xs[j]))
  {
    var r := SortByKey(xs, key);
    forall j | 0 <= j < |xs|
      ensures KeyLe(key(r[0]), key(xs[j]))
    {
      assert xs[j] in multiset(r);
      var m :| 0 <= m < |r| && r[m] == xs[j];
      if m > 0 {
        assert KeyLe(key(r[0]), key(r[m]));
      }
    }
  }

  predicate NoRepeats<T(==)>(xs: seq<T>) {
    forall i, j :: 0 <= i < j < |xs| ==> xs[i] != xs[j]
  }

  /** In a list without repeats every value occurs at most once. */
  lemma {:induction false} AtMostOnce<T>(xs: seq<T>, x: T)
    requires NoRepeats(xs)
    ensures multiset(xs)[x] <= 1
  {
    if |xs| > 0 {
      var pre := xs[..|xs| - 1];
      assert xs == pre + [xs[|xs| - 1]];
      assert NoRepeats(pre) by {
        assert forall i :: 0 <= i < |pre| ==> pre[i] == xs[i];
      }
      AtMostOnce(pre, x);
      if x == xs[|xs| - 1] {
        assert x !in pre by {
          assert forall i :: 0 <= i < |pre| ==> pre[i] == xs[i];
        }
      }
    }
  }

  /** A value found at two positions occurs at least twice. */
  lemma RepeatCounts<T>(xs: seq<T>, i: nat, j: nat)
    requires i < j < |xs| && xs[i] == xs[j]
    ensures multiset(xs)[xs[i]] >= 2
  {
    var x := xs[i];
    assert xs == xs[..i] + [x] + xs[i + 1..j] + [x] + xs[j + 1..];
  }

  /** A rearrangement of a list without repeats has none either. */
  lemma PermutationNoRepeats<T>(xs: seq<T>, ys: seq<T>)
    requires multiset(xs) == multiset(ys) && NoRepeats(ys)
    ensures NoRepeats(xs)
  {
    forall i, j | 0 <= i < j < |xs|
      ensures xs[i] != xs[j]
    {
      if xs[i] == xs[j] {
        RepeatCounts(xs, i, j);
        AtMostOnce(ys, xs[i]);
      }
    }
  }
}

=== FILE: records.dfy ===
/** The inventory records the dashboard pages read (the shapes declared in
    lib/mock.ts), reduced to the fields the modelled logic touches.
    Timestamps are milliseconds since the epoch. A date field is `None` when
    it is missing, `null` or empty; a name or number field keeps `""` and 0
    as `Some` values, whose falsiness the readers test. */
module Records {
  import opened Common

  /** Milliseconds in a day, `24 * 60 * 60 * 1000`. */
  const DayMs: int := 86400000

  /** The thirty-day window, `30 * 24 * 60 * 60 * 1000`. */
  const ThirtyDaysMs: int := 2592000000

  datatype ItemType = ItemType(id: int, typeName: Option<string>)

  datatype Brand = Brand(id: int, brandName: Option<string>, itemTypeId: Option<int>)

  datatype Item = Item(id: int, itemName: Option<string>, itemBrandId: int)

  /** A stock batch ("item quantity" row) in a warehouse. */
  datatype Quantity = Quantity(
    id: int,
    itemId: Option<int>,
    inventoryId: int,
    quantity: Option<int>,
    createdAt: Option<int>,
    expiryDate: Option<int>)

  /** The batch's quantity as counted: `Number(q.quantity || 0)`. */
  function Weight(q: Quantity): int {
    OrZero(q.quantity)
  }

  /** The item a batch belongs to. */
  function ItemOf(q: Quantity): Option<int> {
    q.itemId
  }

  /** A sale; `itemId` is read by the dashboard although the declared shape
      has no such field, so it is optional. */
  datatype Sale = Sale(id: int, itemQuantityId: Option<int>, itemId: Option<int>, createdAt: Option<int>)

  datatype Supplier = Supplier(id: int, leadTimeDays: Option<int>)

  datatype Return = Return(id: int, status: string)

  /** The position of the last row with this id, or -1. */
  function LastIndexOfId(inv: seq<Quantity>, id: int): (j: int)
    ensures -1 <= j < |inv|
    ensures j == -1 ==> forall i :: 0 <= i < |inv| ==> inv[i].id != id
    ensures 0 <= j ==> inv[j].id == id && forall i :: j < i < |inv| ==> inv[i].id != id
  {
    if |inv| == 0 then -1
    else if inv[|inv| - 1].id == id then |inv| - 1
    else LastIndexOfId(inv[..|inv| - 1], id)
  }

  /** `invById[id]` after `inventory.forEach(q => { invById[Number(q.id)] = q })`:
      later rows overwrite earlier ones, so the last row with the id wins. */
  function QuantityById(inv: seq<Quantity>, id: int): Option<Quantity> {
    var j := LastIndexOfId(inv, id);
    if j == -1 then None else Some(inv[j])
  }

  /** `invById[Number(s.itemQuantityId)]`: a missing id reads as `NaN`, which
      is never a key. */
  function RowOfSale(inv: seq<Quantity>, s: Sale): Option<Quantity> {
    match s.itemQuantityId
    case None => None
    case Some(q) => QuantityById(inv, q)
  }

  /** `items.find(i => i.id === id)`: the first item with this id. */
  function ItemById(items: seq<Item>, id: int): (r: Option<Item>)
    ensures r.None? <==> forall i :: 0 <= i < |items| ==> items[i].id != id
    ensures r.Some? ==> r.value.id == id
    ensures r.Some? ==> exists i :: 0 <= i < |items| && items[i] == r.value && forall j :: 0 <= j < i ==> items[j].id != id
  {
    if |items| == 0 then None
    else if items[0].id == id then Some(items[0])
    else
      var r := ItemById(items[1..], id);
      assert forall i :: 1 <= i < |items| ==> items[i] == items[1..][i - 1];
      r
  }

  /** `brands.find(b => b.id === id)`: the first brand with this id. */
  function BrandById(brands: seq<Brand>, id: int): (r: Option<Brand>)
    ensures r.None? <==> forall i :: 0 <= i < |brands| ==> brands[i].id != id
    ensures r.Some? ==> r.value.id == id
    ensures r.Some? ==> exists i :: 0 <= i < |brands| && brands[i] == r.value && forall j :: 0 <= j < i ==> brands[j].id != id
  {
    if |brands| == 0 then None
    else if brands[0].id == id then Some(brands[0])
    else
      var r := BrandById(brands[1..], id);
      assert forall i :: 1 <= i < |brands| ==> brands[i] == brands[1..][i - 1];
      r
  }
}

=== FILE: replenishment.dfy ===
/** The replenishment page: stock on hand per item, sales of the last thirty
    days per item, the supplier lead time, and the suggested order quantity
    `max(0, ceil(forecast * lead / 30 + safety - current))`. */
module Replenishment {
  import opened Common
  import opened Records
  import opened Grouping

  /** A JavaScript number as far as the display helper cares. */
  datatype Num = Finite(x: real) | NonFinite

  /** `Math.round`: the nearest integer, halves rounded up. */
  function Round(x: real): int {
    (x + 0.5).Floor
  }

  /** `number(n)`: non-finite values and negatives show as 0, anything else
      rounded to the nearest integer. */
  function DisplayNumber(n: Num): (d: nat)
    ensures n.NonFinite? ==> d == 0
    ensures n.Finite? && n.x <= -0.5 ==> d == 0
    ensures n.Finite? && n.x >= -0.5 ==> d as real - 0.5 <= n.x < d as real + 0.5
  {
    match n
    case NonFinite => 0
    case Finite(x) => if Round(x) < 0 then 0 else Round(x)
  }

  /** A whole number shows as itself when not negative, and as 0 otherwise. */
  lemma DisplayWholeNumber(k: int)
    ensures DisplayNumber(Finite(k as real)) == if k < 0 then 0 else k
  {
    assert (k as real + 0.5).Floor == k;
  }

  /** `perItemQty`: total quantity per item id. Batches without an item land
      under `NaN`, which no item reads, so they are left out. */
  function StockByItem(inv: seq<Quantity>): Counts<int> {
    Tally(inv, ItemOf, Weight)
  }

  /** `perItemQty[id] ?? 0`. */
  function Current(inv: seq<Quantity>, id: int): int {
    Get(StockByItem(inv), id)
  }

  /** The stock of an item is the sum of the quantities of its batches, a
      missing quantity counting as 0. */
  lemma CurrentIsSum(inv: seq<Quantity>, id: int)
    ensures Current(inv, id) == SumOf(Select(inv, ItemOf, id), Weight)
    ensures forall j :: 0 <= j < |Select(inv, ItemOf, id)| ==> Select(inv, ItemOf, id)[j].itemId == Some(id)
  {
    TallyGet(inv, ItemOf, Weight, id);
  }

  /** The item a sale counts toward in the thirty-day forecast: the sale must
      be dated at or after the cutoff (an undated sale counts as time 0), and
      its batch must exist and name a non-zero item. */
  function RecentItem(inv: seq<Quantity>, now: int, s: Sale): (r: Option<int>)
    ensures r.Some? <==>
      s.createdAt.GetOr(0) >= now - ThirtyDaysMs
      && RowOfSale(inv, s).Some? && TruthyInt(RowOfSale(inv, s).value.itemId)
    ensures r.Some? ==> r == RowOfSale(inv, s).value.itemId
  {
    var when := s.createdAt.GetOr(0);
    if when >= now - ThirtyDaysMs then
      match RowOfSale(inv, s)
      case None => None
      case Some(q) => if TruthyInt(q.itemId) then q.itemId else None
    else None
  }

  function One(s: Sale): int {
    1
  }

  /** `perItemSales30d`. */
  function SalesByItem(inv: seq<Quantity>, sales: seq<Sale>, now: int): Counts<int> {
    Tally(sales, s => RecentItem(inv, now, s), One)
  }

  /** `perItemSales30d[id] ?? 0`: the number of sales that count toward the
      item. */
  lemma SalesCount(inv: seq<Quantity>, sales: seq<Sale>, now: int, id: int)
    ensures Get(SalesByItem(inv, sales, now), id) == |Select(sales, s => RecentItem(inv, now, s), id)|
  {
    TallyGet(sales, s => RecentItem(inv, now, s), One, id);
    SumOfOnes(Select(sales, s => RecentItem(inv, now, s), id), One);
  }

  /** A sale that does not count (too old, unknown batch, or a batch with no
      item) changes no item's forecast. */
  lemma IgnoredSale(inv: seq<Quantity>, sales: seq<Sale>, now: int, s: Sale, id: int)
    requires RecentItem(inv, now, s).None?
    ensures Get(SalesByItem(inv, sales + [s], now), id) == Get(SalesByItem(inv, sales, now), id)
  {
    SalesCount(inv, sales + [s], now, id);
    SalesCount(inv, sales, now, id);
    assert (sales + [s])[..|sales|] == sales;
  }

  /** `suppliers[0]?.leadTimeDays` when present and non-zero, else 7. */
  function LeadTime(suppliers: seq<Supplier>): (d: int)
    ensures |suppliers| > 0 && TruthyInt(suppliers[0].leadTimeDays) ==> d == suppliers[0].leadTimeDays.value
    ensures !(|suppliers| > 0 && TruthyInt(suppliers[0].leadTimeDays)) ==> d == 7
  {
    if |suppliers| > 0 && TruthyInt(suppliers[0].leadTimeDays) then suppliers[0].leadTimeDays.value else 7
  }

  const Safety: int := 10

  /** `Math.ceil(a / b)` for a positive divisor. */
  function CeilDiv(a: int, b: int): int
    requires b > 0
  {
    -((-a) / b)
  }

  lemma CeilDivBounds(a: int, b: int)
    requires b > 0
    ensures b * CeilDiv(a, b) >= a
    ensures b * (CeilDiv(a, b) - 1) < a
  {
  }

  /** `Math.max(0, Math.ceil(forecast * (lead / 30) + safety - current))`
      computed exactly: the smallest non-negative number of units that brings
      `current` up to the forecast demand over the lead time plus the safety
      stock. */
  function Suggested(forecast: int, lead: int, current: int): (n: nat)
    ensures 30 * (current + n) >= forecast * lead + 30 * Safety
    ensures n > 0 ==> 30 * (current + n - 1) < forecast * lead + 30 * Safety
  {
    var shortfall := forecast * lead + 30 * Safety - 30 * current;
    CeilDivBounds(shortfall, 30);
    if CeilDiv(shortfall, 30) < 0 then 0 else CeilDiv(shortfall, 30)
  }

  /** Nothing is suggested exactly when stock already covers the forecast
      demand over the lead time plus the safety stock. */
  lemma SuggestedZero(forecast: int, lead: int, current: int)
    ensures Suggested(forecast, lead, current) == 0 <==> 30 * current >= forecast * lead + 30 * Safety
  {
  }

  /** More stock never raises the suggestion. */
  lemma SuggestedAntitone(forecast: int, lead: int, c1: int, c2: int)
    requires c1 <= c2
    ensures Suggested(forecast, lead, c2) <= Suggested(forecast, lead, c1)
  {
  }

  /** One row of the suggested-orders table. */
  datatype Row = Row(id: int, itemName: Option<string>, current: int, forecast: int, lead: int, safety: int, suggested: nat)

  /** The table: one row per item, in item order. */
  function Rows(items: seq<Item>, inv: seq<Quantity>, suppliers: seq<Supplier>, sales: seq<Sale>, now: int): (rows: seq<Row>)
    ensures |rows| == |items|
    ensures forall i :: 0 <= i < |items| ==> rows[i].id == items[i].id && rows[i].itemName == items[i].itemName
  {
    var stock := StockByItem(inv);
    var sold := SalesByItem(inv, sales, now);
    var lead := LeadTime(suppliers);
    seq(|items|, i requires 0 <= i < |items| =>
      var current := Get(stock, items[i].id);
      var forecast := Get(sold, items[i].id);
      Row(items[i].id, items[i].itemName, current, forecast, lead, Safety, Suggested(forecast, lead, current)))
  }

  /** Every row carries its item's stock and thirty-day sales, the shared
      lead time, and a suggestion that covers the shortfall and no more. */
  lemma RowContents(items: seq<Item>, inv: seq<Quantity>, suppliers: seq<Supplier>, sales: seq<Sale>, now: int, i: nat)
    requires i < |items|
    ensures var r := Rows(items, inv, suppliers, sales, now)[i];
      && r.current == SumOf(Select(inv, ItemOf, items[i].id), Weight)
      && r.forecast == |Select(sales, s => RecentItem(inv, now, s), items[i].id)|
      && r.lead == LeadTime(suppliers)
      && r.safety == 10
      && 30 * (r.current + r.suggested) >= r.forecast * r.lead + 300
      && (r.suggested == 0 <==> 30 * r.current >= r.forecast * r.lead + 300)
  {
    CurrentIsSum(inv, items[i].id);
    SalesCount(inv, sales, now, items[i].id);
    var r := Rows(items, inv, suppliers, sales, now)[i];
    SuggestedZero(r.forecast, r.lead, r.current);
  }
}

=== FILE: sales.dfy ===
/** The new-sale form's "first expired, first out" helper: the stock
    batches listed earliest expiry first, and the suggestion that fills the
    form from the head of that list. */
module Sales {
  import opened Common
  import opened Records
  import opened Ordering

  /** The sort key: the expiry time, with an undated batch sorting as
      `+Infinity`. */
  function ExpiryKey(q: Quantity): Option<int> {
    q.expiryDate
  }

  /** `fefoSorted`. */
  function FefoSorted(quantities: seq<Quantity>): (r: seq<Quantity>)
    ensures |r| == |quantities| && multiset(r) == multiset(quantities)
  {
    SortByKey(quantities, ExpiryKey)
  }

  /** The batches come earliest expiry first, and every dated batch comes
      before every undated one. */
  lemma FefoOrder(quantities: seq<Quantity>, i: nat, j: nat)
    requires i < j < |quantities|
    ensures var r := FefoSorted(quantities);
      && (r[i].expiryDate.Some? && r[j].expiryDate.Some? ==> r[i].expiryDate.value <= r[j].expiryDate.value)
      && (r[j].expiryDate.Some? ==> r[i].expiryDate.Some?)
  {
    var r := FefoSorted(quantities);
    assert KeyLe(ExpiryKey(r[i]), ExpiryKey(r[j]));
  }

  /** Batches with the same expiry (or both undated) stay in their listed
      order. */
  lemma FefoStable(quantities: seq<Quantity>, e: Option<int>)
    ensures WithKey(FefoSorted(quantities), ExpiryKey, e) == WithKey(quantities, ExpiryKey, e)
  {
    SortStable(quantities, ExpiryKey, e);
  }

  /** The fields of the sale form the helper touches. */
  datatype SaleForm = SaleForm(itemQuantityId: Option<int>, inventoryId: Option<int>, salePrice: Option<int>, status: bool)

  /** `suggestFEFO`: on a non-empty list, set the batch and the warehouse
      from the head of the sorted list; on an empty list, do nothing. */
  function SuggestFefo(form: SaleForm, quantities: seq<Quantity>): (r: SaleForm)
    ensures |quantities| == 0 ==> r == form
    ensures |quantities| > 0 ==>
      exists k :: 0 <= k < |quantities|
        && r.itemQuantityId == Some(quantities[k].id)
        && r.inventoryId == Some(quantities[k].inventoryId)
        && forall j :: 0 <= j < |quantities| ==> KeyLe(quantities[k].expiryDate, quantities[j].expiryDate)
    ensures r.salePrice == form.salePrice && r.status == form.status
  {
    var sorted := FefoSorted(quantities);
    if |sorted| == 0 then form
    else
      var pick := sorted[0];
      HeadIsMinimal(quantities, ExpiryKey);
      assert pick in multiset(quantities);
      form.(itemQuantityId := Some(pick.id), inventoryId := Some(pick.inventoryId))
  }

  /** Suggesting twice is suggesting once. */
  lemma SuggestIdempotent(form: SaleForm, quantities: seq<Quantity>)
    ensures SuggestFefo(SuggestFefo(form, quantities), quantities) == SuggestFefo(form, quantities)
  {
  }

  /** When the earliest-expiring batch is unique, the suggestion is that
      batch. */
  lemma SuggestUniqueEarliest(form: SaleForm, quantities: seq<Quantity>, k: nat)
    requires k < |quantities| && quantities[k].expiryDate.Some?
    requires forall j :: 0 <= j < |quantities| && j != k ==>
      quantities[j].expiryDate.None? || quantities[k].expiryDate.value < quantities[j].expiryDate.value
    ensures SuggestFefo(form, quantities).itemQuantityId == Some(quantities[k].id)
    ensures SuggestFefo(form, quantities).inventoryId == Some(quantities[k].inventoryId)
  {
    var sorted := FefoSorted(quantities);
    HeadIsMinimal(quantities, ExpiryKey);
    assert sorted[0] in multiset(quantities);
    var m :| 0 <= m < |quantities| && quantities[m] == sorted[0];
    assert KeyLe(sorted[0].expiryDate, quantities[k].expiryDate);
    assert m == k;
  }
}

=== FILE: scanning.dfy ===
/** The scanning page's history buffer: each scan is trimmed, blank scans are
    ignored, and an accepted code becomes the last scan and is put in front
    of a history that keeps at most twenty entries. */
module Scanning {
  import opened Common
  import opened Strings

  const HistoryLimit: nat := 20

  datatype ScanState = ScanState(last: string, history: seq<string>)

  const Initial: ScanState := ScanState("", [])

  /** `onScan(code)`. */
  function OnScan(s: ScanState, code: string): (r: ScanState)
    ensures Trim(code) == "" ==> r == s
    ensures Trim(code) != "" ==> r.last == Trim(code) && r.history == Take([Trim(code)] + s.history, HistoryLimit)
  {
    var val := Trim(code);
    if val == "" then s
    else ScanState(val, Take([val] + s.history, HistoryLimit))
  }

  /** A history entry: non-empty and already trimmed. */
  predicate Clean(e: string) {
    e != "" && Trim(e) == e
  }

  /** What every reachable state satisfies: at most twenty entries, each
      clean, with the last scan at the front. */
  predicate Good(s: ScanState) {
    && |s.history| <= HistoryLimit
    && (forall i :: 0 <= i < |s.history| ==> Clean(s.history[i]))
    && (if |s.history| == 0 then s.last == "" else s.last == s.history[0])
  }

  /** Every scan keeps the state good. */
  lemma OnScanKeepsGood(s: ScanState, code: string)
    requires Good(s)
    ensures Good(OnScan(s, code))
  {
    var val := Trim(code);
    if val != "" {
      TrimIdempotent(code);
      var h := [val] + s.history;
      assert forall i :: 1 <= i < |h| ==> h[i] == s.history[i - 1];
    }
  }

  /** The codes accepted from a series of scans, newest first. */
  function Accepted(codes: seq<string>): (a: seq<string>)
    ensures |a| <= |codes|
  {
    if |codes| == 0 then []
    else
      var c := codes[|codes| - 1];
      (if Trim(c) == "" then [] else [Trim(c)]) + Accepted(codes[..|codes| - 1])
  }

  /** Every accepted code is clean. */
  lemma {:induction false} AcceptedClean(codes: seq<string>)
    ensures forall i :: 0 <= i < |Accepted(codes)| ==> Clean(Accepted(codes)[i])
  {
    if |codes| > 0 {
      var c := codes[|codes| - 1];
      var rest := Accepted(codes[..|codes| - 1]);
      AcceptedClean(codes[..|codes| - 1]);
      if Trim(c) == "" {
        assert Accepted(codes) == [] + rest;
      } else {
        TrimIdempotent(c);
        var a := Accepted(codes);
        assert a == [Trim(c)] + rest;
        forall i | 0 <= i < |a|
          ensures Clean(a[i])
        {
          if i > 0 {
            assert a[i] == rest[i - 1];
          }
        }
      }
    }
  }

  /** Scanning the codes in order. */
  function ScanAll(s: ScanState, codes: seq<string>): ScanState {
    if |codes| == 0 then s else OnScan(ScanAll(s, codes[..|codes| - 1]), codes[|codes| - 1])
  }

  lemma TakeCons<T>(x: T, s: seq<T>, n: nat)
    requires n > 0
    ensures Take([x] + Take(s, n), n) == Take([x] + s, n)
  {
  }

  lemma AcceptedLast(codes: seq<string>)
    requires |codes| > 0
    ensures var c := codes[|codes| - 1];
            Accepted(codes) == (if Trim(c) == "" then [] else [Trim(c)]) + Accepted(codes[..|codes| - 1])
  {
  }

  lemma OnScanStep(before: ScanState, s: ScanState, a: seq<string>, c: string)
    requires Trim(c) != ""
    requires a != [] ==> before.history == Take(a + s.history, HistoryLimit)
    requires a == [] ==> before == s
    ensures OnScan(before, c).history == Take([Trim(c)] + a + s.history, HistoryLimit)
  {
    var v := Trim(c);
    if a == [] {
      assert [v] + a + s.history == [v] + s.history;
    } else {
      TakeCons(v, a + s.history, HistoryLimit);
      assert [v] + (a + s.history) == [v] + a + s.history;
    }
  }

  /** Scans that are all blank change nothing. */
  lemma {:induction false} BlankScansChangeNothing(s: ScanState, codes: seq<string>)
    requires Accepted(codes) == []
    ensures ScanAll(s, codes) == s
  {
    if |codes| > 0 {
      AcceptedLast(codes);
      BlankScansChangeNothing(s, codes[..|codes| - 1]);
    }
  }

  /** After a series of scans the history is the accepted codes, newest
      first, in front of the old history, cut to twenty, and the last scan
      is the newest accepted code. */
  lemma {:induction false} ScanAllHistory(s: ScanState, codes: seq<string>)
    requires Accepted(codes) != []
    ensures ScanAll(s, codes).history == Take(Accepted(codes) + s.history, HistoryLimit)
    ensures ScanAll(s, codes).last == Accepted(codes)[0]
  {
    var pre := codes[..|codes| - 1];
    var c := codes[|codes| - 1];
    AcceptedLast(codes);
    var a := Accepted(pre);
    var before := ScanAll(s, pre);
    assert ScanAll(s, codes) == OnScan(before, c);
    if Trim(c) == "" {
      assert Accepted(codes) == a;
      ScanAllHistory(s, pre);
    } else {
      if a == [] {
        BlankScansChangeNothing(s, pre);
      } else {
        ScanAllHistory(s, pre);
      }
      OnScanStep(before, s, a, c);
      assert [Trim(c)] + a + s.history == Accepted(codes) + s.history;
    }
  }
}

=== FILE: sidebar.dfy ===
/** The navigation sidebar's collapse state: whether the whole sidebar is
    collapsed, and a flag per navigation group saying whether that group is
    folded. Both are read from browser storage on mount and written back on
    every change; storage is modelled as the two optional stored texts. */
module Sidebar {
  import opened Common

  /** The keys of the collapsible groups, in display order. */
  const GroupKeys: seq<string> := ["masters", "operations", "controls", "planning", "tools", "settings"]

  /** The always-visible group, which has no fold flag. */
  const CoreKey: string := "core"

  /** The two storage slots: `sidebar-collapsed` holds the text written by
      `String(next)`, `sidebar-groups` holds a JSON record of flags. */
  datatype GroupsText = Malformed | Flags(flags: map<string, bool>)

  datatype Saved = Saved(collapsed: Option<string>, groups: Option<GroupsText>)

  datatype State = State(collapsed: bool, groups: map<string, bool>)

  const Initial: State := State(false, map[])

  /** `Boolean(groups[k])`: a group without an entry is not folded. */
  predicate Flag(groups: map<string, bool>, k: string) {
    k in groups && groups[k]
  }

  /** The mount effect. A non-empty stored `sidebar-collapsed` text sets the
      flag to whether it is exactly `"true"`; a non-empty stored record
      replaces the group flags; text that does not parse changes nothing. */
  function Hydrate(saved: Saved, s: State): (r: State)
    ensures TruthyStr(saved.collapsed) ==> (r.collapsed <==> saved.collapsed.value == "true")
    ensures !TruthyStr(saved.collapsed) ==> r.collapsed == s.collapsed
    ensures saved.groups.Some? && saved.groups.value.Flags? ==> r.groups == saved.groups.value.flags
    ensures saved.groups.None? || saved.groups.value.Malformed? ==> r.groups == s.groups
  {
    var collapsed := if TruthyStr(saved.collapsed) then saved.collapsed.value == "true" else s.collapsed;
    var groups := match saved.groups
      case Some(Flags(f)) => f
      case _ => s.groups;
    State(collapsed, groups)
  }

  /** `String(b)` for a boolean. */
  function BoolText(b: bool): string {
    if b then "true" else "false"
  }

  /** The `toggle-sidebar` event handler: flip the collapsed flag and store
      it. */
  function ToggleSidebar(s: State, saved: Saved): (r: (State, Saved))
    ensures r.0.collapsed == !s.collapsed && r.0.groups == s.groups
    ensures r.1.groups == saved.groups
  {
    var next := !s.collapsed;
    (s.(collapsed := next), saved.(collapsed := Some(BoolText(next))))
  }

  /** What the handler stores is read back on the next mount as the flag it
      just set, whatever state the component mounts into. */
  lemma ToggleSidebarSurvivesReload(s: State, saved: Saved, t: State)
    ensures Hydrate(ToggleSidebar(s, saved).1, t).collapsed == ToggleSidebar(s, saved).0.collapsed
  {
  }

  /** Two toggles of the sidebar restore the state. */
  lemma ToggleSidebarTwice(s: State, saved: Saved)
    ensures ToggleSidebar(ToggleSidebar(s, saved).0, ToggleSidebar(s, saved).1).0 == s
  {
  }

  /** `toggleGroup(k)`: flip the flag of `k` (a missing flag counts as
      unfolded), leave every other flag as it was, and store the record. */
  function ToggleGroup(s: State, saved: Saved, k: string): (r: (State, Saved))
    ensures Flag(r.0.groups, k) == !Flag(s.groups, k)
    ensures forall j :: j != k ==> (j in r.0.groups <==> j in s.groups)
    ensures forall j :: j in s.groups && j != k ==> r.0.groups[j] == s.groups[j]
    ensures r.0.collapsed == s.collapsed
    ensures r.1 == saved.(groups := Some(Flags(r.0.groups)))
  {
    var next := s.groups[k := !Flag(s.groups, k)];
    (s.(groups := next), saved.(groups := Some(Flags(next))))
  }

  /** Toggling a group twice restores every group's fold state. */
  lemma ToggleGroupTwice(s: State, saved: Saved, k: string, j: string)
    ensures var once := ToggleGroup(s, saved, k);
            Flag(ToggleGroup(once.0, once.1, k).0.groups, j) == Flag(s.groups, j)
  {
  }

  /** Whether every collapsible group among `keys` is folded. */
  function Every(groups: map<string, bool>, keys: seq<string>): (b: bool)
    ensures b <==> forall i :: 0 <= i < |keys| ==> Flag(groups, keys[i])
  {
    if |keys| == 0 then true
    else
      assert forall i :: 1 <= i < |keys| ==> keys[i] == keys[1..][i - 1];
      Flag(groups, keys[0]) && Every(groups, keys[1..])
  }

  /** `allGroupsCollapsed`: every collapsible group is folded. */
  function AllGroupsCollapsed(groups: map<string, bool>): (b: bool)
    ensures b <==> forall i :: 0 <= i < |GroupKeys| ==> Flag(groups, GroupKeys[i])
  {
    Every(groups, GroupKeys)
  }

  /** The flag record holding exactly the collapsible group keys, all set to
      `b`. */
  function Uniform(b: bool): (groups: map<string, bool>)
    ensures forall k :: k in groups <==> k in GroupKeys
    ensures forall k :: k in groups ==> groups[k] == b
  {
    map k | k in GroupKeys :: b
  }

  /** `toggleAllGroups`: fold every collapsible group unless all already are,
      in which case unfold them all; the new record holds exactly the
      collapsible keys, and never the core group. */
  function ToggleAllGroups(s: State, saved: Saved): (r: (State, Saved))
    ensures r.0.groups == Uniform(!AllGroupsCollapsed(s.groups))
    ensures CoreKey !in r.0.groups
    ensures r.0.collapsed == s.collapsed
    ensures r.1 == saved.(groups := Some(Flags(r.0.groups)))
  {
    var next := Uniform(!AllGroupsCollapsed(s.groups));
    assert CoreKey !in GroupKeys;
    (s.(groups := next), saved.(groups := Some(Flags(next))))
  }

  /** After collapse-all/expand-all, "all collapsed" is the opposite of what
      it was before. */
  lemma ToggleAllFlips(s: State, saved: Saved)
    ensures AllGroupsCollapsed(ToggleAllGroups(s, saved).0.groups) == !AllGroupsCollapsed(s.groups)
  {
    var g := ToggleAllGroups(s, saved).0.groups;
    if !AllGroupsCollapsed(s.groups) {
      forall i | 0 <= i < |GroupKeys|
        ensures Flag(g, GroupKeys[i])
      {
        assert GroupKeys[i] in GroupKeys;
      }
    } else {
      assert GroupKeys[0] in GroupKeys;
      assert !Flag(g, GroupKeys[0]);
    }
  }

  /** Applied to a uniform record, collapse-all/expand-all twice is the
      identity; applied to any record, three times is once. */
  lemma ToggleAllTwice(s: State, saved: Saved)
    ensures s.groups == Uniform(true) || s.groups == Uniform(false) ==>
      var once := ToggleAllGroups(s, saved);
      ToggleAllGroups(once.0, once.1).0 == s
    ensures var once := ToggleAllGroups(s, saved);
            var twice := ToggleAllGroups(once.0, once.1);
            ToggleAllGroups(twice.0, twice.1).0 == once.0
  {
    var once := ToggleAllGroups(s, saved);
    var twice := ToggleAllGroups(once.0, once.1);
    ToggleAllFlips(s, saved);
    ToggleAllFlips(once.0, once.1);
    ToggleAllFlips(twice.0, twice.1);
    if s.groups == Uniform(true) || s.groups == Uniform(false) {
      assert AllGroupsCollapsed(s.groups) == (s.groups == Uniform(true)) by {
        if s.groups == Uniform(false) {
          assert GroupKeys[0] in GroupKeys;
        } else {
          forall i | 0 <= i < |GroupKeys|
            ensures Flag(s.groups, GroupKeys[i])
          {
            assert GroupKeys[i] in GroupKeys;
          }
        }
      }
    }
  }

  /** `isCollapsedGroup`: a group is shown folded only while the sidebar
      itself is expanded and the group's flag is set. */
  predicate IsCollapsedGroup(s: State, k: string) {
    if s.collapsed then false else Flag(s.groups, k)
  }

  /** A collapsed sidebar folds no group, whatever the flags say; an expanded
      one folds exactly the flagged groups. */
  lemma CollapsedSidebarFoldsNothing(s: State, k: string)
    ensures s.collapsed ==> !IsCollapsedGroup(s, k)
    ensures !s.collapsed ==> (IsCollapsedGroup(s, k) <==> k in s.groups && s.groups[k])
  {
  }

  /** The group record a reload sees is the one the last group toggle
      stored. */
  lemma GroupsSurviveReload(s: State, saved: Saved, k: string, t: State)
    ensures Hydrate(ToggleGroup(s, saved, k).1, t).groups == ToggleGroup(s, saved, k).0.groups
    ensures Hydrate(ToggleAllGroups(s, saved).1, t).groups == ToggleAllGroups(s, saved).0.groups
  {
  }
}

=== FILE: strings.dfy ===
/** The string operations the dashboard uses: `Array.prototype.join`,
    `String.prototype.split` on one character, `trim`, a global
    one-character `replace`, and `String(n)` for integers. */
module Strings {
  import opened Common

  /** `parts.join(sep)`. */
  function Join(parts: seq<string>, sep: string): string {
    if |parts| == 0 then ""
    else if |parts| == 1 then parts[0]
    else parts[0] + sep + Join(parts[1..], sep)
  }

  /** Joining one more piece appends the separator and the piece. */
  lemma {:induction false} JoinSnoc(parts: seq<string>, x: string, sep: string)
    requires |parts| >= 1
    ensures Join(parts + [x], sep) == Join(parts, sep) + sep + x
  {
    if |parts| > 1 {
      assert (parts + [x])[1..] == parts[1..] + [x];
      JoinSnoc(parts[1..], x, sep);
    } else {
      assert (parts + [x])[1..] == [x];
    }
  }

  /** `s.split(c)` for a one-character separator: never empty, and no piece
      contains the separator. */
  function Split(s: string, c: char): (r: seq<string>)
    ensures |r| >= 1
    ensures forall i :: 0 <= i < |r| ==> c !in r[i]
    decreases |s|
  {
    var i := IndexOf(s, c);
    if i == -1 then [s] else [s[..i]] + Split(s[i + 1..], c)
  }

  /** Joining a first piece in front of at least one more. */
  lemma JoinCons(a: string, rest: seq<string>, sep: string)
    requires |rest| >= 1
    ensures Join([a] + rest, sep) == a + sep + Join(rest, sep)
  {
    assert ([a] + rest)[1..] == rest;
  }

  /** One step of `Split`: no separator gives the whole string, otherwise
      the text before the first separator comes first. */
  lemma SplitStep(s: string, c: char)
    ensures IndexOf(s, c) == -1 ==> Split(s, c) == [s]
    ensures IndexOf(s, c) != -1 ==>
      Split(s, c) == [s[..IndexOf(s, c)]] + Split(s[IndexOf(s, c) + 1..], c)
  {
  }

  /** A string is the text before position `i`, the character there, and
      the text after it. */
  lemma Reassemble(s: string, i: nat)
    requires i < |s|
    ensures s[..i] + [s[i]] + s[i + 1..] == s
  {
    assert s[..i] + [s[i]] == s[..i + 1];
  }

  /** The recursive step of `JoinSplit`: a piece, the separator, and a
      tail that joins back to the rest of the string. */
  lemma JoinAround(s: string, i: nat, c: char, rest: seq<string>)
    requires i < |s| && s[i] == c && |rest| >= 1
    requires Join(rest, [c]) == s[i + 1..]
    ensures Join([s[..i]] + rest, [c]) == s
  {
    JoinCons(s[..i], rest, [c]);
    Reassemble(s, i);
  }

  /** Joining the pieces of a split with the separator gives back the string. */
  lemma {:induction false} JoinSplit(s: string, c: char)
    ensures Join(Split(s, c), [c]) == s
    decreases |s|
  {
    var i := IndexOf(s, c);
    if i != -1 {
      JoinSplit(s[i + 1..], c);
      JoinSplitAt(s, c, i);
    } else {
      SplitStep(s, c);
    }
  }

  /** `JoinSplit` for a string whose first separator is at `i`, given the
      result for the text after it. */
  lemma JoinSplitAt(s: string, c: char, i: nat)
    requires i < |s| && IndexOf(s, c) == i
    requires Join(Split(s[i + 1..], c), [c]) == s[i + 1..]
    ensures Join(Split(s, c), [c]) == s
  {
    SplitStep(s, c);
    JoinAround(s, i, c, Split(s[i + 1..], c));
  }

  lemma {:induction false} IndexOfAfter(a: string, c: char, b: string)
    requires c !in a
    ensures IndexOf(a + [c] + b, c) == |a|
  {
    if |a| > 0 {
      assert (a + [c] + b)[1..] == a[1..] + [c] + b;
      IndexOfAfter(a[1..], c, b);
    }
  }

  /** A separator-free prefix ending at the first separator is split off
      as the first piece. */
  lemma SplitAt(a: string, c: char, b: string)
    requires c !in a
    ensures Split(a + [c] + b, c) == [a] + Split(b, c)
  {
    var s := a + [c] + b;
    IndexOfAfter(a, c, b);
    assert s[..|a|] == a;
    assert s[|a| + 1..] == b;
  }

  /** Splitting a join of separator-free pieces recovers the pieces: a
      non-empty list of such pieces is determined by its join. */
  lemma {:induction false} SplitJoin(parts: seq<string>, c: char)
    requires |parts| >= 1
    requires forall i :: 0 <= i < |parts| ==> c !in parts[i]
    ensures Split(Join(parts, [c]), c) == parts
  {
    if |parts| > 1 {
      var tail := Join(parts[1..], [c]);
      assert Join(parts, [c]) == parts[0] + [c] + tail;
      SplitAt(parts[0], c, tail);
      SplitJoin(parts[1..], c);
      assert parts == [parts[0]] + parts[1..];
    }
  }

  /** `s.replace(/from/g, to)` for single characters. */
  function ReplaceAll(s: string, from: char, to: char): (r: string)
    ensures |r| == |s|
    ensures forall i :: 0 <= i < |s| ==> r[i] == if s[i] == from then to else s[i]
  {
    seq(|s|, i requires 0 <= i < |s| => if s[i] == from then to else s[i])
  }

  /** The characters `String.prototype.trim` removes: ECMAScript WhiteSpace
      (tab, vertical tab, form feed, space, no-break space, byte-order mark
      and the Unicode space separators) and LineTerminator. */
  predicate IsSpace(ch: char) {
    || ch == '\t' || ch == '\n' || ch == '\U{000B}' || ch == '\U{000C}' || ch == '\r'
    || ch == ' ' || ch == '\U{00A0}' || ch == '\U{1680}'
    || ('\U{2000}' <= ch <= '\U{200A}')
    || ch == '\U{2028}' || ch == '\U{2029}' || ch == '\U{202F}' || ch == '\U{205F}'
    || ch == '\U{3000}' || ch == '\U{FEFF}'
  }

  /** The number of leading white-space characters of `s`. */
  function LeadingSpaces(s: string): (k: nat)
    ensures k <= |s|
    ensures forall j :: 0 <= j < k ==> IsSpace(s[j])
    ensures k < |s| ==> !IsSpace(s[k])
  {
    if |s| > 0 && IsSpace(s[0]) then 1 + LeadingSpaces(s[1..]) else 0
  }

  /** The number of trailing white-space characters of `s`. */
  function TrailingSpaces(s: string): (k: nat)
    ensures k <= |s|
    ensures forall j :: |s| - k <= j < |s| ==> IsSpace(s[j])
    ensures k < |s| ==> !IsSpace(s[|s| - k - 1])
  {
    if |s| > 0 && IsSpace(s[|s| - 1]) then 1 + TrailingSpaces(s[..|s| - 1]) else 0
  }

  /** `s.trim()`: the slice of `s` between its leading and trailing white
      space. */
  function Trim(s: string): (r: string)
    ensures |r| <= |s|
    ensures r == "" <==> forall j :: 0 <= j < |s| ==> IsSpace(s[j])
    ensures r != "" ==> !IsSpace(r[0]) && !IsSpace(r[|r| - 1])
  {
    var a := LeadingSpaces(s);
    if a == |s| then ""
    else
      var b := TrailingSpaces(s);
      assert !IsSpace(s[a]);
      assert b < |s| - a;
      s[a..|s| - b]
  }

  /** Trimming is idempotent: a trimmed string is its own trim. */
  lemma TrimIdempotent(s: string)
    ensures Trim(Trim(s)) == Trim(s)
  {
    var t := Trim(s);
    if t != "" {
      assert LeadingSpaces(t) == 0;
      assert TrailingSpaces(t) == 0;
      assert t[0..|t| - 0] == t;
    }
  }

  /** The character of a decimal digit. */
  function DigitChar(d: nat): (ch: char)
    requires d < 10
    ensures '0' <= ch <= '9'
  {
    (48 + d) as char
  }

  function DigitValue(ch: char): nat
    requires '0' <= ch <= '9'
  {
    ch as int - 48
  }

  predicate AllDigits(s: string) {
    forall i :: 0 <= i < |s| ==> '0' <= s[i] <= '9'
  }

  /** Decimal rendering of a natural number, without leading zeros. */
  function NatToString(n: nat): (r: string)
    ensures |r| >= 1 && AllDigits(r)
    ensures |r| > 1 ==> r[0] != '0'
  {
    if n < 10 then [DigitChar(n)] else NatToString(n / 10) + [DigitChar(n % 10)]
  }

  /** `String(n)` for an integer-valued number. */
  function IntToString(n: int): (r: string)
    ensures |r| >= 1
    ensures forall i :: 0 <= i < |r| ==> ('0' <= r[i] <= '9') || (i == 0 && r[i] == '-')
  {
    if n < 0 then "-" + NatToString(-n) else NatToString(n)
  }

  /** The value of a string of decimal digits. */
  function ParseNat(s: string): nat
    requires AllDigits(s)
  {
    if |s| == 0 then 0 else ParseNat(s[..|s| - 1]) * 10 + DigitValue(s[|s| - 1])
  }

  /** The value of an optionally negated string of decimal digits. */
  function ParseInt(s: string): int
    requires |s| >= 1
    requires forall i :: 0 <= i < |s| ==> ('0' <= s[i] <= '9') || (i == 0 && s[i] == '-')
  {
    if s[0] == '-' then -(ParseNat(s[1..]) as int) else ParseNat(s)
  }

  lemma {:induction false} NatToStringRoundTrip(n: nat)
    ensures ParseNat(NatToString(n)) == n
  {
    if n >= 10 {
      NatToStringRoundTrip(n / 10);
      var r := NatToString(n);
      assert r[..|r| - 1] == NatToString(n / 10);
    }
  }

  /** `String(n)` is decoded back to `n`, so distinct integers render as
      distinct strings. */
  lemma IntToStringRoundTrip(n: int)
    ensures ParseInt(IntToString(n)) == n
  {
    if n < 0 {
      NatToStringRoundTrip(-n);
      assert IntToString(n)[1..] == NatToString(-n);
    } else {
      NatToStringRoundTrip(n);
    }
  }

  lemma IntToStringInjective(a: int, b: int)
    requires IntToString(a) == IntToString(b)
    ensures a == b
  {
    IntToStringRoundTrip(a);
    IntToStringRoundTrip(b);
  }
}
